=== FILE: README.md ===
# azathoth text and path core, in Dafny

azathoth turns code bases and GitHub accounts into text digests for language
models, and serves coding directives to them. This project models the parts of
it that work on text, paths and sequences. Everything the program asks of the
outside world is an input to the model: the filesystem, git, gitingest, the
tokenizer, the GitHub API, TOML files and the assets the Rust servers include at
build time.

The modules follow the program's files:

- `Text`, `PyNumbers` and `Wrappers` are shared helpers. They cover Python's
  `split`, `strip`, `lower`, `replace`, `int`, `float` and `str` on the inputs
  the program gives them, plus `Option`/`Result`.
- `Utils` models `estimate_tokens` (its `len // 4` fallback) and the loop of
  `format_size` (`src/azathoth/core/utils.py`), whose `.1f` converts the
  integer to a double first.
- `SummaryMetrics` models the two readers of gitingest's summary: the older one
  in `src/azathoth/ingest/core.py` and the newer one in
  `src/azathoth/core/ingest.py`.
  - Both are one loop over the lines.
  - The model proves which line each counter comes from.
  - It proves how `k`/`M` suffixes scale a value.
  - It proves which conversion errors escape.
- `Report` models the banner report and its UTF-8 size.
- `IngestEngine` models target classification, digest names for URLs and the
  name, root and pattern of a local path inside a repository.
- `UserBatch` models `process_user`: filtering of forks and of the repository
  named after the user, the success and failure tally, and the combined digest.
  The order in which concurrent ingests finish is an input.
- `Ingest` models the newer entry point: metrics, size and file name.
- `Listing` models `list_directory`.
  - It is a class whose `Walk` recurses over a tree value.
  - The walk updates the counters and the entry list, as the source does.
  - The tree has nodes for links that cannot be followed (dangling or looping) and
    for entries whose `stat()` is refused. The first kind raises past the walk; the
    second ends the loop over its directory, keeping what earlier items added.
- `ToTxt` models the glob-driven concatenator. A refused pattern, or a match whose
  `is_file()` raises PermissionError, makes the whole call raise.
- `Directives`, `Scout` and `Prompts` model `src/azathoth/core/directives.py`,
  `scout.py` and `prompts.py`.
- `PyScout` models the `adapt` tool of the Python scout server.
- There are two Rust directives servers in two different files:
  - `mcp-rs/examples/directives.rs` is the first server, with a literal `match`.
  - `src/mcp_rs/examples/directives.rs` is the macro-generated server.

  Rows citing the first path are about the first server and rows citing the
  second are about the macro-generated one. The `get_multiple_guidances` loop is
  the same in both; its rows cite the first server's copy.
- `Guides` holds what the Rust servers share:
  - the language enum;
  - the arms of a `define_directives!` table;
  - first-match lookup;
  - the placeholder and fallback texts;
  - the `get_multiple_guidances` loop.
- `GuideV1` models the first Rust directives server
  (`mcp-rs/examples/directives.rs`), whose `from_string` is a literal `match`.
- `GuideMacro` models the macro-generated directives server
  (`src/mcp_rs/examples/directives.rs`).
- `ScoutRs` models the Rust scout server's `adapt`
  (`src/mcp_rs/examples/scout.rs`).
- `GuideTools` models the exported `define_directives!` macro
  (`src/mcp_rs/src/tools/directives.rs`), over any table of arms.

The two macro-generated servers compare the lower-cased input with
`stringify!($lang)`. That is the identifier as written: `Python`, `Go` and so
on. So only aliases can match: `py` finds the Python guide and `python` finds
nothing. `GuideMacro.RefinesFirstServer` states exactly how this differs from
the first server. The exported macro lower-cases the identifier as well, and
`Guides.LookupNameRules` states how the two rules differ.

## Model

| member | source | states |
|---|---|---|
| Utils.EstimateTokens | src/azathoth/core/utils.py:13-14 | without a tokenizer the estimate is `len(text) // 4`: four times it is at most the length and more than the length less four |
| Utils.EstimateTokensAppend | src/azathoth/core/utils.py:14 | the estimates of two parts add up to the estimate of their concatenation, up to one token |
| Utils.Divisions | src/azathoth/core/utils.py:19-22 | the number of floor divisions by 1024 is at most four, each division happens only while the value is 1024 or more, and fewer than four stop at a value below 1024 |
| Utils.DivisionsUnique | src/azathoth/core/utils.py:19-22 | no other count has that property |
| Utils.FormatSize | src/azathoth/core/utils.py:17-23 | the loop over the units returns the size text of its input: the value after the divisions converted to a double and printed with `.0` and the unit, or OverflowError |
| Utils.FormatSizeSmall | src/azathoth/core/utils.py:20-21 | a size below 1024 is printed in bytes: as `{n}.0 B` down to -2^53, and OverflowError for a negative size beyond the range of doubles |
| Utils.FormatSizeTerabytes | src/azathoth/core/utils.py:23 | from 1024^4 on, the value after four divisions is printed in TB even when it is 1024 or more: exactly below 2^53, and OverflowError beyond the range of doubles |
| Utils.FormatSizeRounds | src/azathoth/core/utils.py:23 | `(2^53 + 1) × 1024^4` bytes prints as `9007199254740992.0 TB`, because `.1f` rounds the quotient to a double |
| Utils.FileSizesExact | src/azathoth/core/utils.py:17-23 | every size a file can have (below 2^63) prints its exact integer after the divisions, then `.0` and the unit |
| Utils.FormatSizeInRange | src/azathoth/core/utils.py:19-22 | a size printed in KB, MB or GB shows an integer in [1, 1024) |
| PyNumbers.ParseIntOfString | src/azathoth/ingest/core.py:112 | `int` reads back every integer that `str` writes with at most 4300 digits |
| PyNumbers.ParseIntOfNat | src/azathoth/ingest/core.py:112 | the numeral of a natural number reads back as that number within the 4300-digit limit and raises ValueError beyond it |
| PyNumbers.ParseIntRejects | src/azathoth/ingest/core.py:124 | a character that is no ASCII digit, sign, underscore or whitespace, and no decimal digit of another script, makes `int` raise ValueError wherever it stands |
| PyNumbers.UnderscoreIgnored | src/azathoth/ingest/core.py:124 | an underscore between two ASCII digits is dropped: `a_b` and `ab` give the same numeral and the same `int` |
| PyNumbers.FloatUnderscoreIgnored | src/azathoth/ingest/core.py:120 | the same holds for `float` |
| PyNumbers.ThousandWithUnderscore | src/azathoth/ingest/core.py:124 | `1_000` is read as the numeral `1000` |
| PyNumbers.ScriptDigitsAgree | src/azathoth/ingest/core.py:124 | a decimal digit of any script may stand for the ASCII digit of the same value: `int` and the numeral do not change |
| PyNumbers.ArabicIndicTwelve | src/azathoth/ingest/core.py:124 | the Arabic-Indic digits one, two are read as the numeral `12` |
| PyNumbers.ParseFloatDecimal | src/azathoth/ingest/core.py:120 | `float` reads `w.f` as the exact decimal it writes, or as infinity when that decimal is beyond the range of doubles |
| PyNumbers.ParseFloatOfNat | src/azathoth/ingest/core.py:120 | `float` reads a natural number's numeral as that number, or as infinity beyond the range of doubles |
| PyNumbers.OverflowsMonotone | src/azathoth/ingest/core.py:120 | a value beyond the range of doubles stays beyond it when multiplied by a power of ten |
| PyNumbers.ScaleToInt | src/azathoth/ingest/core.py:120-122 | `int(x * 10^k)` raises ValueError exactly on NaN, and OverflowError exactly on an infinity or on a finite value whose scaled product is beyond the range of doubles |
| PyNumbers.ScaleFloor | src/azathoth/ingest/core.py:120-122 | for a non-negative decimal `int(x * 10^k)` is the floor of the exact product, or OverflowError when that product is beyond the range of doubles |
| PyNumbers.ScaleDecimal | src/azathoth/ingest/core.py:120-122 | scaling what `float` gives for `d × 10^-f` raises OverflowError exactly when `d × 10^(k-f)` is beyond the range of doubles, whether or not `float` already gave infinity, and is the floor otherwise |
| PyNumbers.ExcessBounds | src/azathoth/core/utils.py:21 | dropping the excess low bits leaves a significand below 2^53, of at least 2^52 for an integer of 2^53 or more |
| PyNumbers.RoundMantissaNearest | src/azathoth/core/utils.py:21 | `float(n)` is the multiple of the last kept bit within half of it of `n`, with at most 53 significant bits, and the even one at a tie |
| PyNumbers.RoundToMultiple | src/azathoth/core/utils.py:21 | rounding half to even to a multiple of `p` lands within `p/2` and picks the even multiple at a tie |
| PyNumbers.IntToFloatExact | src/azathoth/core/utils.py:21 | an integer below 2^53 in magnitude converts to itself |
| PyNumbers.IntToFloatTie | src/azathoth/core/utils.py:23 | 2^53 + 1 converts to 2^53 |
| SummaryMetrics.ScaledValue | src/azathoth/ingest/core.py:120-122 | a number that `float` cannot read leaves the counter unchanged |
| SummaryMetrics.LineStep | src/azathoth/ingest/core.py:110-126 | one line changes at most one of the two counters |
| SummaryMetrics.ParseSummary | src/azathoth/ingest/core.py:101-128 | the loop over the lines split at newlines computes the left fold of the line step from (0, 0) |
| SummaryMetrics.ParseLinesErrSticky | src/azathoth/ingest/core.py:116-126 | once an OverflowError escapes, the parse ends with it whatever lines follow |
| SummaryMetrics.OnlyOverflowErrs | src/azathoth/ingest/core.py:113-126 | the only error that can escape is OverflowError: ValueError and IndexError are caught |
| SummaryMetrics.CaughtAgrees | src/azathoth/ingest/core.py:109-128 | the parser that catches every error agrees with the source wherever the source does not raise |
| SummaryMetrics.StepEffect | src/azathoth/ingest/core.py:110-126 | a line sets the file count iff it carries the label and its field reads as an int; it sets the token count iff it carries only the token label and its value converts; otherwise the counter keeps its value |
| SummaryMetrics.FileCountIsLastReadable | src/azathoth/ingest/core.py:109-114 | the file count is the value of the last line that reads as one; later matching lines overwrite earlier ones |
| SummaryMetrics.FileCountDefault | src/azathoth/ingest/core.py:106-114 | without such a line the file count stays 0 |
| SummaryMetrics.TokenCountIsLastReadable | src/azathoth/ingest/core.py:115-126 | the token count is the value of the last line that reads as one |
| SummaryMetrics.TokenCountDefault | src/azathoth/ingest/core.py:107-126 | without such a line the token count stays 0 |
| SummaryMetrics.NoLabels | src/azathoth/core/ingest.py:65-82 | a summary with neither label gives (0, 0) and raises nothing |
| SummaryMetrics.FilesLine | src/azathoth/ingest/core.py:110-112 | `Files analyzed: n` sets the file count to n; a numeral of more than 4300 digits leaves it, the ValueError being caught |
| SummaryMetrics.TokenLine | src/azathoth/ingest/core.py:115-118 | a line with only the token label updates the token count by its field, or raises on overflow |
| SummaryMetrics.ScaledParsed | src/azathoth/ingest/core.py:120 | a text that `float` reads as `d × 10^-f` (or as infinity beyond the double range) sets the counter to the floor of `d × 10^(k-f)` or raises OverflowError when that is beyond the range |
| SummaryMetrics.ScaledDecimal | src/azathoth/ingest/core.py:120 | `w.f` scaled by 10^k is the floor of the exact product, or an escaping OverflowError when the product is beyond the range of doubles |
| SummaryMetrics.ReadThousands | src/azathoth/ingest/core.py:119-120 | a value containing `k` is scaled by 1000 once the `k` is removed |
| SummaryMetrics.ReadMillions | src/azathoth/core/ingest.py:77-78 | a value ending in the dialect's mega letter is scaled by 10^6 |
| SummaryMetrics.TokenThousands | src/azathoth/ingest/core.py:119-120 | `w.fk` gives floor(w.f × 1000) in both parsers, or OverflowError when w.f × 1000 is beyond the range of doubles |
| SummaryMetrics.TokenMillions | src/azathoth/core/ingest.py:74-78 | `w.fM` gives floor(w.f × 10^6) in both parsers, and `w.fm` does too in the lower-casing one; OverflowError beyond the range of doubles |
| SummaryMetrics.MillionsField | src/azathoth/core/ingest.py:74-78 | a number followed by a mega letter the dialect recognises is read as that number scaled by 10^6 |
| SummaryMetrics.TokenPlain | src/azathoth/ingest/core.py:123-124 | a plain integer is taken as it is; beyond 4300 digits the caught ValueError leaves the count |
| SummaryMetrics.ReadNumber | src/azathoth/ingest/core.py:119-124 | text with no unit letter is read by `int`: its value, or no change when `int` raises |
| SummaryMetrics.LegacyIgnoresLowerM | src/azathoth/ingest/core.py:119-124 | the first parser does not recognise a lower-case `m`: `int` raises and the count is unchanged |
| SummaryMetrics.CurrentIgnoresCase | src/azathoth/core/ingest.py:74 | the second parser reads a field the same as its lower-case form, so `1.2M` and `1.2m` agree |
| SummaryMetrics.OverflowLineRaises | src/azathoth/ingest/core.py:116-126 | a token value that overflows makes the whole parse raise |
| SummaryMetrics.InfinityEscapes | src/azathoth/ingest/core.py:120-126 | the line `Estimated tokens: infk` makes the parser raise OverflowError, which the handler does not catch |
| SummaryMetrics.FiniteOverflowEscapes | src/azathoth/ingest/core.py:119-126 | a finite `w.fk` whose value in thousands is beyond the range of doubles (such as a value of 2e306 thousands) also makes the parser raise OverflowError |
| SummaryMetrics.InfinityCaught | src/azathoth/ingest/core.py:125-128 | with every conversion error caught, the same line leaves the counts at (0, 0) |
| SummaryMetrics.FiniteOverflowCaught | src/azathoth/ingest/core.py:119-126 | the parser with every conversion error caught leaves the count at 0 on a finite token line whose scaled value is beyond the range of doubles |
| Report.ReportText | src/azathoth/ingest/core.py:166-169 | the report starts with the SUMMARY title, its rule and the summary |
| Report.SaveReport | src/azathoth/ingest/core.py:161-169 | the file is `{name}.txt` and holds the report text |
| Report.ReportLength | src/azathoth/ingest/core.py:62-68 | the report's UTF-8 length is 88 bytes of titles plus the UTF-8 lengths of the three sections |
| Report.ReportSizeBytes | src/azathoth/ingest/core.py:62-68 | the size is 88 bytes of titles and rules plus the UTF-8 lengths of summary, tree and content |
| Report.SizeMatchesSavedFile | src/azathoth/ingest/core.py:62-68 | the size computed is the UTF-8 length of exactly the text `_save_report` writes |
| IngestEngine.DetectType | src/azathoth/ingest/core.py:154-159 | an existing path is Local, checked first; Unknown is never returned |
| IngestEngine.DetectRemote | src/azathoth/ingest/core.py:157-159 | otherwise a target is a repository iff it contains `github.com` or exactly one `/`, and a user otherwise |
| IngestEngine.GenerateFilenameFromUrl | src/azathoth/ingest/core.py:206-238 | the name never holds a `/` |
| IngestEngine.UrlSubpathName | src/azathoth/ingest/core.py:218-231 | `.../github.com/owner/repo/tree/branch/a/b` is named `repo--a-b`, and so with `blob` |
| IngestEngine.SubpathAt | src/azathoth/ingest/core.py:220-231 | with more than idx+5 pieces and `tree`/`blob` at idx+3 the name is piece idx+2, `--`, and pieces idx+5.. joined by `-` |
| IngestEngine.UrlRepoName | src/azathoth/ingest/core.py:222-233 | without such a sub-path a github.com URL is named after its repository piece |
| IngestEngine.UrlShortGithub | src/azathoth/ingest/core.py:222-238 | with fewer than two pieces after the host the name is the last piece |
| IngestEngine.UrlFallback | src/azathoth/ingest/core.py:237-238 | without a `github.com` piece the name is the text after the last `/` of the normalised URL |
| IngestEngine.CleanUrlName | src/azathoth/ingest/core.py:211-215 | a URL without trailing `/` or `.git` is split into exactly its pieces |
| IngestEngine.UrlTrailingSlash | src/azathoth/ingest/core.py:211 | a trailing `/` does not change the name |
| IngestEngine.UrlGitSuffix | src/azathoth/ingest/core.py:212-213 | one `.git` suffix does not change the name |
| IngestEngine.FlatRel | src/azathoth/ingest/core.py:290 | the flattened relative path holds neither `/` nor `\` |
| IngestEngine.PlanLocal | src/azathoth/ingest/core.py:267-307 | a target that is a file raises NotADirectoryError when git is started in it, which the handler does not catch; otherwise the plan fails only for a git root outside a directory target; the ingest path is a prefix of the target; include patterns are set iff the target is a directory in which git found a root other than the target |
| IngestEngine.LocalScopeRoundTrip | src/azathoth/ingest/core.py:288-297 | for a subdirectory, the ingest root followed by the include pattern is the target again |
| IngestEngine.LocalSubdirName | src/azathoth/ingest/core.py:288-291 | a subdirectory is named `{root name}--{relative path joined by '-'}` |
| IngestEngine.LocalWholeName | src/azathoth/ingest/core.py:270-285 | for a missing target (a caught FileNotFoundError), without git, or at the repository root, the report is named after the target and the whole target is ingested with no patterns |
| UserBatch.SourceRepos | src/azathoth/ingest/core.py:355-358 | a repository is kept iff it is no fork and not named after the user, ignoring case |
| UserBatch.SelfRepoDropped | src/azathoth/ingest/core.py:356-358 | the repository named after the user, in any capitalisation, is dropped |
| UserBatch.ProcessUser | src/azathoth/ingest/core.py:335-439 | a non-200 status or an empty source list ends the batch before any ingestion; with separate files a report that cannot be saved makes its repository a failure with the save's message; a combined report that cannot be saved raises; otherwise the outcome holds the success count, the failures in finishing order, the reports written and one progress step per repository |
| UserBatch.IngestAll | src/azathoth/ingest/core.py:391-418 | after every task has finished, the failures, the separate reports, or the combined blocks and summary lines are exactly those of the repositories in finishing order, and the progress bar has advanced once per repository |
| UserBatch.FinishRepo | src/azathoth/ingest/core.py:391-415 | one more finished repository extends the failures, the saved reports or the combined blocks and lines exactly as the specification functions say for one more repository |
| UserBatch.SaveFailureCounted | src/azathoth/ingest/core.py:396-414 | with separate files an ingested repository whose save raises is one failure with the save's message, no success and no report |
| UserBatch.Tally | src/azathoth/ingest/core.py:396-415 | every finished repository is either a failure or a success, and each success adds one block, one summary line and one separate report |
| UserBatch.SuccessCount | src/azathoth/ingest/core.py:424 | repositories less failures is the number of successes |
| UserBatch.ReportsWritten | src/azathoth/ingest/core.py:399-439 | with separate files there is one report per success; otherwise a single report named after the user, written only when some content was gathered |
| UserBatch.SeparateNames | src/azathoth/ingest/core.py:399-401 | each separate report is named after its repository, in finishing order |
| UserBatch.OrderIrrelevant | src/azathoth/ingest/core.py:417-418 | which repositories fail, with which messages, and which succeed does not depend on the finishing order |
| UserBatch.SameTally | src/azathoth/ingest/core.py:424-432 | the printed counts and whether a combined report is written are the same for every finishing order |
| Listing.LexLeTotal | src/azathoth/core/ls.py:59 | Python's string order compares any two names |
| Listing.LexLeTrans | src/azathoth/core/ls.py:59 | Python's string order is transitive |
| Listing.SortByNameSpec | src/azathoth/core/ls.py:59 | `sorted` returns an ordered permutation of a directory's items |
| Listing.SortSorted | src/azathoth/core/ls.py:59 | sorting items already in order changes nothing |
| Listing.DropIgnoredSpec | src/azathoth/core/ls.py:53-61 | an item is kept iff its name is not ignored, and the order is kept |
| Listing.VisibleSpec | src/azathoth/core/ls.py:59-61 | the loop visits exactly the children whose names are not ignored, in sorted order |
| Listing.FirstDenied | src/azathoth/core/ls.py:59-63 | the loop gets through exactly the items before the first one whose `is_dir()` raises PermissionError, or all of them |
| Listing.Walker.Walk | src/azathoth/core/ls.py:55-90 | `_walk` raises exactly the error of the first visited item that raises; otherwise it appends the entries of the items before the first refused one (with their subtrees when recursive) and adds what they count to each counter; a directory whose listing is refused adds nothing |
| Listing.Walker.Visit | src/azathoth/core/ls.py:60-88 | one pass of the loop ends the loop on an entry whose `is_dir()` raises PermissionError, raises FileNotFoundError on a dangling link, OSError on a looping one, or the error of a recursive walk below; otherwise it appends one item's entries, its subtree first when recursive, and adds its counts |
| Listing.SeqStep | src/azathoth/core/ls.py:59-88 | one more pass of the loop appends one more item's entries and counts, and raises the earlier passes' error or else this item's |
| Listing.ErrorPersists | src/azathoth/core/ls.py:58-90 | once one item of the loop raises, the whole `_walk` raises that error |
| Listing.SeqErrorSpec | src/azathoth/core/ls.py:59-76 | the first `n` items raise exactly when one of them does, and then with the first such item's error |
| Listing.DirErrorSpec | src/azathoth/core/ls.py:58-90 | walking a directory raises exactly when it can be listed and an item before the first refused one raises, with the first such item's error |
| Listing.BrokenLinkChildRaises | src/azathoth/core/ls.py:63-64 | a dangling or looping link directly inside a readable directory without refused entries, under a name not ignored, makes the walk raise |
| Listing.DeniedChildStops | src/azathoth/core/ls.py:59-90 | the first entry whose `stat()` is refused ends the loop: the directory records, counts and raises only what the items before it do |
| Listing.TokenSumAppend | src/azathoth/core/ls.py:84 | token totals of consecutive runs of entries add up |
| Listing.ListingFacts | src/azathoth/core/ls.py:66-99 | `len(entries) == total_files + total_dirs`; the token total is present iff tokens are shown and is then the sum of the recorded estimates; every entry lies below the root and no ignored name occurs on its path; directories have size 0 |
| Listing.SubtreeBeforeDir | src/azathoth/core/ls.py:75-88 | with recursion a directory's own entry comes after every entry recorded below it |
| Listing.FixtureCounts | tests/core/test_ls.py:8-21 | the fixture counts 2 files and 1 directory without recursion, and 3 files and 1 directory with it |
| Listing.ListDirectory | src/azathoth/core/ls.py:35-100 | a missing or dangling root raises FileNotFoundError before any walking, a looping root RuntimeError and a root whose `stat()` is refused PermissionError; a file as root raises NotADirectoryError; an error escaping the walk is raised; otherwise a directory gives its listing |
| Ingest.KeptParts | src/azathoth/core/ingest.py:98 | the pieces `pathlib` keeps are pieces of the path, neither empty nor `.` |
| Ingest.PosixName | src/azathoth/core/ingest.py:98 | `Path(...).name` holds no `/` and is never `.` |
| Ingest.GenerateFilename | src/azathoth/core/ingest.py:85-98 | the name never holds a `/` |
| Ingest.GithubName | src/azathoth/core/ingest.py:92-95 | a github.com URL is named after its last piece |
| Ingest.LocalName | src/azathoth/core/ingest.py:97-98 | a local path is named after its last component, extension kept |
| Ingest.TrailingSlash | src/azathoth/core/ingest.py:88 | trailing slashes never change the name |
| Ingest.RepoNamesAgree | src/azathoth/core/ingest.py:85-98 | on a plain repository URL this name and the engine's name agree |
| Ingest.SubpathNamesDiffer | src/azathoth/core/ingest.py:92-95 | on a `tree`/`blob` URL this names the last piece while the engine names `repo--sub-path` |
| Ingest.IngestDigest | src/azathoth/core/ingest.py:22-60 | summary, tree and content are echoed unchanged; the file count is the parsed one; a non-zero parsed token count is kept and a zero one is replaced by the estimate; the size is the UTF-8 length of the banner report; the parser's escaping error is the only failure |
| Ingest.TokenFallback | src/azathoth/core/ingest.py:40-42 | a parsed token count of 0 is replaced by `len(content) // 4` |
| Ingest.UnlabelledSummary | src/azathoth/core/ingest.py:38-45 | a summary with neither label gives 0 files and the estimate as token count |
| Ingest.SizeAgreesWithEngine | src/azathoth/core/ingest.py:44-45 | the size equals the engine's report size and the byte length of the saved report |
| ToTxt.ToTxt | src/azathoth/core/to_txt.py:25-67 | the first pattern that raises decides the error: an empty or absolute pattern raises from `root.glob`, and a match whose `is_file()` raises gives PermissionError; otherwise the result is the one built from the matches of the patterns in order: kept files' blocks, their relative paths, their token estimates and their count |
| ToTxt.FirstErrorSnoc | src/azathoth/core/to_txt.py:38-41 | one more pattern raises only when the earlier ones did not |
| ToTxt.FirstErrorPrefix | src/azathoth/core/to_txt.py:38-41 | a pattern that raises among the first `n` decides the error of the whole list |
| ToTxt.FirstErrorSpec | src/azathoth/core/to_txt.py:38-41 | the call raises iff some pattern is empty or absolute or has a match whose `stat()` is refused, and then with the error of the first such pattern |
| ToTxt.ProcessMatches | src/azathoth/core/to_txt.py:40-58 | the inner loop raises iff one of the items' `is_file()` raises; otherwise it extends the blocks, paths and token total by exactly the kept matches among the items, in order |
| ToTxt.ProcessMatch | src/azathoth/core/to_txt.py:41-58 | a match whose `is_file()` raises PermissionError makes the pass raise, adding nothing; a visible file whose text could be read is kept, extending the blocks, paths and token total by its block, its relative path and its estimate; any other match leaves them unchanged |
| ToTxt.FileBlock | src/azathoth/core/to_txt.py:46-53 | the list of header line (when asked for), content and newline, joined by newlines, is the block of that file |
| ToTxt.KeptIncluded | src/azathoth/core/to_txt.py:41-58 | the kept matches are exactly the eligible, readable ones, and all of them were read |
| ToTxt.FilterExact | src/azathoth/core/to_txt.py:41-43 | a match is kept if and only if it is a regular file whose name does not start with a dot and whose read succeeds |
| ToTxt.SkippedMatch | src/azathoth/core/to_txt.py:41-58 | a directory, a dot-file or a file that cannot be read leaves the whole result unchanged |
| ToTxt.BlockShape | src/azathoth/core/to_txt.py:46-53 | a block is `--- FILE: <rel> ---`, newline, content, two newlines with the header, and content plus two newlines without it |
| ToTxt.HeaderPresent | src/azathoth/core/to_txt.py:47-48 | with headers each block starts with its file header; without them the header appears only if the content holds it |
| ToTxt.CandidatesAppend | src/azathoth/core/to_txt.py:38-40 | the matches of `xs + ys` are those of `xs` followed by those of `ys` |
| ToTxt.KeptAppend | src/azathoth/core/to_txt.py:41 | filtering distributes over concatenation |
| ToTxt.RelsAppend | src/azathoth/core/to_txt.py:55 | the recorded paths of a concatenation are the concatenated paths |
| ToTxt.PatternsInOrder | src/azathoth/core/to_txt.py:38-55 | the files listed for `xs + ys` are those for `xs` followed by those for `ys`; nothing is de-duplicated |
| ToTxt.BlockCount | src/azathoth/core/to_txt.py:54-55 | one block and one path per kept file |
| ToTxt.TokensWithinWhole | src/azathoth/core/to_txt.py:56-60 | the summed per-block estimates never exceed the estimate of the newline-joined whole |
| ToTxt.ResultCounts | src/azathoth/core/to_txt.py:62-67 | the file count is the number of listed files and of kept matches, and the token count is at most the estimate of the content |
| Directives.Render | src/azathoth/core/directives.py:19-36 | the method's line list, joined by newlines, is the rendering defined by title, rules and examples |
| Directives.AppendExamples | src/azathoth/core/directives.py:30-34 | the nested loop appends, per language in order, its `### ` heading and each snippet followed by an empty line |
| Directives.RuleLinesAt | src/azathoth/core/directives.py:24-25 | one `- **key**: value` line per rule, in the rules' order |
| Directives.RenderRules | src/azathoth/core/directives.py:21-26 | a rendering starts with the title line, an empty line and `## Rules`, then the rule lines, then an empty line |
| Directives.ExamplesSection | src/azathoth/core/directives.py:28-29 | the rendering goes on past the rules exactly when examples are present and non-empty, and then with `## Examples` |
| Directives.SnippetLinesAt | src/azathoth/core/directives.py:32-34 | each snippet is followed by one empty line |
| Directives.ExampleBlock | src/azathoth/core/directives.py:30-34 | one more example set adds its heading and then its snippets, each followed by an empty line, after what came before |
| Directives.RenderSplits | src/azathoth/core/directives.py:36 | when no field holds a newline, splitting the rendering at newlines gives back exactly its lines |
| Directives.LoadDirective | src/azathoth/core/directives.py:39-60 | the user's directive wins over the built-in one; nothing is found only when neither exists |
| Directives.MasterContext | src/azathoth/core/directives.py:63-79 | the core directive if found, then each language's directive found under its lower-cased name, in order, joined by the separator |
| Directives.RenderNonEmpty | src/azathoth/core/directives.py:21-36 | a rendering is never empty |
| Directives.MasterEmpty | src/azathoth/core/directives.py:67-79 | the context is empty exactly when no directive at all is found |
| Directives.LanguageTextsNonEmpty | src/azathoth/core/directives.py:74-77 | every language part is a non-empty rendering |
| Directives.LanguagesInOrder | src/azathoth/core/directives.py:74-77 | the parts for `xs + ys` are those for `xs` followed by those for `ys` |
| Directives.LanguagesIgnoreCase | src/azathoth/core/directives.py:75 | language lists that agree after lower-casing give the same context |
| Directives.LanguageTextsIgnoreCase | src/azathoth/core/directives.py:75 | the same, for the language parts |
| Scout.FirstPresent | src/azathoth/core/scout.py:37-40 | the position found is the first whose file exists: none before it exists, and it exists unless none does |
| Scout.ManifestNames | src/azathoth/core/scout.py:28-35 | the manifest file names in the table's order |
| Scout.PrimaryLanguage | src/azathoth/core/scout.py:27-40 | the loop yields the language of the first manifest present, `unknown` when there is none |
| Scout.FindEntryPoint | src/azathoth/core/scout.py:46-59 | the loop yields the first entry-point file present, none when there is none |
| Scout.FirstPresentAt | src/azathoth/core/scout.py:37-40 | a position at which a file exists with none existing before it is the one found |
| Scout.LanguageSpec | src/azathoth/core/scout.py:27-40 | the language is `unknown` exactly when no manifest exists; otherwise it is the language paired with the first manifest that exists |
| Scout.EntryPointSpec | src/azathoth/core/scout.py:46-59 | no entry point exactly when none of the seven files exists; otherwise the first that exists |
| Scout.BindIngestKeywords | src/azathoth/core/ingest.py:20-24 | keyword arguments bind to `ingest` iff each names one of its three parameters; otherwise the call raises TypeError |
| Scout.ScoutAsWritten | src/azathoth/core/scout.py:17-24 | as written, every call of `scout` raises TypeError, because `ingest` has no `list_only` parameter |
| Scout.Scout | src/azathoth/core/scout.py:17-68 | as evidently intended, with the listing as an input: the report holds the root, the listing, the primary language, `["core", language]`, the master context for that one language and the entry point |
| Prompts.ScoutPrompt | src/azathoth/core/prompts.py:4-6 | the prompt quotes the target directory |
| Prompts.FocusSection | src/azathoth/core/prompts.py:49-51 | the focus section is empty exactly when no focus or an empty one is given; otherwise it opens with the fixed sentence and quotes the focus |
| Prompts.CommitPrompt | src/azathoth/core/prompts.py:48-71 | the prompt starts with the fixed instructions |
| Prompts.NoFocus | src/azathoth/core/prompts.py:50 | no focus and an empty focus give the same prompt: the instructions and a newline |
| Prompts.ReleaseRepoNameAsWritten | src/azathoth/core/prompts.py:75 | the name taken from the URL holds no `/` |
| Prompts.ReleaseRepoName | src/azathoth/core/prompts.py:75 | the last path piece with a trailing `.git` removed; it holds no `/` |
| Prompts.ReleaseRepoNameOfUrl | src/azathoth/core/prompts.py:75 | for a URL whose last piece does not end in `.git`, the name is that piece |
| Prompts.ReleaseRepoNameOfCloneUrl | src/azathoth/core/prompts.py:75 | for a URL ending `/<name>.git`, the name is `<name>` |
| Prompts.ReleaseRepoNamesAgree | src/azathoth/core/prompts.py:75 | when the last piece holds `.git` nowhere, the expression as written and the intended one agree |
| Prompts.PagesRepoName | src/azathoth/core/prompts.py:75 | for `<user>.github.io` the expression as written gives `<user>hub.io`, the intended one the name itself |
| Prompts.ChangelogLink | src/azathoth/core/prompts.py:103 | the link is `<repo_url>/compare/`, then exactly the old version, then `...<new_version>` |
| PyScout.Load | mcp-py/lib/prompt_loader.py:52-73 | a present file's text is returned as is; a missing one gives a message that starts with `Error: ` and quotes the file name |
| PyScout.LanguageFile | mcp-py/scout.py:43 | the file name is `directive-`, the lower-cased language, `.md` |
| PyScout.Adapt | mcp-py/scout.py:28-55 | the method's result is the adapted context defined by what the loader answers for the core and the language file |
| PyScout.JoinPair | mcp-py/scout.py:46-48 | joining two texts puts exactly one separator between them |
| PyScout.MissingCore | mcp-py/scout.py:38-40 | without the core file the fixed error text comes back, whatever the language |
| PyScout.BothLoaded | mcp-py/scout.py:41-48 | with both files present and free of `Error:`, the result is core, separator, language directive |
| PyScout.MissingLanguage | mcp-py/scout.py:49-55 | a missing language file gives the note naming the file, then the core text, which ends the result |
| PyScout.NoteNamesFile | mcp-py/scout.py:51-54 | the note quotes the file name and the core text ends the result |
| PyScout.AdaptIgnoresCase | mcp-py/scout.py:43 | the language's case never changes the result |
| PyScout.LanguageTextWithSentinel | mcp-py/scout.py:44-46 | as written, a present language directive that contains `Error:` is treated exactly as a missing one |
| PyScout.Without | mcp-py/lib/prompt_loader.py:64-67 | the vault with one file removed answers nothing for it and the same for every other file |
| PyScout.AdaptChecked | mcp-py/scout.py:28-55 | the adaptation decided on presence alone: the error without the core, core plus separator plus directive with both, the note plus core without the directive |
| PyScout.AdaptAgrees | mcp-py/scout.py:38-55 | when no present text contains `Error:`, the sentinel test and the presence test give the same result |
| Guides.FirstArm | src/mcp_rs/examples/directives.rs:24-28 | the arm found is the first the key selects: none before it does, and it does unless none does |
| Guides.FirstArmAt | src/mcp_rs/examples/directives.rs:24-28 | an arm the key selects with none selecting before it is the one found |
| Guides.LookupSpec | src/mcp_rs/examples/directives.rs:23-29 | nothing is found exactly when no arm selects the lower-cased input; otherwise the variant of the first arm that does |
| Guides.LookupIgnoresCase | src/mcp_rs/examples/directives.rs:24 | the input's case never matters |
| Guides.UpperAliasUnused | src/mcp_rs/examples/directives.rs:24-26 | an alias holding an upper-case letter can never match a lower-cased input |
| Guides.NameRules | src/mcp_rs/src/tools/directives.rs:17-23 | with capitalised identifiers, comparing them as written or lower-cased finds the same arm, except for an input spelling an identifier, which only the lower-cased rule finds |
| Guides.LookupNameRules | src/mcp_rs/src/tools/directives.rs:16-24 | what the as-written rule finds, the lower-cased rule finds too; the lower-cased rule finds more exactly for the identifiers' own spellings |
| Guides.Fallback | src/mcp_rs/examples/directives.rs:124-127 | the fallback names the language as given, not lower-cased |
| Guides.MultipleGuidances | mcp-rs/examples/directives.rs:108-125 | the loop's result is one section per language, in order: heading, guidance, separator |
| Guides.SectionsConcat | mcp-rs/examples/directives.rs:112-124 | the report is the concatenation of the languages' sections |
| Guides.SectionsAppend | mcp-rs/examples/directives.rs:113-123 | the report for `xs + ys` is that for `xs` followed by that for `ys` |
| Guides.SectionsContain | mcp-rs/examples/directives.rs:113-123 | every requested language's section appears in the report |
| Guides.SectionsEnds | mcp-rs/examples/directives.rs:114-122 | a non-empty report starts with the first language's heading and ends with the separator |
| Guides.SectionsStart | mcp-rs/examples/directives.rs:114 | a non-empty report starts with the first language's heading |
| Guides.SuffixOfAppend | mcp-rs/examples/directives.rs:122 | each section ends with the separator |
| GuideV1.MatchSpec | mcp-rs/examples/directives.rs:49-61 | a lower-cased input selects a variant exactly when it is one of the strings of that variant's arm |
| GuideV1.MatchNone | mcp-rs/examples/directives.rs:61 | nothing is selected exactly when the input is in no arm |
| GuideV1.KeysDisjoint | mcp-rs/examples/directives.rs:50-60 | no string appears in two arms, so the arms' order does not matter |
| GuideV1.FromStringIgnoresCase | mcp-rs/examples/directives.rs:49 | any spelling of a name or alias gives the same variant |
| GuideV1.GetGuidance | mcp-rs/examples/directives.rs:77-102 | an unknown language gets the fallback that repeats it as given |
| GuideV1.MultipleKeepsUnknown | mcp-rs/examples/directives.rs:108-125 | an unknown language in a multiple request still gets its fallback section |
| GuideMacro.ArmOf | src/mcp_rs/examples/directives.rs:72-79 | each variant is declared by the arm at its own position, which yields it |
| GuideMacro.ArmsAgree | src/mcp_rs/examples/directives.rs:72-79 | each arm's aliases are the first server's strings for the same variant minus its plain name |
| GuideMacro.IdentsCapitalised | src/mcp_rs/examples/directives.rs:72-79 | every identifier holds an upper-case letter |
| GuideMacro.SelectsByAlias | src/mcp_rs/examples/directives.rs:24-26 | for a lower-cased input, an arm matches exactly when the input is one of its aliases |
| GuideMacro.NameOnlyPlain | src/mcp_rs/examples/directives.rs:72-79 | the names these servers miss are among the seven plain names |
| GuideMacro.PlainNamesMatch | mcp-rs/examples/directives.rs:50-57 | the first server knows each plain name, as the variant it names |
| GuideMacro.FoundByAlias | src/mcp_rs/examples/directives.rs:24-27 | an input an arm's alias selects gets the same variant from the first server, and is not a plain name |
| GuideMacro.AliasNotPlain | src/mcp_rs/examples/directives.rs:72-79 | no alias is a plain name |
| GuideMacro.NoAlias | src/mcp_rs/examples/directives.rs:24-28 | an input no arm selects is no variant's alias |
| GuideMacro.MissedByAlias | src/mcp_rs/examples/directives.rs:28 | an input no arm selects is known to the first server exactly when it is a plain name |
| GuideMacro.RefinesFirstServer | src/mcp_rs/examples/directives.rs:22-30 | what the macro server accepts, the first server accepts with the same variant; it refuses what the first server accepts exactly for the seven plain names |
| GuideMacro.PythonNameRefused | src/mcp_rs/examples/directives.rs:73 | `python` selects nothing |
| GuideMacro.PythonAliasAccepted | src/mcp_rs/examples/directives.rs:73 | `py` selects the Python guide |
| GuideMacro.GetGuidance | src/mcp_rs/examples/directives.rs:116-129 | an unknown language gets the fallback that repeats it as given |
| GuideMacro.PythonByName | src/mcp_rs/examples/directives.rs:135-152 | the report for `["python"]` holds only the fallback section |
| ScoutRs.Note | src/mcp_rs/examples/scout.rs:126-129 | the note quotes the language as given |
| ScoutRs.Adapt | src/mcp_rs/examples/scout.rs:111-134 | the loop's result is the core text, then for each language in order the separator and its guidance or note |
| ScoutRs.AssembleJoin | src/mcp_rs/examples/scout.rs:119-132 | the result is the core text and the parts joined by the separator |
| ScoutRs.CoreFirst | src/mcp_rs/examples/scout.rs:118-119 | the core text always starts the result |
| ScoutRs.AssembleHasEveryPart | src/mcp_rs/examples/scout.rs:122-132 | every requested language's part appears after a separator |
| ScoutRs.UnknownLanguageNoted | src/mcp_rs/examples/scout.rs:124-130 | a language no arm selects still appears, in its note |
| ScoutRs.PythonByName | src/mcp_rs/examples/scout.rs:72 | `["python"]` gives the core text, the separator and the note |
| ScoutRs.PythonByAlias | src/mcp_rs/examples/scout.rs:51-56 | `["py"]` gives the core text, the separator and the two Python assets run together |
| GuideTools.FromString | src/mcp_rs/src/tools/directives.rs:16-24 | the first arm whose lower-cased identifier or whose alias equals the lower-cased input; nothing exactly when no arm does |
| GuideTools.IdentifierFound | src/mcp_rs/src/tools/directives.rs:19 | any spelling of an arm's identifier finds that arm or an earlier one |
| GuideTools.FromStringIgnoresCase | src/mcp_rs/src/tools/directives.rs:17 | the input's case never matters |
| GuideTools.FilesText | src/mcp_rs/src/tools/directives.rs:56-67 | the combination is empty exactly when every text is |
| GuideTools.Combine | src/mcp_rs/src/tools/directives.rs:57-66 | the loop's result is the combination of the assets' texts |
| GuideTools.DropLeadingEmpty | src/mcp_rs/src/tools/directives.rs:61 | what remains is empty or starts with a non-empty text |
| GuideTools.FilesTextSpec | src/mcp_rs/src/tools/directives.rs:58-66 | empty texts before the first non-empty one are dropped; from there every text is joined by the separator |
| GuideTools.FilesTextOfNonEmpty | src/mcp_rs/src/tools/directives.rs:58-66 | with no empty asset, the combination is the texts joined by the separator |
| GuideTools.LeadingEmptyIgnored | src/mcp_rs/src/tools/directives.rs:61 | an empty asset at the front changes nothing |
| GuideTools.GetGuidance | src/mcp_rs/src/tools/directives.rs:30-52 | an inline arm gives its text and a file arm the text of its asset |

## Left out

- Concurrency. `process_user` ingests repositories concurrently; the model takes the completion order as an input permutation and does not assume it follows the input order. The semaphore and `gather` are not modelled.
- gitingest, the filesystem, `git rev-parse`, the GitHub API (`httpx`) and TOML loading are inputs: a digest or failure per target, a tree value or probe function, an optional git root, the HTTP status and repository list, and a store from directive names to parsed directives.
- The tokenizer. Only the `len(text) // 4` fallback of `estimate_tokens` is modelled; the model always takes the fallback.
- Utils.EstimateTokens: states the fallback only, because the tiktoken count is a foreign call.
- Floating point. `format_token_count` and the float `format_size` in `src/azathoth/ingest/core.py:82-98` round with `.1f`/`.2f` and are not modelled. The `k`/`M` scaling of token counts uses exact decimal arithmetic, not binary floats, so values whose float product would round across an integer are not reproduced. Overflow to infinity is modelled: `float` gives infinity for a decimal of magnitude at least 2^1024 - 2^970, and the scaled value overflows when the exact product reaches that bound; a float product that rounds up to infinity from just below the bound is the same rounding gap.
- Case mapping (Python's `str.lower`, Rust's `to_lowercase`) is modelled on ASCII letters only; Unicode case mapping is not. Whitespace in `str.strip` follows Python's `str.isspace`, Unicode included. `int` and `float` follow CPython 3.12: every Unicode whitespace becomes a space and every decimal digit of Unicode 15.0 its ASCII digit; then the C whitespace (space, tab, line feed, vertical tab, form feed, carriage return) is skipped at both ends, underscores are checked and dropped, and `int` refuses more than 4300 digits.
- Assets that the Rust servers read with `include_str!`, and the Python prompt vault, are parameters: a function from path to text, or the pair of Python assets.
- Prompt templates are kept only as far as the derived parts go: the quoted directory and focus, the repository name and the changelog link. The fixed template bodies are parameters.
- Error messages printed to the console, logging, Rich output, the CLI, pydantic settings and the MCP transport and async plumbing are not modelled.
- `format_report`, which a caller uses but the core does not define, is not part of this model. The call `ingest(str(root), list_only=True)` at `src/azathoth/core/scout.py:24` passes a keyword `ingest` does not take, so `scout` always raises TypeError; `Scout.ScoutAsWritten` models that, and `Scout.Scout` models the evident intent with the listing result as an input (see Findings).
- ListDirectory: the tree is finite, so a symbolic link that leads back to one of its own ancestors, which makes the recursive walk raise RecursionError or OSError, cannot be expressed. Links that loop on themselves are modelled.
- ProcessUser: a save that raises after the file was opened leaves a partial file behind; the model records no report for it.
- ToTxt: only the checks `Path.glob` makes before yielding anything are modelled, an empty pattern (ValueError) and an absolute one (NotImplementedError); a pattern that pathlib refuses later, while building its selector, is left to the glob input, which yields matches for it.
- Directives.LoadDirective: a directive file that exists but is not valid TOML, or whose data does not fit the `Directive` model, makes `tomllib.load` or `Directive(**data)` raise, and `get_master_context` with it; the store holds parsed directives only, so the model cannot express this.
- IngestEngine.PlanLocal: which errors `git` itself can meet inside a directory are not distinguished; every failure of `git rev-parse` is the caught CalledProcessError or FileNotFoundError.
- The file name `src/azathoth/core/ingest.py:98` returns for a local file keeps its extension (`file1.txt`); `tests/core/test_ingest.py:25` expects `file1`. The model follows the code.
- A URL without `github.com` as a path segment is named after its last piece even when it contains `tree`/`blob`, as the code does.
- Paths are POSIX strings separated by `/`; Windows separators and `Path.resolve` are not modelled.
- The workflow, commit and release automation, the tester binaries and the other MCP servers' transport are not part of this model.

## Findings

| source | as written | input that shows it | evidently intended | confidence | as-written member | corrected member |
|---|---|---|---|---|---|---|
| src/azathoth/ingest/core.py:119-126 | the token value is read with `float`, scaled, and passed to `int`; only `ValueError` and `IndexError` are caught | the summary line `Estimated tokens: infk` makes `int(float("inf") * 1000)` raise `OverflowError`, which escapes the parser | every unreadable value leaves the count unchanged, as the surrounding `except` intends | not executed | SummaryMetrics.InfinityEscapes | SummaryMetrics.InfinityCaught |
| src/azathoth/ingest/core.py:119-126 | the same `int(float(x) * 1000)` on a finite value | a value whose scaled product is beyond the range of doubles, such as `Estimated tokens: 2e306k`, also raises `OverflowError` out of the parser | every unreadable value leaves the count unchanged | not executed | SummaryMetrics.FiniteOverflowEscapes | SummaryMetrics.FiniteOverflowCaught |
| src/azathoth/core/prompts.py:75 | `replace(".git", "")` removes `.git` wherever it occurs in the last piece of the URL | `https://github.com/user/user.github.io` gives `userhub.io` | only a trailing `.git` is removed | not executed | Prompts.PagesRepoName | Prompts.ReleaseRepoName |
| mcp-py/scout.py:39-46 | a loaded text is taken for the loader's error message whenever it contains `Error:` | a language directive that mentions `ValueError:` is dropped and the fallback note is returned | only a missing file falls back | not executed | PyScout.LanguageTextWithSentinel | PyScout.AdaptChecked |
| src/azathoth/core/scout.py:24 | `scout` calls `ingest(str(root), list_only=True)` | any call of `scout`: `ingest` (src/azathoth/core/ingest.py:20-24) takes only `target`, `include_patterns` and `exclude_patterns`, so the call raises TypeError | `scout` lists the root through `ingest` and builds its report | not executed | Scout.ScoutAsWritten | Scout.Scout |

=== FILE: directives.dfy ===
/**
  `azathoth.core.directives`: a coding directive (metadata, rules, optional
  examples), its Markdown rendering, where it is loaded from, and the master
  context that joins the core directive with per-language ones. Directive files
  are TOML read from two directories; here each directory is a lookup from a
  directive name to the directive it holds, if any.
 */
module Directives {
  import opened Wrappers
  import opened Text

  datatype DirectiveMeta = DirectiveMeta(name: string, version: string, appliesTo: seq<string>)

  /** One entry of the `rules` table, kept in insertion order. */
  datatype Rule = Rule(key: string, value: string)

  /** The examples for one language, in insertion order. */
  datatype ExampleSet = ExampleSet(lang: string, snippets: seq<string>)

  datatype Directive = Directive(meta: DirectiveMeta, rules: seq<Rule>, examples: Option<seq<ExampleSet>>)

  /** A directory of directive files, asked by name. */
  type Store = string -> Option<Directive>

  const Separator: string := "\n\n---\n\n"

  // ---------------------------------------------------------------------
  // `Directive.render`
  // ---------------------------------------------------------------------

  function Title(meta: DirectiveMeta): string
  {
    "# Directive: " + meta.name + " (v" + meta.version + ")"
  }

  function RuleLine(r: Rule): string
  {
    "- **" + r.key + "**: " + r.value
  }

  function RuleLines(rules: seq<Rule>): seq<string>
  {
    if rules == [] then [] else RuleLines(rules[..|rules| - 1]) + [RuleLine(Last(rules))]
  }

  /** Each snippet followed by an empty line. */
  function SnippetLines(snippets: seq<string>): seq<string>
  {
    if snippets == [] then [] else SnippetLines(snippets[..|snippets| - 1]) + [Last(snippets), ""]
  }

  function ExampleLines(sets: seq<ExampleSet>): seq<string>
  {
    if sets == [] then []
    else ExampleLines(sets[..|sets| - 1]) + ["### " + Last(sets).lang] + SnippetLines(Last(sets).snippets)
  }

  /** Python truthiness of `examples`: present and not empty. */
  predicate HasExamples(d: Directive)
  {
    d.examples.Some? && d.examples.value != []
  }

  function RenderLines(d: Directive): seq<string>
  {
    [Title(d.meta), "", "## Rules"] + RuleLines(d.rules) + [""]
      + (if HasExamples(d) then ["## Examples"] + ExampleLines(d.examples.value) else [])
  }

  function RenderText(d: Directive): string
  {
    Join(RenderLines(d), "\n")
  }

  /** `render`: the lines are collected in a list and joined with newlines. */
  method Render(d: Directive) returns (s: string)
    ensures s == RenderText(d)
  {
    var lines := [Title(d.meta), ""];
    lines := lines + ["## Rules"];
    var i := 0;
    while i < |d.rules|
      invariant 0 <= i <= |d.rules|
      invariant lines == [Title(d.meta), "", "## Rules"] + RuleLines(d.rules[..i])
    {
      assert d.rules[..i + 1][..i] == d.rules[..i];
      lines := lines + [RuleLine(d.rules[i])];
      i := i + 1;
    }
    assert d.rules[..|d.rules|] == d.rules;
    lines := lines + [""];
    if d.examples.Some? && d.examples.value != [] {
      lines := lines + ["## Examples"];
      ghost var head := lines;
      lines := AppendExamples(lines, d.examples.value);
      assert head == [Title(d.meta), "", "## Rules"] + RuleLines(d.rules) + [""] + ["## Examples"];
      assert lines == RenderLines(d);
    } else {
      assert lines == RenderLines(d);
    }
    s := Join(lines, "\n");
  }

  /** The examples loop of `render`: per language its heading, then each snippet
      followed by an empty line. */
  method AppendExamples(lines0: seq<string>, sets: seq<ExampleSet>) returns (lines: seq<string>)
    ensures lines == lines0 + ExampleLines(sets)
  {
    lines := lines0;
    var k := 0;
    while k < |sets|
      invariant 0 <= k <= |sets|
      invariant lines == lines0 + ExampleLines(sets[..k])
    {
      assert sets[..k + 1][..k] == sets[..k];
      lines := lines + ["### " + sets[k].lang];
      ghost var before := lines;
      var exList := sets[k].snippets;
      var j := 0;
      while j < |exList|
        invariant 0 <= j <= |exList|
        invariant lines == before + SnippetLines(exList[..j])
      {
        assert exList[..j + 1][..j] == exList[..j];
        lines := lines + [exList[j]];
        lines := lines + [""];
        j := j + 1;
      }
      assert exList[..|exList|] == exList;
      k := k + 1;
    }
    assert sets[..|sets|] == sets;
  }

  // ---------------------------------------------------------------------
  // Properties of the rendering
  // ---------------------------------------------------------------------

  lemma {:induction false} RuleLinesAt(rules: seq<Rule>)
    ensures |RuleLines(rules)| == |rules|
    ensures forall i :: 0 <= i < |rules| ==> RuleLines(rules)[i] == RuleLine(rules[i])
  {
    if rules != [] {
      RuleLinesAt(rules[..|rules| - 1]);
    }
  }

  /** The title line and an empty line come first, then `## Rules`, one line per rule
      in order, and an empty line. */
  lemma RenderRules(d: Directive)
    ensures |RenderLines(d)| >= 4 + |d.rules|
    ensures RenderLines(d)[..3] == [Title(d.meta), "", "## Rules"]
    ensures forall i :: 0 <= i < |d.rules| ==> RenderLines(d)[3 + i] == RuleLine(d.rules[i])
    ensures RenderLines(d)[3 + |d.rules|] == ""
  {
    RuleLinesAt(d.rules);
  }

  /** The examples section follows the rules exactly when there are examples: a missing
      table and an empty one both end the text after the rules. */
  lemma ExamplesSection(d: Directive)
    ensures HasExamples(d) <==> |RenderLines(d)| > 4 + |d.rules|
    ensures HasExamples(d) ==> RenderLines(d)[4 + |d.rules|] == "## Examples"
  {
    RuleLinesAt(d.rules);
    if HasExamples(d) {
      var sets := d.examples.value;
      assert sets == sets[..|sets| - 1] + [Last(sets)];
      assert |ExampleLines(sets)| >= 1;
    }
  }

  lemma {:induction false} SnippetLinesAt(snippets: seq<string>)
    ensures |SnippetLines(snippets)| == 2 * |snippets|
    ensures forall k :: 0 <= k < |snippets| ==>
      SnippetLines(snippets)[2 * k] == snippets[k] && SnippetLines(snippets)[2 * k + 1] == ""
  {
    if snippets != [] {
      SnippetLinesAt(snippets[..|snippets| - 1]);
    }
  }

  /** One language's examples: its `### lang` heading, then each snippet and an empty line. */
  lemma ExampleBlock(sets: seq<ExampleSet>, e: ExampleSet)
    ensures var lines := ExampleLines(sets + [e]);
      var n := |ExampleLines(sets)|;
      && |lines| == n + 1 + 2 * |e.snippets|
      && lines[..n] == ExampleLines(sets)
      && lines[n] == "### " + e.lang
      && forall k :: 0 <= k < |e.snippets| ==> lines[n + 1 + 2 * k] == e.snippets[k] && lines[n + 2 + 2 * k] == ""
  {
    assert (sets + [e])[..|sets|] == sets;
    SnippetLinesAt(e.snippets);
  }

  /** No field of the directive holds a line break. */
  predicate SingleLineFields(d: Directive)
  {
    && '\n' !in d.meta.name && '\n' !in d.meta.version
    && (forall r <- d.rules :: '\n' !in r.key && '\n' !in r.value)
    && (d.examples.Some? ==> forall e <- d.examples.value :: '\n' !in e.lang && forall x <- e.snippets :: '\n' !in x)
  }

  lemma {:induction false} SnippetLinesSingle(snippets: seq<string>)
    requires forall x <- snippets :: '\n' !in x
    ensures forall l <- SnippetLines(snippets) :: '\n' !in l
  {
    if snippets != [] {
      SnippetLinesSingle(snippets[..|snippets| - 1]);
      assert Last(snippets) in snippets;
    }
  }

  lemma {:induction false} ExampleLinesSingle(sets: seq<ExampleSet>)
    requires forall e <- sets :: '\n' !in e.lang && forall x <- e.snippets :: '\n' !in x
    ensures forall l <- ExampleLines(sets) :: '\n' !in l
  {
    if sets != [] {
      var e := Last(sets);
      assert e in sets;
      ExampleLinesSingle(sets[..|sets| - 1]);
      SnippetLinesSingle(e.snippets);
    }
  }

  lemma {:induction false} RuleLinesSingle(rules: seq<Rule>)
    requires forall r <- rules :: '\n' !in r.key && '\n' !in r.value
    ensures forall l <- RuleLines(rules) :: '\n' !in l
  {
    if rules != [] {
      assert Last(rules) in rules;
      RuleLinesSingle(rules[..|rules| - 1]);
    }
  }

  /** When no field holds a line break, splitting the rendered text on newlines gives
      back exactly the lines: the rendering is the line list, and nothing else. */
  lemma RenderSplits(d: Directive)
    requires SingleLineFields(d)
    ensures Split(RenderText(d), '\n') == RenderLines(d)
  {
    RuleLinesSingle(d.rules);
    if d.examples.Some? {
      ExampleLinesSingle(d.examples.value);
    }
    JoinSplit(RenderLines(d), '\n');
  }

  // ---------------------------------------------------------------------
  // `load_directive` and `get_master_context`
  // ---------------------------------------------------------------------

  /** `load_directive`: the user's directory wins over the built-in one; None when neither
      holds the name. */
  function LoadDirective(name: string, user: Store, builtin: Store): (r: Option<Directive>)
    ensures r.None? <==> user(name).None? && builtin(name).None?
    ensures user(name).Some? ==> r == user(name)
    ensures user(name).None? ==> r == builtin(name)
  {
    if user(name).Some? then user(name) else builtin(name)
  }

  /** The rendered directives of the languages, lowercased, in order, missing ones skipped. */
  function LanguageTexts(languages: seq<string>, user: Store, builtin: Store): seq<string>
  {
    if languages == [] then []
    else
      var d := LoadDirective(Lower(Last(languages)), user, builtin);
      LanguageTexts(languages[..|languages| - 1], user, builtin) + (if d.Some? then [RenderText(d.value)] else [])
  }

  /** The core directive's rendering, when there is one, then the languages'. */
  function ContextParts(languages: seq<string>, user: Store, builtin: Store): seq<string>
  {
    var core := LoadDirective("core", user, builtin);
    (if core.Some? then [RenderText(core.value)] else []) + LanguageTexts(languages, user, builtin)
  }

  function MasterContextOf(languages: seq<string>, user: Store, builtin: Store): string
  {
    Join(ContextParts(languages, user, builtin), Separator)
  }

  /** `get_master_context`. */
  method MasterContext(languages: seq<string>, user: Store, builtin: Store) returns (s: string)
    ensures s == MasterContextOf(languages, user, builtin)
  {
    var directives: seq<string> := [];
    var core := LoadDirective("core", user, builtin);
    if core.Some? {
      var text := Render(core.value);
      directives := directives + [text];
    }
    ghost var head := directives;
    var i := 0;
    while i < |languages|
      invariant 0 <= i <= |languages|
      invariant directives == head + LanguageTexts(languages[..i], user, builtin)
    {
      assert languages[..i + 1][..i] == languages[..i];
      var d := LoadDirective(Lower(languages[i]), user, builtin);
      if d.Some? {
        var text := Render(d.value);
        directives := directives + [text];
      }
      i := i + 1;
    }
    assert languages[..|languages|] == languages;
    s := Join(directives, Separator);
  }

  lemma RenderNonEmpty(d: Directive)
    ensures RenderText(d) != ""
  {
    JoinNonEmpty(RenderLines(d), "\n", 0);
  }

  /** The context is empty exactly when neither the core directive nor any language's is found. */
  lemma MasterEmpty(languages: seq<string>, user: Store, builtin: Store)
    ensures MasterContextOf(languages, user, builtin) == ""
        <==> ContextParts(languages, user, builtin) == []
  {
    var parts := ContextParts(languages, user, builtin);
    if parts != [] {
      LanguageTextsNonEmpty(languages, user, builtin);
      var core := LoadDirective("core", user, builtin);
      if core.Some? {
        RenderNonEmpty(core.value);
      } else {
        assert parts[0] in LanguageTexts(languages, user, builtin);
      }
      JoinNonEmpty(parts, Separator, 0);
    }
  }

  lemma {:induction false} LanguageTextsNonEmpty(languages: seq<string>, user: Store, builtin: Store)
    ensures forall t <- LanguageTexts(languages, user, builtin) :: t != ""
  {
    if languages != [] {
      LanguageTextsNonEmpty(languages[..|languages| - 1], user, builtin);
      var d := LoadDirective(Lower(Last(languages)), user, builtin);
      if d.Some? {
        RenderNonEmpty(d.value);
      }
    }
  }

  /** Languages contribute in input order: the texts for `xs + ys` are those for `xs`
      followed by those for `ys`. */
  lemma {:induction false} LanguagesInOrder(xs: seq<string>, ys: seq<string>, user: Store, builtin: Store)
    ensures LanguageTexts(xs + ys, user, builtin) == LanguageTexts(xs, user, builtin) + LanguageTexts(ys, user, builtin)
  {
    if ys == [] {
      assert xs + ys == xs;
    } else {
      var init := ys[..|ys| - 1];
      LanguagesInOrder(xs, init, user, builtin);
      assert (xs + ys)[..|xs + ys| - 1] == xs + init;
      assert Last(xs + ys) == Last(ys);
    }
  }

  /** Language names are looked up lowercased, so their case does not matter. */
  lemma {:induction false} LanguagesIgnoreCase(xs: seq<string>, ys: seq<string>, user: Store, builtin: Store)
    requires |xs| == |ys|
    requires forall i :: 0 <= i < |xs| ==> Lower(xs[i]) == Lower(ys[i])
    ensures MasterContextOf(xs, user, builtin) == MasterContextOf(ys, user, builtin)
  {
    LanguageTextsIgnoreCase(xs, ys, user, builtin);
  }

  lemma {:induction false} LanguageTextsIgnoreCase(xs: seq<string>, ys: seq<string>, user: Store, builtin: Store)
    requires |xs| == |ys|
    requires forall i :: 0 <= i < |xs| ==> Lower(xs[i]) == Lower(ys[i])
    ensures LanguageTexts(xs, user, builtin) == LanguageTexts(ys, user, builtin)
  {
    if xs != [] {
      LanguageTextsIgnoreCase(xs[..|xs| - 1], ys[..|ys| - 1], user, builtin);
    }
  }
}

=== FILE: guide_macro.dfy ===
/**
  The macro-generated directives server: one `define_directives!` invocation
  yields the enum, `from_string` and a guidance function per variant. Its
  `from_string` compares the lower-cased input with each identifier as
  `stringify!` writes it, capitalised, so only aliases can match. The same
  expansion of `from_string` serves the scout server.
 */
module GuideMacro {
  import opened Wrappers
  import opened Text
  import opened Guides
  import GuideV1

  /** The text of the two Python assets the invocation includes, `d-python.md` and
      `d-python.py`. */
  datatype PythonAssets = PythonAssets(md: string, py: string)

  /** `LanguageGuide::from_string` as the macro expands it. */
  function FromString(s: string): Option<LanguageGuide>
  {
    Lookup(Invocation, s, AsWritten)
  }

  /** The arm that declares a variant. */
  function ArmOf(g: LanguageGuide): (arm: Arm<LanguageGuide>)
    ensures arm.payload == g && Invocation[GuideV1.Rank(g)] == arm
  {
    match g
    case Go => GoArm
    case Python => PythonArm
    case Rust => RustArm
    case C => CArm
    case Web => WebArm
    case Kotlin => KotlinArm
    case Container => ContainerArm
    case SystemTool => SystemToolArm
  }

  /** The lower-case name by which the first server knows a variant and these servers
      do not; `SystemTool` has none. */
  function NameOnly(g: LanguageGuide): set<string>
  {
    match g
    case Go => {"go"}
    case Python => {"python"}
    case Rust => {"rust"}
    case C => {"c"}
    case Web => {"web"}
    case Kotlin => {"kotlin"}
    case Container => {"container"}
    case SystemTool => {}
  }

  /** Each arm of the invocation holds the aliases of the first server's arm for the
      same variant: all its strings but the variant's own name. */
  lemma ArmsAgree(g: LanguageGuide)
    ensures ArmOf(g).aliases !! NameOnly(g)
    ensures ArmOf(g).aliases + NameOnly(g) == GuideV1.Keys(g)
  {
  }

  /** Every identifier holds an upper-case letter. */
  lemma IdentsCapitalised(i: nat)
    requires i < |Invocation|
    ensures !IsLower(Invocation[i].ident)
  {
    assert 'A' <= Invocation[i].ident[0] <= 'Z';
  }

  /** For a lower-cased input, selection by identifier as written is selection by alias
      alone. */
  lemma SelectsByAlias(l: string, i: nat)
    requires IsLower(l) && i < |Invocation|
    ensures Selects(Invocation[i], l, AsWritten) <==> l in Invocation[i].aliases
  {
    IdentsCapitalised(i);
  }

  /** The seven plain names. */
  const PlainNames: set<string> := {"go", "python", "rust", "c", "web", "kotlin", "container"}

  lemma NameOnlyPlain(g: LanguageGuide)
    ensures NameOnly(g) <= PlainNames
  {
  }

  lemma PlainNamesMatch(l: string)
    requires l in PlainNames
    ensures GuideV1.Match(l).Some? && l in NameOnly(GuideV1.Match(l).value)
  {
  }

  /** The arm at each position is the one that declares its variant. */
  lemma ArmAt(k: nat)
    requires k < |Invocation|
    ensures ArmOf(Invocation[k].payload) == Invocation[k]
  {
    if k == 0 {
    } else if k == 1 {
    } else if k == 2 {
    } else if k == 3 {
    } else if k == 4 {
    } else if k == 5 {
    } else if k == 6 {
    } else {
      assert k == 7;
    }
  }

  /** A lower-cased input whose first selecting arm is the `k`th: the first server picks
      the same variant. */
  lemma FoundByAlias(l: string, k: nat)
    requires IsLower(l) && k == FirstArm(Invocation, l, AsWritten) && k < |Invocation|
    ensures GuideV1.Match(l) == Some(Invocation[k].payload)
    ensures l !in PlainNames
  {
    SelectsByAlias(l, k);
    var g := Invocation[k].payload;
    ArmAt(k);
    ArmsAgree(g);
    GuideV1.MatchSpec(l, g);
    AliasNotPlain(l, g);
  }

  /** No alias is a plain name. */
  lemma AliasNotPlain(l: string, g: LanguageGuide)
    requires l in ArmOf(g).aliases
    ensures l !in PlainNames
  {
    if l in PlainNames {
      PlainNamesMatch(l);
      ArmsAgree(g);
      GuideV1.MatchSpec(l, g);
    }
  }

  lemma NoAlias(l: string, g: LanguageGuide)
    requires IsLower(l) && FirstArm(Invocation, l, AsWritten) == |Invocation|
    ensures l !in ArmOf(g).aliases
  {
    var i := GuideV1.Rank(g);
    assert !Selects(Invocation[i], l, AsWritten);
    SelectsByAlias(l, i);
  }

  /** A lower-cased input no arm selects: the first server knows it only if it is a
      plain name. */
  lemma MissedByAlias(l: string)
    requires IsLower(l) && FirstArm(Invocation, l, AsWritten) == |Invocation|
    ensures GuideV1.Match(l).Some? <==> l in PlainNames
  {
    if GuideV1.Match(l).Some? {
      var g := GuideV1.Match(l).value;
      GuideV1.MatchSpec(l, g);
      NoAlias(l, g);
      ArmsAgree(g);
      NameOnlyPlain(g);
    } else if l in PlainNames {
      PlainNamesMatch(l);
    }
  }

  /** What these servers accept, the first server accepts with the same answer; they
      refuse exactly the seven plain names (`go`, `python`, `rust`, `c`, `web`,
      `kotlin`, `container`, in any case) that the first server also accepts. */
  lemma RefinesFirstServer(s: string)
    ensures FromString(s).Some? ==> GuideV1.FromString(s) == FromString(s)
    ensures FromString(s).None? && GuideV1.FromString(s).Some? <==> Lower(s) in PlainNames
  {
    var l := Lower(s);
    LowerIsLower(s);
    var k := FirstArm(Invocation, l, AsWritten);
    if k < |Invocation| {
      FoundByAlias(l, k);
    } else {
      MissedByAlias(l);
    }
  }

  /** The identifier's own spelling is refused: `python` finds nothing. */
  lemma PythonNameRefused()
    ensures FromString("python").None?
  {
    LowerOfLower("python");
    RefinesFirstServer("python");
  }

  /** The alias works: `py` finds the Python guide. */
  lemma PythonAliasAccepted()
    ensures FromString("py") == Some(Python)
  {
    LowerOfLower("py");
    RefinesFirstServer("py");
    GuideV1.MatchSpec("py", Python);
  }

  /** The guidance of a variant in this server: the Python arm includes both assets,
      each followed by a newline; the other arms are their placeholders. */
  function Guidance(g: LanguageGuide, assets: PythonAssets): string
  {
    if g == Python then assets.md + "\n" + assets.py + "\n" else Placeholder(g)
  }

  /** The `get_guidance` tool. */
  function GetGuidance(language: string, assets: PythonAssets): (text: string)
    ensures FromString(language).None? ==> IsPrefix(FallbackHead + language + ".", text)
  {
    match FromString(language)
    case Some(g) => Guidance(g, assets)
    case None => Fallback(language)
  }

  /** The guide `get_multiple_guidances` calls for each language. */
  function Guide(assets: PythonAssets): string -> string
  {
    language => GetGuidance(language, assets)
  }

  /** Asking for Python by its name gets the fallback, so the report for `["python"]`
      carries no guidance at all. */
  lemma PythonByName(assets: PythonAssets)
    ensures Sections(["python"], Guide(assets)) == Section("python", Fallback("python"))
  {
    PythonNameRefused();
    assert Sections(["python"], Guide(assets)) == Sections([], Guide(assets)) + Section("python", Guide(assets)("python"));
  }
}

=== FILE: guide_tools.dfy ===
/**
  The exported `define_directives!` macro of the Rust library: the enum, a
  `from_string` that lower-cases the identifiers before comparing, and a
  `get_guidance` whose arms hold inline text, one asset file or several asset
  files joined by the separator. The macro has no invocation of its own, so
  the model is generic in its arms; a variant is its position among them.
 */
module GuideTools {
  import opened Wrappers
  import opened Text
  import opened Guides
  import Directives

  /** The content of an arm: `content!("...")`, `file!("...")` or `files!([...])`. */
  datatype Content = Inline(text: string) | AssetFile(path: string) | AssetFiles(paths: seq<string>)

  /** The asset directory as `include_str!` reads it at build time. */
  type Assets = string -> string

  /** `LanguageGuide::from_string`: the position of the first arm whose lower-cased
      identifier or whose alias equals the lower-cased input. */
  function FromString(arms: seq<Arm<Content>>, s: string): (r: Option<nat>)
    ensures r.None? <==> forall j :: 0 <= j < |arms| ==> !Selects(arms[j], Lower(s), LowerCased)
    ensures r.Some? ==> r.value < |arms| && Selects(arms[r.value], Lower(s), LowerCased)
    ensures r.Some? ==> forall j :: 0 <= j < r.value ==> !Selects(arms[j], Lower(s), LowerCased)
  {
    var k := FirstArm(arms, Lower(s), LowerCased);
    if k < |arms| then Some(k) else None
  }

  /** Any spelling of an arm's identifier finds that arm, or an earlier one. */
  lemma IdentifierFound(arms: seq<Arm<Content>>, s: string, i: nat)
    requires i < |arms| && Lower(s) == Lower(arms[i].ident)
    ensures FromString(arms, s).Some? && FromString(arms, s).value <= i
  {
    assert Selects(arms[i], Lower(s), LowerCased);
  }

  /** The input's case never matters. */
  lemma FromStringIgnoresCase(arms: seq<Arm<Content>>, s: string)
    ensures FromString(arms, s) == FromString(arms, Lower(s))
  {
    LowerIsLower(s);
    LowerOfLower(Lower(s));
  }

  /** The `files!` combination: each text is appended, after the separator unless
      nothing has been combined yet. */
  function FilesText(texts: seq<string>): (combined: string)
    ensures combined == "" <==> forall t <- texts :: t == ""
  {
    if texts == [] then ""
    else
      var n := |texts| - 1;
      var init := FilesText(texts[..n]);
      assert forall t <- texts :: t in texts[..n] || t == texts[n];
      assert forall t <- texts[..n] :: t in texts;
      assert texts[n] in texts;
      assert |Directives.Separator| > 0;
      if init != "" then init + Directives.Separator + texts[n] else texts[n]
  }

  /** The block `files!` expands to. */
  method Combine(paths: seq<string>, assets: Assets) returns (combined: string)
    ensures combined == FilesText(Map(paths, assets))
  {
    combined := "";
    for i := 0 to |paths|
      invariant combined == FilesText(Map(paths[..i], assets))
    {
      var content := assets(paths[i]);
      if combined != "" {
        combined := combined + Directives.Separator;
      }
      combined := combined + content;
      assert Map(paths[..i + 1], assets)[..i] == Map(paths[..i], assets);
    }
    assert paths[..|paths|] == paths;
  }

  /** The texts from the first one that is not empty. */
  function DropLeadingEmpty(texts: seq<string>): (rest: seq<string>)
    ensures rest == [] || rest[0] != ""
  {
    if texts == [] then []
    else if texts[0] == "" then DropLeadingEmpty(texts[1..])
    else texts
  }

  lemma {:induction false} DropLeadingEmptySnoc(texts: seq<string>, t: string)
    ensures DropLeadingEmpty(texts + [t])
      == if DropLeadingEmpty(texts) != [] then DropLeadingEmpty(texts) + [t]
         else if t == "" then [] else [t]
  {
    if texts != [] {
      assert (texts + [t])[1..] == texts[1..] + [t];
      if texts[0] == "" {
        DropLeadingEmptySnoc(texts[1..], t);
      }
    } else {
      assert [] + [t] == [t];
    }
  }

  /** Empty texts before the first non-empty one add nothing; from there on every text
      is joined by the separator, an empty one included. */
  lemma {:induction false} FilesTextSpec(texts: seq<string>)
    ensures FilesText(texts) == Join(DropLeadingEmpty(texts), Directives.Separator)
  {
    if texts != [] {
      var n := |texts| - 1;
      var init := texts[..n];
      assert texts == init + [texts[n]];
      FilesTextSpec(init);
      DropLeadingEmptySnoc(init, texts[n]);
      var rest := DropLeadingEmpty(init);
      if rest != [] {
        JoinNonEmpty(rest, Directives.Separator, 0);
        JoinSnoc(rest, texts[n], Directives.Separator);
      }
    }
  }

  /** With no empty asset, the combination is the texts joined by the separator. */
  lemma FilesTextOfNonEmpty(texts: seq<string>)
    requires forall t <- texts :: t != ""
    ensures FilesText(texts) == Join(texts, Directives.Separator)
  {
    FilesTextSpec(texts);
    if texts != [] {
      assert texts[0] in texts;
    }
  }

  /** An empty asset at the front leaves the combination unchanged. */
  lemma LeadingEmptyIgnored(texts: seq<string>)
    ensures FilesText([""] + texts) == FilesText(texts)
  {
    FilesTextSpec([""] + texts);
    FilesTextSpec(texts);
    assert ([""] + texts)[1..] == texts;
  }

  /** `get_guidance` for the arm at position `k`. */
  function GetGuidance(arms: seq<Arm<Content>>, k: nat, assets: Assets): (text: string)
    requires k < |arms|
    ensures arms[k].payload.Inline? ==> text == arms[k].payload.text
    ensures arms[k].payload.AssetFile? ==> text == assets(arms[k].payload.path)
  {
    match arms[k].payload
    case Inline(t) => t
    case AssetFile(p) => assets(p)
    case AssetFiles(ps) => FilesText(Map(ps, assets))
  }
}

=== FILE: guide_v1.dfy ===
/**
  The first Rust directives server: `from_string` written out as one `match` on
  the lower-cased input, a placeholder text per guide, and the two tools
  `get_guidance` and `get_multiple_guidances`.
 */
module GuideV1 {
  import opened Wrappers
  import opened Text
  import opened Guides

  /** The pattern of each `match` arm: the strings that select the variant. */
  function Keys(g: LanguageGuide): set<string>
  {
    match g
    case Go => {"go", "golang"}
    case Python => {"python", "py"}
    case Rust => {"rust", "rs"}
    case C => {"c", "cpp", "c++", "objc", "objective-c"}
    case Web => {"web", "javascript", "js", "typescript", "ts", "html", "css", "svelte", "react", "vue"}
    case Kotlin => {"java", "kotlin", "kt"}
    case Container => {"container", "docker", "podman", "dockerfile"}
    case SystemTool => {"system", "tool", "rg", "ripgrep", "eza", "fd", "fzf", "bat", "exa"}
  }

  /** The position of a variant's arm in the `match` and in the enum. */
  function Rank(g: LanguageGuide): nat
  {
    match g
    case Go => 0
    case Python => 1
    case Rust => 2
    case C => 3
    case Web => 4
    case Kotlin => 5
    case Container => 6
    case SystemTool => 7
  }

  /** The `match` of `LanguageGuide::from_string`: its arms tried in order. */
  function Match(l: string): Option<LanguageGuide>
  {
    if l in Keys(Go) then Some(Go)
    else if l in Keys(Python) then Some(Python)
    else if l in Keys(Rust) then Some(Rust)
    else if l in Keys(C) then Some(C)
    else if l in Keys(Web) then Some(Web)
    else if l in Keys(Kotlin) then Some(Kotlin)
    else if l in Keys(Container) then Some(Container)
    else if l in Keys(SystemTool) then Some(SystemTool)
    else None
  }

  /** `LanguageGuide::from_string`: the match on the lower-cased input. */
  function FromString(s: string): Option<LanguageGuide>
  {
    Match(Lower(s))
  }

  // No string appears in two arms, so the order of the arms does not matter. Each
  // lemma below compares one arm with the arms before it. Comparing string literals is
  // costly for the solver, so the comparisons are spread over small proofs, and
  // KeysDisjoint picks the ones it needs.

  lemma PythonKeysFresh()
    ensures Keys(Go) !! Keys(Python)
  {
  }

  lemma RustKeysFresh()
    ensures Keys(Go) !! Keys(Rust) && Keys(Python) !! Keys(Rust)
  {
  }

  lemma CKeysFresh()
    ensures Keys(Go) !! Keys(C) && Keys(Python) !! Keys(C) && Keys(Rust) !! Keys(C)
  {
  }

  lemma WebKeysFresh()
    ensures Keys(Go) !! Keys(Web) && Keys(Python) !! Keys(Web) && Keys(Rust) !! Keys(Web)
    ensures Keys(C) !! Keys(Web)
  {
  }

  lemma KotlinKeysFresh()
    ensures Keys(Go) !! Keys(Kotlin) && Keys(Python) !! Keys(Kotlin) && Keys(Rust) !! Keys(Kotlin)
    ensures Keys(C) !! Keys(Kotlin) && Keys(Web) !! Keys(Kotlin)
  {
  }

  lemma ContainerKeysFresh()
    ensures Keys(Go) !! Keys(Container) && Keys(Python) !! Keys(Container) && Keys(Rust) !! Keys(Container)
    ensures Keys(C) !! Keys(Container) && Keys(Web) !! Keys(Container) && Keys(Kotlin) !! Keys(Container)
  {
  }

  lemma SystemToolKeysFresh()
    ensures Keys(Go) !! Keys(SystemTool) && Keys(Python) !! Keys(SystemTool) && Keys(Rust) !! Keys(SystemTool)
    ensures Keys(C) !! Keys(SystemTool)
  {
  }

  lemma SystemToolKeysFreshWeb()
    ensures Keys(Web) !! Keys(SystemTool)
  {
  }

  lemma SystemToolKeysFreshLate()
    ensures Keys(Kotlin) !! Keys(SystemTool) && Keys(Container) !! Keys(SystemTool)
  {
  }

  /** The patterns of two different arms share no string. */
  lemma KeysDisjoint(g: LanguageGuide, h: LanguageGuide)
    requires g != h
    ensures Keys(g) !! Keys(h)
  {
    var late := if Rank(g) < Rank(h) then h else g;
    match late
    case Go =>
    case Python => PythonKeysFresh();
    case Rust => RustKeysFresh();
    case C => CKeysFresh();
    case Web => WebKeysFresh();
    case Kotlin => KotlinKeysFresh();
    case Container => ContainerKeysFresh();
    case SystemTool => SystemToolKeysFresh(); SystemToolKeysFreshWeb(); SystemToolKeysFreshLate();
  }

  /** A lower-cased input selects a variant exactly when it is one of the strings of
      that variant's arm: each alias names exactly one variant. */
  lemma MatchSpec(l: string, g: LanguageGuide)
    ensures Match(l) == Some(g) <==> l in Keys(g)
  {
    if l in Keys(g) {
      forall h | h != g
        ensures l !in Keys(h)
      {
        KeysDisjoint(g, h);
      }
    }
  }

  /** Anything outside the table names no variant. */
  lemma MatchNone(l: string)
    ensures Match(l).None? <==> forall g :: l !in Keys(g)
  {
    if Match(l).Some? {
      MatchSpec(l, Match(l).value);
    }
  }

  /** Case never matters: any spelling of a name or alias gives its variant. */
  lemma FromStringIgnoresCase(s: string)
    ensures FromString(s) == FromString(Lower(s))
  {
    LowerIsLower(s);
  }

  /** `get_guidance`: the variant's placeholder, or the fallback that repeats the input
      as given. */
  function GetGuidance(language: string): (text: string)
    ensures FromString(language).None? ==> IsPrefix(FallbackHead + language + ".", text)
  {
    match FromString(language)
    case Some(g) => Placeholder(g)
    case None => Fallback(language)
  }

  /** `get_multiple_guidances` reports every language through this `get_guidance`: an
      unknown one is not dropped but gets its fallback section. */
  lemma MultipleKeepsUnknown(languages: seq<string>, k: nat)
    requires k < |languages| && FromString(languages[k]).None?
    ensures Contains(Sections(languages, GetGuidance), Section(languages[k], Fallback(languages[k])))
  {
    SectionsContain(languages, k, GetGuidance);
  }
}

=== FILE: guides.dfy ===
/**
  What the Rust MCP servers share about language guides: the guide variants,
  the arms of a `define_directives!` invocation (identifier, aliases, payload),
  the first-match lookup `from_string` performs on the lower-cased input, the
  fallback text for an unknown language, and the multi-language report that
  concatenates one section per requested language.
 */
module Guides {
  import opened Wrappers
  import opened Text
  import Directives

  datatype LanguageGuide = Go | Python | Rust | C | Web | Kotlin | Container | SystemTool

  /** One arm of `define_directives!`: what it yields, its identifier as written and
      its aliases (alternatives of one pattern, so their order does not matter). */
  datatype Arm<T> = Arm(payload: T, ident: string, aliases: set<string>)

  /** How the identifier of an arm is compared with the lower-cased input: as
      `stringify!` writes it, or lower-cased too. */
  datatype NameRule = AsWritten | LowerCased

  function ArmName<T>(arm: Arm<T>, rule: NameRule): string
  {
    if rule == LowerCased then Lower(arm.ident) else arm.ident
  }

  predicate Selects<T>(arm: Arm<T>, key: string, rule: NameRule)
  {
    key == ArmName(arm, rule) || key in arm.aliases
  }

  /** The position of the first arm that `key` selects; `|arms|` when none does. */
  function FirstArm<T>(arms: seq<Arm<T>>, key: string, rule: NameRule): (k: nat)
    ensures k <= |arms|
    ensures forall j :: 0 <= j < k ==> !Selects(arms[j], key, rule)
    ensures k < |arms| ==> Selects(arms[k], key, rule)
  {
    if arms == [] then 0
    else if Selects(arms[0], key, rule) then 0
    else 1 + FirstArm(arms[1..], key, rule)
  }

  /** `from_string`: the input is lower-cased and the first arm it selects answers. */
  function Lookup<T>(arms: seq<Arm<T>>, s: string, rule: NameRule): Option<T>
  {
    var k := FirstArm(arms, Lower(s), rule);
    if k < |arms| then Some(arms[k].payload) else None
  }

  /** An arm that the key selects, with none before it, is the one found. */
  lemma {:induction false} FirstArmAt<T>(arms: seq<Arm<T>>, key: string, rule: NameRule, i: nat)
    requires i < |arms| && Selects(arms[i], key, rule)
    requires forall j :: 0 <= j < i ==> !Selects(arms[j], key, rule)
    ensures FirstArm(arms, key, rule) == i
  {
    if i > 0 {
      FirstArmAt(arms[1..], key, rule, i - 1);
    }
  }

  /** The lookup finds nothing exactly when no arm names the lower-cased input, and
      otherwise answers with the first arm that does. */
  lemma LookupSpec<T>(arms: seq<Arm<T>>, s: string, rule: NameRule)
    ensures Lookup(arms, s, rule).None? <==> forall j :: 0 <= j < |arms| ==> !Selects(arms[j], Lower(s), rule)
    ensures Lookup(arms, s, rule).Some? ==>
      exists k :: 0 <= k < |arms| && Selects(arms[k], Lower(s), rule) && Lookup(arms, s, rule) == Some(arms[k].payload)
        && forall j :: 0 <= j < k ==> !Selects(arms[j], Lower(s), rule)
  {
    var k := FirstArm(arms, Lower(s), rule);
    if k < |arms| {
      assert Selects(arms[k], Lower(s), rule);
    }
  }

  /** Only the lower-case form of the input matters. */
  lemma LookupIgnoresCase<T>(arms: seq<Arm<T>>, s: string, rule: NameRule)
    ensures Lookup(arms, s, rule) == Lookup(arms, Lower(s), rule)
  {
    LowerIsLower(s);
  }

  /** An alias holding an upper-case letter is compared verbatim with a lower-cased
      input, so it can never select its arm. */
  lemma UpperAliasUnused<T>(arm: Arm<T>, s: string, alias: string)
    requires alias in arm.aliases && !IsLower(alias)
    ensures Lower(s) != alias
  {
    LowerIsLower(s);
  }

  /** Identifiers that hold an upper-case letter, and lower-cased identifiers that are
      nobody's alias: under that condition the two naming rules differ only on inputs
      that spell an identifier, which `AsWritten` misses and `LowerCased` finds. */
  predicate Capitalised<T>(arms: seq<Arm<T>>)
  {
    && (forall i :: 0 <= i < |arms| ==> !IsLower(arms[i].ident))
    && (forall i, j :: 0 <= i < |arms| && 0 <= j < |arms| ==> Lower(arms[i].ident) !in arms[j].aliases)
  }

  predicate SpellsIdent<T>(arms: seq<Arm<T>>, key: string)
  {
    exists i :: 0 <= i < |arms| && key == Lower(arms[i].ident)
  }

  lemma NameRules<T>(arms: seq<Arm<T>>, key: string)
    requires Capitalised(arms) && IsLower(key)
    ensures !SpellsIdent(arms, key) ==> FirstArm(arms, key, AsWritten) == FirstArm(arms, key, LowerCased)
    ensures SpellsIdent(arms, key) ==> FirstArm(arms, key, AsWritten) == |arms|
    ensures SpellsIdent(arms, key) ==> FirstArm(arms, key, LowerCased) < |arms|
  {
    assert forall i :: 0 <= i < |arms| ==> (Selects(arms[i], key, AsWritten) <==> key in arms[i].aliases);
    var k := FirstArm(arms, key, AsWritten);
    if SpellsIdent(arms, key) {
      var i :| 0 <= i < |arms| && key == Lower(arms[i].ident);
      assert Selects(arms[i], key, LowerCased);
    } else if k < |arms| {
      FirstArmAt(arms, key, LowerCased, k);
    }
  }

  /** Under that condition, a lookup that succeeds on identifiers as written gives the
      same answer with lower-cased identifiers; the lower-cased rule finds more exactly
      on inputs that spell an identifier. */
  lemma LookupNameRules<T>(arms: seq<Arm<T>>, s: string)
    requires Capitalised(arms)
    ensures Lookup(arms, s, AsWritten).Some? ==> Lookup(arms, s, LowerCased) == Lookup(arms, s, AsWritten)
    ensures Lookup(arms, s, AsWritten).None? && Lookup(arms, s, LowerCased).Some? <==> SpellsIdent(arms, Lower(s))
  {
    LowerIsLower(s);
    NameRules(arms, Lower(s));
  }

  // ---------------------------------------------------------------------
  // The invocation shared by the macro-based servers
  // ---------------------------------------------------------------------

  /** The languages, identifiers and aliases the macro-based servers declare, arm by
      arm. */
  const GoArm: Arm<LanguageGuide> := Arm(Go, "Go", {"golang"})
  const PythonArm: Arm<LanguageGuide> := Arm(Python, "Python", {"py"})
  const RustArm: Arm<LanguageGuide> := Arm(Rust, "Rust", {"rs"})
  const CArm: Arm<LanguageGuide> := Arm(C, "C", {"cpp", "c++", "objc", "objective-c"})
  const WebArm: Arm<LanguageGuide> :=
    Arm(Web, "Web", {"javascript", "js", "typescript", "ts", "html", "css", "svelte", "react", "vue"})
  const KotlinArm: Arm<LanguageGuide> := Arm(Kotlin, "Kotlin", {"java", "kt"})
  const ContainerArm: Arm<LanguageGuide> := Arm(Container, "Container", {"docker", "podman", "dockerfile"})
  const SystemToolArm: Arm<LanguageGuide> :=
    Arm(SystemTool, "SystemTool", {"system", "tool", "rg", "ripgrep", "eza", "fd", "fzf", "bat", "exa"})

  const Invocation: seq<Arm<LanguageGuide>> :=
    [GoArm, PythonArm, RustArm, CArm, WebArm, KotlinArm, ContainerArm, SystemToolArm]

  /** The fixed guidance text of each variant. */
  function Placeholder(g: LanguageGuide): string
  {
    match g
    case Go => "Go guidance placeholder"
    case Python => "Python guidance placeholder"
    case Rust => "Rust guidance placeholder"
    case C => "C-based languages guidance placeholder"
    case Web => "Web technologies guidance placeholder"
    case Kotlin => "Kotlin guidance placeholder"
    case Container => "Container technologies guidance placeholder"
    case SystemTool => "System tools guidance placeholder"
  }

  const FallbackHead: string := "No specific guidance available for language: "

  /** The answer of the `get_guidance` tool for a language it does not know: the input
      as given, not lower-cased. */
  function Fallback(language: string): (text: string)
    ensures IsPrefix(FallbackHead + language + ".", text)
  {
    var text := FallbackHead + language + "." + " Using general development philosophy.";
    assert text[..|FallbackHead + language + "."|] == FallbackHead + language + ".";
    text
  }

  // ---------------------------------------------------------------------
  // `get_multiple_guidances`
  // ---------------------------------------------------------------------

  /** The section of one language: a heading naming it as given, its guidance and the
      separator. */
  function Section(language: string, guidance: string): string
  {
    "### " + language + " Guidance:\n" + guidance + Directives.Separator
  }

  /** The report for `languages`, in order; `guide` is the `get_guidance` tool. */
  function Sections(languages: seq<string>, guide: string -> string): string
  {
    if languages == [] then ""
    else
      var l := Last(languages);
      Sections(languages[..|languages| - 1], guide) + Section(l, guide(l))
  }

  /** `get_multiple_guidances`: one heading, guidance and separator per language, pushed
      onto the result in input order. */
  method MultipleGuidances(languages: seq<string>, guide: string -> string) returns (result: string)
    ensures result == Sections(languages, guide)
  {
    result := "";
    var i := 0;
    while i < |languages|
      invariant 0 <= i <= |languages|
      invariant result == Sections(languages[..i], guide)
    {
      var language := languages[i];
      result := result + ("### " + language + " Guidance:\n");
      result := result + guide(language);
      result := result + Directives.Separator;
      assert languages[..i + 1][..i] == languages[..i];
      i := i + 1;
    }
    assert languages[..i] == languages;
  }

  /** The report is the concatenation of the sections of the languages in input order:
      no language is dropped, merged or reordered. */
  lemma {:induction false} SectionsConcat(languages: seq<string>, guide: string -> string)
    ensures Sections(languages, guide)
      == Concat(seq(|languages|, i requires 0 <= i < |languages| => Section(languages[i], guide(languages[i]))))
  {
    var parts := seq(|languages|, i requires 0 <= i < |languages| => Section(languages[i], guide(languages[i])));
    if languages != [] {
      var init := languages[..|languages| - 1];
      var l := Last(languages);
      var initParts := seq(|init|, i requires 0 <= i < |init| => Section(init[i], guide(init[i])));
      SectionsConcat(init, guide);
      assert parts == initParts + [Section(l, guide(l))];
      ConcatAppend(initParts, [Section(l, guide(l))]);
      assert Concat([Section(l, guide(l))]) == Section(l, guide(l)) + Concat([]);
    }
  }

  /** Reports of consecutive lists concatenate. */
  lemma {:induction false} SectionsAppend(xs: seq<string>, ys: seq<string>, guide: string -> string)
    ensures Sections(xs + ys, guide) == Sections(xs, guide) + Sections(ys, guide)
    decreases |ys|
  {
    if ys == [] {
      assert xs + ys == xs;
    } else {
      var init := ys[..|ys| - 1];
      var l := Last(ys);
      var s := Section(l, guide(l));
      assert (xs + ys)[..|xs + ys| - 1] == xs + init;
      assert Last(xs + ys) == l;
      SectionsAppend(xs, init, guide);
      calc {
        Sections(xs + ys, guide);
        Sections(xs + init, guide) + s;
        Sections(xs, guide) + Sections(init, guide) + s;
        Sections(xs, guide) + (Sections(init, guide) + s);
      }
    }
  }

  /** Every requested language has its section in the report. */
  lemma {:induction false} SectionsContain(languages: seq<string>, k: nat, guide: string -> string)
    requires k < |languages|
    ensures Contains(Sections(languages, guide), Section(languages[k], guide(languages[k])))
  {
    var init := languages[..|languages| - 1];
    var l := Last(languages);
    var target := Section(languages[k], guide(languages[k]));
    var a := Sections(init, guide);
    var s := Section(l, guide(l));
    assert Sections(languages, guide) == a + s;
    if k == |languages| - 1 {
      ContainsMiddle(a, s, "");
      assert a + s + "" == a + s;
    } else {
      assert init[k] == languages[k];
      SectionsContain(init, k, guide);
      ContainsAppend(a, s, target);
    }
  }

  /** A non-empty report starts with the heading of the first language and ends with
      the separator. */
  lemma SectionsEnds(languages: seq<string>, guide: string -> string)
    requires |languages| > 0
    ensures IsPrefix("### " + languages[0] + " Guidance:\n", Sections(languages, guide))
    ensures IsSuffix(Directives.Separator, Sections(languages, guide))
  {
    SectionsStart(languages, guide);
    var l := Last(languages);
    SuffixOfAppend(Sections(languages[..|languages| - 1], guide), l, guide(l));
  }

  lemma {:induction false} SectionsStart(languages: seq<string>, guide: string -> string)
    requires |languages| > 0
    ensures IsPrefix("### " + languages[0] + " Guidance:\n", Sections(languages, guide))
  {
    var head := "### " + languages[0] + " Guidance:\n";
    var init := languages[..|languages| - 1];
    var l := Last(languages);
    var s := Section(l, guide(l));
    if |languages| == 1 {
      assert Sections(languages, guide) == "" + s;
      assert s == head + (guide(l) + Directives.Separator);
      assert s[..|head|] == head;
    } else {
      assert init[0] == languages[0];
      SectionsStart(init, guide);
      var a := Sections(init, guide);
      assert (a + s)[..|head|] == a[..|head|];
    }
  }

  lemma SuffixOfAppend(a: string, language: string, guidance: string)
    ensures IsSuffix(Directives.Separator, a + Section(language, guidance))
  {
    var r := a + Section(language, guidance);
    assert r[|r| - |Directives.Separator|..] == Directives.Separator;
  }
}

=== FILE: ingest.dfy ===
/**
  `azathoth.core.ingest`: the newer ingestion entry point. gitingest's digest is
  an input; what is modelled is how the metrics, the report size and the
  suggested file name are derived from it and from the target.
 */
module Ingest {
  import opened Wrappers
  import opened Text
  import opened Utils
  import opened Report
  import opened SummaryMetrics
  import opened IngestEngine

  datatype IngestionMetrics = IngestionMetrics(fileCount: int, tokenCount: int, sizeBytes: nat)

  datatype IngestionResult = IngestionResult(
    summary: string,
    tree: string,
    content: string,
    metrics: IngestionMetrics,
    suggestedFilename: string)

  // ---------------------------------------------------------------------
  // `_generate_filename`
  // ---------------------------------------------------------------------

  /** The pieces of a POSIX path that `pathlib` keeps: empty pieces (from a leading or
      doubled slash) and `.` pieces are dropped. */
  function KeptParts(pieces: seq<string>): (kept: seq<string>)
    ensures forall p <- kept :: p in pieces && p != "" && p != "."
  {
    if pieces == [] then []
    else
      var init := KeptParts(pieces[..|pieces| - 1]);
      assert forall p <- init :: p in pieces;
      var l := Last(pieces);
      init + (if l != "" && l != "." then [l] else [])
  }

  /** `Path(path).name` for a POSIX path: its last kept piece, `""` when there is none. */
  function PosixName(path: string): (name: string)
    ensures '/' !in name && name != "."
  {
    var kept := KeptParts(Split(path, '/'));
    if kept == [] then "" else Last(kept)
  }

  /** `_generate_filename`: trailing slashes and one `.git` suffix go; a target that
      mentions github.com is named after its last `/`-piece, any other after its
      last path component. */
  function GenerateFilename(target: string): (name: string)
    ensures '/' !in name
  {
    var t := NormalizeUrl(target);
    if Contains(t, "github.com") then Last(Split(t, '/')) else PosixName(t)
  }

  /** Every piece of a join occurs in it. */
  lemma {:induction false} JoinHasPiece(xs: seq<string>, sep: string, k: nat)
    requires k < |xs|
    ensures Contains(Join(xs, sep), xs[k])
  {
    if |xs| == 1 {
      assert [] + xs[0] + [] == Join(xs, sep);
      ContainsMiddle([], xs[0], []);
    } else if k == 0 {
      ContainsMiddle([], xs[0], sep + Join(xs[1..], sep));
      assert [] + xs[0] + (sep + Join(xs[1..], sep)) == Join(xs, sep);
    } else {
      JoinHasPiece(xs[1..], sep, k - 1);
      ContainsAppend(Join(xs[1..], sep), xs[0] + sep, xs[k]);
    }
  }

  /** A URL on github.com whose last piece is a clean name is named after that piece,
      whatever the path before it holds. */
  lemma GithubName(parts: seq<string>)
    requires |parts| >= 1 && forall p <- parts :: '/' !in p
    requires Last(parts) != "" && !IsSuffix(".git", Last(parts))
    requires "github.com" in parts
    ensures GenerateFilename(Join(parts, "/")) == Last(parts)
  {
    var url := Join(parts, "/");
    JoinSplit(parts, '/');
    SplitLast(url, '/');
    CleanNormal(url, Last(parts));
    JoinHasPiece(parts, "/", IndexOf(parts, "github.com"));
  }

  /** A local path is named after its last component with the extension kept:
      `dir/file1.txt` gives `file1.txt`. */
  lemma LocalName(parts: seq<string>)
    requires |parts| >= 1 && forall p <- parts :: '/' !in p
    requires Last(parts) != "" && Last(parts) != "." && !IsSuffix(".git", Last(parts))
    requires !Contains(Join(parts, "/"), "github.com")
    ensures GenerateFilename(Join(parts, "/")) == Last(parts)
  {
    var url := Join(parts, "/");
    JoinSplit(parts, '/');
    SplitLast(url, '/');
    CleanNormal(url, Last(parts));
    KeptLast(parts);
    assert PosixName(url) == Last(parts);
  }

  lemma KeptLast(pieces: seq<string>)
    requires |pieces| >= 1 && Last(pieces) != "" && Last(pieces) != "."
    ensures KeptParts(pieces) != [] && Last(KeptParts(pieces)) == Last(pieces)
  {
    assert KeptParts(pieces) == KeptParts(pieces[..|pieces| - 1]) + [Last(pieces)];
  }

  /** Trailing slashes never change the name. */
  lemma TrailingSlash(target: string)
    ensures GenerateFilename(target + "/") == GenerateFilename(target)
  {
    assert (target + "/")[..|target|] == target;
    assert NormalizeUrl(target + "/") == NormalizeUrl(target);
  }

  /** On a plain repository URL the two naming rules agree: both give the repository. */
  lemma RepoNamesAgree(pre: seq<string>, owner: string, repo: string)
    requires "github.com" !in pre
    requires forall p <- pre :: '/' !in p
    requires '/' !in owner && '/' !in repo && repo != "" && !IsSuffix(".git", repo)
    ensures var url := Join(pre + ["github.com", owner, repo], "/");
      GenerateFilename(url) == repo && GenerateFilenameFromUrl(url) == repo
  {
    var parts := pre + ["github.com", owner, repo];
    assert parts + [] == parts;
    UrlRepoName(pre, owner, repo, []);
    CleanUrlName(parts);
    assert parts[|pre|] == "github.com";
    GithubName(parts);
  }

  /** On a `tree`/`blob` URL they part ways: the engine names the sub-path after the
      repository, this function only after the sub-path's last piece. */
  lemma SubpathNamesDiffer(pre: seq<string>, owner: string, repo: string, kind: string, branch: string, sub: seq<string>)
    requires "github.com" !in pre
    requires kind == "tree" || kind == "blob"
    requires forall p <- pre + [owner, repo, kind, branch] + sub :: '/' !in p
    requires |sub| >= 1 && Last(sub) != "" && !IsSuffix(".git", Last(sub))
    ensures var url := Join(pre + ["github.com", owner, repo, kind, branch] + sub, "/");
      && GenerateFilename(url) == Last(sub)
      && GenerateFilenameFromUrl(url) == repo + "--" + Join(sub, "-")
  {
    var parts := pre + ["github.com", owner, repo, kind, branch] + sub;
    assert Last(parts) == Last(sub);
    forall p | p in parts
      ensures '/' !in p
    {
      assert p in pre + [owner, repo, kind, branch] + sub || p == "github.com";
    }
    UrlSubpathName(pre, owner, repo, kind, branch, sub);
    CleanUrlName(parts);
    assert parts[|pre|] == "github.com";
    GithubName(parts);
  }

  // ---------------------------------------------------------------------
  // `ingest`: metrics and size assembled from the digest
  // ---------------------------------------------------------------------

  /** The summary parsed by `_parse_summary_metrics`. */
  function ParsedSummary(summary: string): Result<Metrics>
  {
    ParseLines(Current, Split(summary, '\n'))
  }

  /** `ingest` once gitingest has returned `d` for `target`. The parser's OverflowError
      is not caught, so it escapes as the error of the whole call. */
  function IngestDigest(target: string, d: Digest): (r: Result<IngestionResult>)
    ensures r.Err? <==> ParsedSummary(d.summary).Err?
    ensures r.Ok? ==> r.value.summary == d.summary && r.value.tree == d.tree && r.value.content == d.content
    ensures r.Ok? ==> r.value.metrics.fileCount == ParsedSummary(d.summary).value.fileCount
    ensures r.Ok? && ParsedSummary(d.summary).value.tokenCount != 0
        ==> r.value.metrics.tokenCount == ParsedSummary(d.summary).value.tokenCount
    ensures r.Ok? && r.value.metrics.tokenCount == 0 ==> |d.content| < 4
    ensures r.Ok? ==> r.value.metrics.sizeBytes == |Utf8Encode(ReportText(d.summary, d.tree, d.content))|
    ensures r.Ok? ==> r.value.suggestedFilename == GenerateFilename(target)
  {
    match ParsedSummary(d.summary)
    case Err(e) => Err(e)
    case Ok(m) =>
      var tokens := if m.tokenCount == 0 then EstimateTokens(d.content) else m.tokenCount;
      var text := ReportText(d.summary, d.tree, d.content);
      EncodeLength(text);
      Ok(IngestionResult(
        d.summary, d.tree, d.content,
        IngestionMetrics(m.fileCount, tokens, Utf8Length(text)),
        GenerateFilename(target)))
  }

  /** A zero token count means the summary gave none: the estimate `len // 4` of the
      content stands in, while the file count stays what was parsed. */
  lemma TokenFallback(target: string, d: Digest)
    requires ParsedSummary(d.summary).Ok? && ParsedSummary(d.summary).value.tokenCount == 0
    ensures var t := IngestDigest(target, d).value.metrics.tokenCount;
      4 * t <= |d.content| < 4 * t + 4
  {
  }

  /** A summary with neither label gives no files and the estimate as token count. */
  lemma UnlabelledSummary(target: string, d: Digest)
    requires forall line <- Split(d.summary, '\n') :: !Contains(line, FilesLabel) && !Contains(line, TokensLabel)
    ensures IngestDigest(target, d).Ok?
    ensures IngestDigest(target, d).value.metrics == IngestionMetrics(0, |d.content| / 4, ReportSizeBytes(d.summary, d.tree, d.content))
  {
    NoLabels(Current, Split(d.summary, '\n'));
    EncodeLength(ReportText(d.summary, d.tree, d.content));
  }

  /** Both entry points measure the same report: the size here is the engine's
      `calculate_report_size_bytes`, which is the size of the file it saves. */
  lemma SizeAgreesWithEngine(target: string, d: Digest, name: string)
    requires IngestDigest(target, d).Ok?
    ensures IngestDigest(target, d).value.metrics.sizeBytes == ReportSizeBytes(d.summary, d.tree, d.content)
    ensures IngestDigest(target, d).value.metrics.sizeBytes == |Utf8Encode(SaveReport(name, d.summary, d.tree, d.content).text)|
  {
    SizeMatchesSavedFile(name, d.summary, d.tree, d.content);
  }
}

=== FILE: ingest_engine.dfy ===
/**
  The pure parts of `IngestionEngine` (src/azathoth/ingest/core.py): how a
  target is classified, how a digest is named after a URL, and how a local
  path inside a git repository is turned into a name, an ingest root and an
  include pattern.
 */
module IngestEngine {
  import opened Wrappers
  import opened Text

  /** The engine's target kinds; `Unknown` exists but is never produced. */
  datatype IngestType = GitHubRepo | GitHubUser | Local | Unknown

  /** `detect_type`: whether the path exists is asked of the filesystem, so it is an input. */
  function DetectType(target: string, pathExists: bool): (t: IngestType)
    ensures t != Unknown
    ensures t == Local <==> pathExists
  {
    if pathExists then Local
    else if Contains(target, "github.com") || |Split(target, '/')| == 2 then GitHubRepo
    else GitHubUser
  }

  /** A target that is not a path is a repository exactly when it names github.com
      or has the `owner/repo` shape of a single slash; anything else is a user. */
  lemma DetectRemote(target: string)
    ensures DetectType(target, false) == GitHubRepo
        <==> Contains(target, "github.com") || multiset(target)['/'] == 1
    ensures DetectType(target, false) == GitHubUser
        <==> !Contains(target, "github.com") && multiset(target)['/'] != 1
  {
    SplitLength(target, '/');
  }

  // ---------------------------------------------------------------------
  // Names derived from a URL
  // ---------------------------------------------------------------------

  /** Trailing slashes removed, then one `.git` suffix. */
  function NormalizeUrl(url: string): string
  {
    var u := RStripChar(url, '/');
    if IsSuffix(".git", u) then u[..|u| - 4] else u
  }

  /** The naming rule on the `/`-pieces of a normalised URL. */
  function NameFromParts(parts: seq<string>): string
    requires |parts| >= 1
  {
    if "github.com" in parts then NameAfterHost(parts, IndexOf(parts, "github.com"))
    else Last(parts)
  }

  /** The name when the first `github.com` piece sits at `idx`. */
  function NameAfterHost(parts: seq<string>, idx: nat): string
    requires idx < |parts|
  {
    if |parts| >= idx + 3 then
      if |parts| > idx + 5 && (parts[idx + 3] == "tree" || parts[idx + 3] == "blob") then
        parts[idx + 2] + "--" + Join(parts[idx + 5..], "-")
      else parts[idx + 2]
    else Last(parts)
  }

  /** `_generate_filename_from_url`: never holds a slash, so it is a plain file name. */
  function GenerateFilenameFromUrl(url: string): (name: string)
    ensures '/' !in name
  {
    var parts := Split(NormalizeUrl(url), '/');
    if "github.com" in parts then
      var idx := IndexOf(parts, "github.com");
      if |parts| > idx + 5 then
        JoinAvoids(parts[idx + 5..], "-", '/');
        NameFromParts(parts)
      else NameFromParts(parts)
    else NameFromParts(parts)
  }

  /** The first `github.com` piece is the one after the prefix that lacks it. */
  lemma IndexAfter(pre: seq<string>, x: string, rest: seq<string>)
    requires x !in pre
    ensures x in pre + [x] + rest
    ensures IndexOf(pre + [x] + rest, x) == |pre|
  {
    var parts := pre + [x] + rest;
    assert parts[..|pre|] == pre;
    IndexOfFirst(parts, x, |pre|);
  }

  /** `.../github.com/owner/repo/tree/branch/a/b` is named `repo--a-b`. */
  lemma UrlSubpathName(pre: seq<string>, owner: string, repo: string, kind: string, branch: string, sub: seq<string>)
    requires "github.com" !in pre
    requires kind == "tree" || kind == "blob"
    requires |sub| >= 1
    ensures NameFromParts(pre + ["github.com", owner, repo, kind, branch] + sub) == repo + "--" + Join(sub, "-")
  {
    assert ["github.com", owner, repo, kind, branch] == ["github.com"] + [owner, repo, kind, branch];
    SubpathPieces(pre, "github.com", [owner, repo, kind, branch], sub);
  }

  lemma SubpathPieces(pre: seq<string>, host: string, mid: seq<string>, sub: seq<string>)
    requires host == "github.com" && host !in pre
    requires |mid| == 4 && (mid[2] == "tree" || mid[2] == "blob") && |sub| >= 1
    ensures NameFromParts(pre + ([host] + mid) + sub) == mid[1] + "--" + Join(sub, "-")
  {
    var parts := pre + ([host] + mid) + sub;
    PartsAt(pre, host, mid, sub, parts);
    HostIndex(pre, host, mid + sub, parts);
    SubpathAt(parts, |pre|);
  }

  lemma HostIndex(pre: seq<string>, host: string, rest: seq<string>, parts: seq<string>)
    requires host !in pre && parts == pre + [host] + rest
    ensures host in parts && IndexOf(parts, host) == |pre|
  {
    IndexAfter(pre, host, rest);
  }

  lemma PartsAt(pre: seq<string>, host: string, mid: seq<string>, sub: seq<string>, parts: seq<string>)
    requires |mid| == 4 && parts == pre + ([host] + mid) + sub
    ensures parts == pre + [host] + (mid + sub)
    ensures parts[|pre| + 2] == mid[1] && parts[|pre| + 3] == mid[2] && parts[|pre| + 5..] == sub
  {
  }

  lemma SubpathAt(parts: seq<string>, idx: nat)
    requires "github.com" in parts && IndexOf(parts, "github.com") == idx
    requires |parts| > idx + 5 && (parts[idx + 3] == "tree" || parts[idx + 3] == "blob")
    ensures NameFromParts(parts) == parts[idx + 2] + "--" + Join(parts[idx + 5..], "-")
  {
  }

  /** Without a `tree`/`blob` sub-path below it, a github.com URL is named after the repository. */
  lemma UrlRepoName(pre: seq<string>, owner: string, repo: string, rest: seq<string>)
    requires "github.com" !in pre
    requires |rest| > 2 ==> rest[0] != "tree" && rest[0] != "blob"
    ensures NameFromParts(pre + ["github.com", owner, repo] + rest) == repo
  {
    var parts := pre + ["github.com", owner, repo] + rest;
    assert parts == pre + ["github.com"] + ([owner, repo] + rest);
    IndexAfter(pre, "github.com", [owner, repo] + rest);
    var idx := |pre|;
    assert parts[idx + 2] == repo;
    if |parts| > idx + 5 {
      assert parts[idx + 3] == rest[0];
    }
  }

  /** A github.com URL with fewer than two pieces after the host falls back to its last piece. */
  lemma UrlShortGithub(pre: seq<string>, rest: seq<string>)
    requires "github.com" !in pre
    requires |rest| < 2
    ensures NameFromParts(pre + ["github.com"] + rest) == Last(pre + ["github.com"] + rest)
  {
    IndexAfter(pre, "github.com", rest);
  }

  /** With no `github.com` piece (any other host, or a bare name) the name is the
      text after the last slash of the normalised URL. */
  lemma UrlFallback(url: string)
    requires "github.com" !in Split(NormalizeUrl(url), '/')
    ensures AfterLast(GenerateFilenameFromUrl(url), NormalizeUrl(url), '/')
  {
    SplitLast(NormalizeUrl(url), '/');
  }

  /** A URL written as its pieces, with a last piece that is neither empty nor a
      `.git` name, is already normalised and splits back into the same pieces. */
  lemma CleanUrlName(parts: seq<string>)
    requires |parts| >= 1
    requires forall p <- parts :: '/' !in p
    requires Last(parts) != "" && !IsSuffix(".git", Last(parts))
    ensures GenerateFilenameFromUrl(Join(parts, "/")) == NameFromParts(parts)
  {
    var url := Join(parts, "/");
    JoinSplit(parts, '/');
    SplitLast(url, '/');
    CleanNormal(url, Last(parts));
  }

  /** A URL whose last piece is neither empty nor a `.git` name is left as it is. */
  lemma CleanNormal(url: string, l: string)
    requires AfterLast(l, url, '/') && l != "" && '/' !in l && !IsSuffix(".git", l)
    ensures NormalizeUrl(url) == url
  {
    assert url[|url| - |l|..] == l;
    assert url[|url| - 1] == l[|l| - 1];
    assert RStripChar(url, '/') == url;
    if |l| >= 4 {
      assert url[|url| - 4..] == l[|l| - 4..];
    } else if |l| < |url| && |url| >= 4 {
      assert url[|url| - 4..][3 - |l|] == url[|url| - |l| - 1] == '/';
    }
  }

  /** Trailing slashes do not change the name. */
  lemma UrlTrailingSlash(url: string)
    ensures GenerateFilenameFromUrl(url + "/") == GenerateFilenameFromUrl(url)
  {
    assert (url + "/")[..|url|] == url;
    assert NormalizeUrl(url + "/") == NormalizeUrl(url);
  }

  /** One `.git` suffix does not change the name of a URL that has none. */
  lemma UrlGitSuffix(url: string)
    requires url != [] && url[|url| - 1] != '/'
    requires !IsSuffix(".git", url)
    ensures GenerateFilenameFromUrl(url + ".git") == GenerateFilenameFromUrl(url)
  {
    var u := url + ".git";
    assert u[|u| - 1] == 't';
    assert RStripChar(u, '/') == u;
    assert u[|u| - 4..] == ".git";
    assert u[..|u| - 4] == url;
    assert NormalizeUrl(u) == url;
    assert NormalizeUrl(url) == url;
  }

  // ---------------------------------------------------------------------
  // `process_local`: naming and scope inside a git repository
  // ---------------------------------------------------------------------

  /** How a local target is ingested: the report name, the directory handed to
      gitingest, and the include patterns (None for the whole directory). */
  datatype LocalPlan = LocalPlan(name: string, ingestPath: seq<string>, patterns: Option<set<string>>)

  /** `Path.name` of a path given by its components (`""` for the root). */
  function PathName(path: seq<string>): string
  {
    if path == [] then "" else Last(path)
  }

  /** `str(rel)` with both separators turned into `-`. */
  function FlatRel(rel: seq<string>): (flat: string)
    ensures '/' !in flat && '\\' !in flat
  {
    ReplaceChar(ReplaceChar(Join(rel, "/"), '/', '-'), '\\', '-')
  }

  /** What the resolved target is on disk, as far as starting git in it is concerned. */
  datatype TargetKind = Directory | RegularFile | Missing

  /** The naming and scope part of `process_local`. Git is started with the target as
      its working directory: a missing target makes that a FileNotFoundError, which is
      caught, and a file makes it a NotADirectoryError, which is not. In a directory,
      `gitRoot` is what `git rev-parse --show-toplevel` reports, None when git fails; a
      target outside that root makes `relative_to` raise a ValueError the method does
      not catch. */
  function PlanLocal(target: seq<string>, kind: TargetKind, gitRoot: Option<seq<string>>): (r: Result<LocalPlan>)
    ensures kind == RegularFile ==> r == Err("NotADirectoryError")
    ensures r.Err? <==> kind == RegularFile || (kind == Directory && gitRoot.Some? && !(gitRoot.value <= target))
    ensures r.Ok? ==> r.value.ingestPath <= target
    ensures r.Ok? ==> (r.value.patterns.None? <==> kind == Missing || gitRoot.None? || gitRoot.value == target)
    ensures r.Ok? && r.value.patterns.None? ==> r.value.ingestPath == target
  {
    match kind
    case RegularFile => Err("NotADirectoryError")
    case Missing => Ok(LocalPlan(PathName(target), target, None))
    case Directory =>
      match gitRoot
      case None => Ok(LocalPlan(PathName(target), target, None))
      case Some(root) =>
        if target == root then Ok(LocalPlan(PathName(root), target, None))
        else if root <= target then
          var rel := target[|root|..];
          Ok(LocalPlan(PathName(root) + "--" + FlatRel(rel), root, Some({Join(rel, "/")})))
        else Err("ValueError")
  }

  /** Path components hold no separator and are not empty. */
  predicate Components(path: seq<string>)
  {
    forall c <- path :: c != "" && '/' !in c
  }

  /** A subdirectory of the repository: the ingest root plus the include pattern,
      split back into components, is the target again. */
  lemma LocalScopeRoundTrip(target: seq<string>, root: seq<string>)
    requires Components(target)
    requires root <= target && root != target
    ensures var p := PlanLocal(target, Directory, Some(root)).value;
      && p.ingestPath == root
      && p.patterns.Some? && |p.patterns.value| == 1
      && forall pattern <- p.patterns.value :: p.ingestPath + Split(pattern, '/') == target
  {
    var rel := target[|root|..];
    assert forall c <- rel :: c in target;
    JoinSplit(rel, '/');
    assert root + rel == target;
  }

  /** With POSIX components the name is the repository name, `--`, and the
      relative path with `-` in place of `/`. */
  lemma LocalSubdirName(target: seq<string>, root: seq<string>)
    requires Components(target)
    requires forall c <- target :: '\\' !in c
    requires root <= target && root != target
    ensures PlanLocal(target, Directory, Some(root)).value.name == PathName(root) + "--" + Join(target[|root|..], "-")
  {
    var rel := target[|root|..];
    assert forall c <- rel :: c in target;
    ReplaceJoin(rel, '/', '-');
    JoinAvoids(rel, "-", '\\');
    ReplaceCharAbsent(Join(rel, "-"), '\\', '-');
  }

  /** Without git, at the repository root, or for a target that does not exist, the
      report is named after the target itself and covers all of it. */
  lemma LocalWholeName(target: seq<string>, kind: TargetKind, gitRoot: Option<seq<string>>)
    requires kind != RegularFile
    requires kind == Missing || gitRoot.None? || gitRoot.value == target
    ensures PlanLocal(target, kind, gitRoot) == Ok(LocalPlan(PathName(target), target, None))
  {
  }
}

=== FILE: listing.dfy ===
/**
  `list_directory` (src/azathoth/core/ls.py): a sorted, filtered walk of a
  directory tree that records one entry per visited item and counts files,
  directories and estimated tokens.

  The filesystem is a value: a tree of nodes. A directory whose listing is
  refused (the PermissionError the walk swallows) has `readable == false`; a file
  whose text cannot be read has no `text`. A symbolic link whose target does not
  exist is `Dangling`, and one whose resolution loops back on itself is `Looping`:
  `is_dir()` is false for both, and `stat()` raises FileNotFoundError or OSError
  (ELOOP), which the walk does not catch. An entry whose `stat()` is refused, such
  as one inside a directory that may be listed but not searched, is `Denied`:
  `is_dir()` raises PermissionError for it, which the handler around the loop
  swallows, so the loop over that directory ends there. Entry paths are kept as
  their components relative to the root; the source prints them joined with `/`.
 */
module Listing {
  import opened Wrappers
  import opened Text
  import opened Utils

  datatype Node =
    | File(name: string, size: nat, text: Option<string>)
    | Dir(name: string, readable: bool, children: seq<Node>)
    | Dangling(name: string)
    | Looping(name: string)
    | Denied(name: string)

  datatype FileEntry = FileEntry(name: string, path: seq<string>, isDir: bool, sizeBytes: nat, tokenEstimate: Option<nat>)

  datatype DirectoryListing = DirectoryListing(
    path: string, entries: seq<FileEntry>, totalFiles: nat, totalDirs: nat, totalTokens: Option<nat>)

  /** Names skipped at every depth, together with everything below them. */
  const Ignore: set<string> := {".git", "__pycache__", "node_modules", "target", ".venv", ".next"}

  // ---------------------------------------------------------------------
  // Python's string order and `sorted`
  // ---------------------------------------------------------------------

  /** Python's `a <= b` on strings: code point by code point, a proper prefix first. */
  predicate LexLe(a: string, b: string)
  {
    a == [] || (b != [] && (a[0] < b[0] || (a[0] == b[0] && LexLe(a[1..], b[1..]))))
  }

  lemma {:induction false} LexLeTotal(a: string, b: string)
    ensures LexLe(a, b) || LexLe(b, a)
  {
    if a != [] && b != [] && a[0] == b[0] {
      LexLeTotal(a[1..], b[1..]);
    }
  }

  lemma {:induction false} LexLeTrans(a: string, b: string, c: string)
    requires LexLe(a, b) && LexLe(b, c)
    ensures LexLe(a, c)
  {
    if a != [] && b != [] && c != [] && a[0] == b[0] && b[0] == c[0] {
      LexLeTrans(a[1..], b[1..], c[1..]);
    }
  }

  predicate Sorted(xs: seq<Node>)
  {
    forall i, j :: 0 <= i < j < |xs| ==> LexLe(xs[i].name, xs[j].name)
  }

  function Insert(x: Node, xs: seq<Node>): seq<Node>
  {
    if xs == [] then [x]
    else if LexLe(x.name, xs[0].name) then [x] + xs
    else [xs[0]] + Insert(x, xs[1..])
  }

  lemma {:induction false} InsertPerm(x: Node, xs: seq<Node>)
    ensures multiset(Insert(x, xs)) == multiset(xs) + multiset{x}
  {
    if xs != [] && !LexLe(x.name, xs[0].name) {
      InsertPerm(x, xs[1..]);
      assert xs == [xs[0]] + xs[1..];
    }
  }

  lemma {:induction false} InsertSorted(x: Node, xs: seq<Node>)
    requires Sorted(xs)
    ensures Sorted(Insert(x, xs))
  {
    if xs == [] {
    } else if LexLe(x.name, xs[0].name) {
      InsertFront(x, xs);
    } else {
      var rest := Insert(x, xs[1..]);
      InsertSorted(x, xs[1..]);
      LexLeTotal(x.name, xs[0].name);
      InsertBelow(xs[0].name, x, xs[1..]);
      assert Insert(x, xs) == [xs[0]] + rest;
    }
  }

  /** A lower bound of `x` and of every element of `xs` bounds what inserting gives. */
  lemma InsertBelow(b: string, x: Node, xs: seq<Node>)
    requires LexLe(b, x.name) && forall k :: 0 <= k < |xs| ==> LexLe(b, xs[k].name)
    ensures forall k :: 0 <= k < |Insert(x, xs)| ==> LexLe(b, Insert(x, xs)[k].name)
  {
    var r := Insert(x, xs);
    InsertPerm(x, xs);
    forall k | 0 <= k < |r| ensures LexLe(b, r[k].name) {
      assert r[k] in multiset(r);
      if r[k] != x {
        assert r[k] in multiset(xs);
        var j :| 0 <= j < |xs| && xs[j] == r[k];
      }
    }
  }

  lemma InsertFront(x: Node, xs: seq<Node>)
    requires Sorted(xs) && xs != [] && LexLe(x.name, xs[0].name)
    ensures Sorted([x] + xs)
  {
    forall j | 0 < j < |xs| ensures LexLe(x.name, xs[j].name) {
      LexLeTrans(x.name, xs[0].name, xs[j].name);
    }
  }

  /** `sorted(...)` on the items of one directory, which share their parent and so compare by name. */
  function SortByName(xs: seq<Node>): seq<Node>
  {
    if xs == [] then [] else Insert(xs[0], SortByName(xs[1..]))
  }

  /** Sorting yields an ordered permutation of the items. */
  lemma {:induction false} SortByNameSpec(xs: seq<Node>)
    ensures multiset(SortByName(xs)) == multiset(xs)
    ensures Sorted(SortByName(xs))
  {
    if xs != [] {
      SortByNameSpec(xs[1..]);
      InsertPerm(xs[0], SortByName(xs[1..]));
      InsertSorted(xs[0], SortByName(xs[1..]));
      assert xs == [xs[0]] + xs[1..];
    }
  }

  /** Sorting what is already in order changes nothing. */
  lemma {:induction false} SortSorted(xs: seq<Node>)
    requires Sorted(xs)
    ensures SortByName(xs) == xs
  {
    if xs != [] {
      SortSorted(xs[1..]);
      if |xs| == 1 {
        assert xs[1..] == [];
      }
    }
  }

  /** The sorted items of a directory without the ignored names. */
  function Visible(children: seq<Node>): seq<Node>
  {
    DropIgnored(SortByName(children))
  }

  function DropIgnored(xs: seq<Node>): seq<Node>
  {
    if xs == [] then []
    else if xs[0].name in Ignore then DropIgnored(xs[1..])
    else [xs[0]] + DropIgnored(xs[1..])
  }

  lemma {:induction false} DropIgnoredSpec(xs: seq<Node>)
    ensures forall c :: c in DropIgnored(xs) <==> c in xs && c.name !in Ignore
    ensures Sorted(xs) ==> Sorted(DropIgnored(xs))
  {
    if xs != [] {
      var rest := DropIgnored(xs[1..]);
      DropIgnoredSpec(xs[1..]);
      assert forall c :: c in xs <==> c == xs[0] || c in xs[1..];
      if xs[0].name !in Ignore && Sorted(xs) {
        forall k | 0 <= k < |rest| ensures LexLe(xs[0].name, rest[k].name) {
          assert rest[k] in rest;
          var j :| 0 <= j < |xs[1..]| && xs[1..][j] == rest[k];
          assert xs[j + 1] == rest[k];
        }
      }
    }
  }

  /** The walk visits exactly the children whose names are not ignored, in Python's string
      order of their names. */
  lemma VisibleSpec(children: seq<Node>)
    ensures forall c :: c in Visible(children) <==> c in children && c.name !in Ignore
    ensures Sorted(Visible(children))
  {
    var sorted := SortByName(children);
    SortByNameSpec(children);
    DropIgnoredSpec(sorted);
    forall c ensures c in sorted <==> c in children {
      assert c in sorted <==> c in multiset(sorted);
    }
  }

  /** The part of `VisibleSpec` the walk needs to recurse into a child. */
  lemma VisibleIn(children: seq<Node>)
    ensures forall c <- Visible(children) :: c in children
  {
    VisibleSpec(children);
  }

  // ---------------------------------------------------------------------
  // What a walk records and counts
  // ---------------------------------------------------------------------

  /** The entry of one item at `path`: directories have size 0 and no estimate; an
      unreadable file is estimated at 0 tokens. */
  function EntryOf(item: Node, path: seq<string>, showTokens: bool): FileEntry
    requires item.File? || item.Dir?
  {
    match item
    case Dir(name, _, _) => FileEntry(name, path, true, 0, None)
    case File(name, size, text) =>
      var estimate := if !showTokens then None else if text.None? then Some(0) else Some(EstimateTokens(text.value));
      FileEntry(name, path, false, size, estimate)
  }

  /** How many of `items` the loop gets through: all of them, or those before the first
      whose `is_dir()` raises PermissionError, which ends the loop. */
  function FirstDenied(items: seq<Node>): (r: nat)
    ensures r <= |items|
    ensures forall k :: 0 <= k < r ==> !items[k].Denied?
    ensures r < |items| ==> items[r].Denied?
  {
    if items == [] || items[0].Denied? then 0
    else
      var r := 1 + FirstDenied(items[1..]);
      assert forall k :: 1 <= k < r ==> items[k] == items[1..][k - 1];
      r
  }

  /** The number of visible items of `dir` its loop visits. */
  function Reach(dir: Node): nat
    requires dir.Dir?
  {
    FirstDenied(Visible(dir.children))
  }

  /** What walking the directory `dir`, found at `path`, appends: nothing when it cannot be
      listed, and otherwise the entries of the items before the first refused one. */
  function DirEntries(dir: Node, path: seq<string>, recursive: bool, showTokens: bool): seq<FileEntry>
    requires dir.Dir?
    decreases dir, 1
  {
    if !dir.readable then []
    else SeqEntries(dir, Reach(dir), path, recursive, showTokens)
  }

  /** What the loop over the visible items of `dir` appends for the first `n` of them. */
  function SeqEntries(dir: Node, n: nat, path: seq<string>, recursive: bool, showTokens: bool): seq<FileEntry>
    requires dir.Dir? && n <= |Visible(dir.children)|
    decreases dir, 0, n
  {
    if n == 0 then []
    else
      var item := Visible(dir.children)[n - 1];
      VisibleIn(dir.children);
      assert item in Visible(dir.children);
      SeqEntries(dir, n - 1, path, recursive, showTokens) + NodeEntries(item, path, recursive, showTokens)
  }

  /** One item: a directory's subtree first (when recursive), then the item's own entry.
      A link that cannot be followed or an entry whose `stat()` is refused records
      nothing: the walk raises, or the loop ends, before its entry is built. */
  function NodeEntries(item: Node, path: seq<string>, recursive: bool, showTokens: bool): seq<FileEntry>
    decreases item, 2
  {
    var here := path + [item.name];
    if !(item.File? || item.Dir?) then []
    else
      (if item.Dir? && recursive then DirEntries(item, here, recursive, showTokens) else [])
        + [EntryOf(item, here, showTokens)]
  }

  /** The three counters a walk keeps. */
  datatype Measure = Files | Dirs | Tokens

  /** What one item adds to a counter, apart from its subtree; an unreadable file adds no tokens. */
  function ItemCount(item: Node, m: Measure, showTokens: bool): nat
  {
    match m
    case Files => if item.File? then 1 else 0
    case Dirs => if item.Dir? then 1 else 0
    case Tokens => if item.File? && showTokens && item.text.Some? then EstimateTokens(item.text.value) else 0
  }

  function DirCount(dir: Node, m: Measure, recursive: bool, showTokens: bool): nat
    requires dir.Dir?
    decreases dir, 1
  {
    if !dir.readable then 0
    else SeqCount(dir, m, Reach(dir), recursive, showTokens)
  }

  function SeqCount(dir: Node, m: Measure, n: nat, recursive: bool, showTokens: bool): nat
    requires dir.Dir? && n <= |Visible(dir.children)|
    decreases dir, 0, n
  {
    if n == 0 then 0
    else
      var item := Visible(dir.children)[n - 1];
      VisibleIn(dir.children);
      assert item in Visible(dir.children);
      SeqCount(dir, m, n - 1, recursive, showTokens) + NodeCount(item, m, recursive, showTokens)
  }

  function NodeCount(item: Node, m: Measure, recursive: bool, showTokens: bool): nat
    decreases item, 2
  {
    (if item.Dir? && recursive then DirCount(item, m, recursive, showTokens) else 0) + ItemCount(item, m, showTokens)
  }

  /** The listing of a directory root. */
  function ListingOf(rootPath: string, root: Node, recursive: bool, showTokens: bool): DirectoryListing
    requires root.Dir?
  {
    DirectoryListing(
      rootPath,
      DirEntries(root, [], recursive, showTokens),
      DirCount(root, Files, recursive, showTokens),
      DirCount(root, Dirs, recursive, showTokens),
      if showTokens then Some(DirCount(root, Tokens, recursive, showTokens)) else None)
  }

  /** What walking `dir` raises past every handler: the error of the first item its loop
      visits that raises, or of a directory below it when recursive. */
  function DirError(dir: Node, recursive: bool): Option<string>
    requires dir.Dir?
    decreases dir, 1
  {
    if !dir.readable then None else SeqError(dir, Reach(dir), recursive)
  }

  /** What the first `n` items the loop over `dir` visits raise: the first error among them. */
  function SeqError(dir: Node, n: nat, recursive: bool): Option<string>
    requires dir.Dir? && n <= |Visible(dir.children)|
    decreases dir, 0, n
  {
    if n == 0 then None
    else
      var item := Visible(dir.children)[n - 1];
      VisibleIn(dir.children);
      assert item in Visible(dir.children);
      var before := SeqError(dir, n - 1, recursive);
      if before.Some? then before else NodeError(item, recursive)
  }

  /** What visiting one item raises: `stat()` of a dangling link raises FileNotFoundError
      and of a looping one OSError; with recursion a directory raises what its walk does. */
  function NodeError(item: Node, recursive: bool): Option<string>
    decreases item, 2
  {
    match item
    case Dangling(_) => Some("FileNotFoundError")
    case Looping(_) => Some("OSError")
    case Dir(_, _, _) => if recursive then DirError(item, recursive) else None
    case File(_, _, _) => None
    case Denied(_) => None
  }

  /** How one pass of the loop ends: the loop goes on, the loop ends because `is_dir()`
      raised PermissionError, or an error escapes the walk. */
  datatype Outcome = Next | Stopped | Raised(error: string)

  function NodeOutcome(item: Node, recursive: bool): Outcome
  {
    if item.Denied? then Stopped
    else if NodeError(item, recursive).Some? then Raised(NodeError(item, recursive).value)
    else Next
  }

  // ---------------------------------------------------------------------
  // The walk: the recorded entries and the three counters are the state it updates
  // ---------------------------------------------------------------------

  class Walker {
    var entries: seq<FileEntry>
    var totalFiles: nat
    var totalDirs: nat
    var totalTokens: nat
    const recursive: bool
    const showTokens: bool

    /** The counter that keeps measure `m`. */
    function Total(m: Measure): nat
      reads this
    {
      match m
      case Files => totalFiles
      case Dirs => totalDirs
      case Tokens => totalTokens
    }

    constructor (recursive: bool, showTokens: bool)
      ensures entries == [] && totalFiles == 0 && totalDirs == 0 && totalTokens == 0
      ensures this.recursive == recursive && this.showTokens == showTokens
    {
      entries := [];
      totalFiles, totalDirs, totalTokens := 0, 0, 0;
      this.recursive := recursive;
      this.showTokens := showTokens;
    }

    /** `_walk`: appends the entries of `dir` and adds what they count, or reports the
        error that escaped it; the state it leaves then is discarded. A refused listing
        of `dir`, or an item whose `is_dir()` raises PermissionError, ends the walk of
        `dir` quietly, keeping what the earlier items added. */
    method Walk(dir: Node, path: seq<string>) returns (err: Option<string>)
      requires dir.Dir?
      modifies this
      decreases dir, 1
      ensures err == DirError(dir, recursive)
      ensures err.None? ==> entries == old(entries) + DirEntries(dir, path, recursive, showTokens)
      ensures err.None? ==> forall m :: Total(m) == old(Total(m)) + DirCount(dir, m, recursive, showTokens)
    {
      if !dir.readable {
        return None;
      }
      var items := Visible(dir.children);
      VisibleIn(dir.children);
      var i := 0;
      while i < |items|
        invariant 0 <= i <= Reach(dir)
        invariant SeqError(dir, i, recursive).None?
        invariant entries == old(entries) + SeqEntries(dir, i, path, recursive, showTokens)
        invariant forall m :: Total(m) == old(Total(m)) + SeqCount(dir, m, i, recursive, showTokens)
      {
        assert items[i] in items;
        var out := Visit(items[i], path);
        ReachStep(dir, i);
        if out.Stopped? {
          return None;
        }
        SeqStep(dir, i, path, recursive, showTokens);
        if out.Raised? {
          ErrorPersists(dir, i + 1, Reach(dir), recursive);
          return Some(out.error);
        }
        AppendAssoc(old(entries), SeqEntries(dir, i, path, recursive, showTokens), NodeEntries(items[i], path, recursive, showTokens));
        i := i + 1;
      }
      return None;
    }

    /** One pass of the loop in `_walk`. */
    method Visit(item: Node, path: seq<string>) returns (out: Outcome)
      modifies this
      decreases item, 2
      ensures out == NodeOutcome(item, recursive)
      ensures !out.Raised? ==> entries == old(entries) + NodeEntries(item, path, recursive, showTokens)
      ensures !out.Raised? ==> forall m :: Total(m) == old(Total(m)) + NodeCount(item, m, recursive, showTokens)
    {
      if item.Denied? {
        return Stopped;
      }
      if item.Dangling? {
        return Raised("FileNotFoundError");
      }
      if item.Looping? {
        return Raised("OSError");
      }
      var here := path + [item.name];
      var entry := EntryOf(item, here, showTokens);
      if item.Dir? {
        totalDirs := totalDirs + 1;
        if recursive {
          var err := Walk(item, here);
          if err.Some? {
            return Raised(err.value);
          }
        }
      } else {
        totalFiles := totalFiles + 1;
        if showTokens && item.text.Some? {
          totalTokens := totalTokens + EstimateTokens(item.text.value);
        }
      }
      entries := entries + [entry];
      out := Next;
    }
  }

  /** One more pass of the loop appends one more item's entries and counts, and raises the
      earlier passes' error or else this item's. */
  lemma SeqStep(dir: Node, i: nat, path: seq<string>, recursive: bool, showTokens: bool)
    requires dir.Dir? && i < |Visible(dir.children)|
    ensures var item := Visible(dir.children)[i];
      && SeqError(dir, i + 1, recursive)
         == (if SeqError(dir, i, recursive).Some? then SeqError(dir, i, recursive) else NodeError(item, recursive))
      && SeqEntries(dir, i + 1, path, recursive, showTokens)
         == SeqEntries(dir, i, path, recursive, showTokens) + NodeEntries(item, path, recursive, showTokens)
      && (forall m :: SeqCount(dir, m, i + 1, recursive, showTokens)
                      == SeqCount(dir, m, i, recursive, showTokens) + NodeCount(item, m, recursive, showTokens))
  {
  }

  /** The loop has got through the first `i` items: the next one ends it exactly when it is
      refused. */
  lemma ReachStep(dir: Node, i: nat)
    requires dir.Dir? && i <= Reach(dir) && i < |Visible(dir.children)|
    ensures Visible(dir.children)[i].Denied? <==> i == Reach(dir)
  {
  }

  /** The error raised among the first `n` items is the error of any longer run of them. */
  lemma {:induction false} ErrorPersists(dir: Node, n: nat, n': nat, recursive: bool)
    requires dir.Dir? && n <= n' <= |Visible(dir.children)| && SeqError(dir, n, recursive).Some?
    ensures SeqError(dir, n', recursive) == SeqError(dir, n, recursive)
    decreases n' - n
  {
    if n < n' {
      assert SeqError(dir, n + 1, recursive) == SeqError(dir, n, recursive);
      ErrorPersists(dir, n + 1, n', recursive);
    }
  }

  /** The first `n` items raise exactly when one of them does, and then with the error of
      the first one that does. */
  lemma {:induction false} SeqErrorSpec(dir: Node, n: nat, recursive: bool)
    requires dir.Dir? && n <= |Visible(dir.children)|
    ensures SeqError(dir, n, recursive).None? <==>
      forall k :: 0 <= k < n ==> NodeError(Visible(dir.children)[k], recursive).None?
    ensures SeqError(dir, n, recursive).Some? ==>
      exists k :: 0 <= k < n && SeqError(dir, n, recursive) == NodeError(Visible(dir.children)[k], recursive)
        && forall j :: 0 <= j < k ==> NodeError(Visible(dir.children)[j], recursive).None?
  {
    if n > 0 {
      SeqErrorSpec(dir, n - 1, recursive);
    }
  }

  /** Walking a directory raises exactly when it can be listed and one of the items its loop
      visits before the first refused one raises: a link that cannot be followed or, with
      recursion, a directory whose own walk raises; the first such item decides the error.
      A directory whose listing is refused is skipped before any item is looked at. */
  lemma DirErrorSpec(dir: Node, recursive: bool)
    requires dir.Dir?
    ensures var items := Visible(dir.children);
      && (DirError(dir, recursive).Some? <==>
           dir.readable && exists k :: 0 <= k < Reach(dir) && NodeError(items[k], recursive).Some?)
      && (DirError(dir, recursive).Some? ==>
           exists k :: 0 <= k < Reach(dir) && DirError(dir, recursive) == NodeError(items[k], recursive)
             && forall j :: 0 <= j < k ==> NodeError(items[j], recursive).None?)
  {
    SeqErrorSpec(dir, Reach(dir), recursive);
  }

  /** A link that cannot be followed, directly inside a readable directory without refused
      entries and under a name that is not ignored, makes the walk raise, recursive or not. */
  lemma BrokenLinkChildRaises(dir: Node, link: Node, recursive: bool)
    requires dir.Dir? && dir.readable && forall c <- dir.children :: !c.Denied?
    requires link in dir.children && (link.Dangling? || link.Looping?) && link.name !in Ignore
    ensures DirError(dir, recursive).Some?
  {
    var items := Visible(dir.children);
    VisibleSpec(dir.children);
    assert link in items;
    var k :| 0 <= k < |items| && items[k] == link;
    assert Reach(dir) == |items|;
    DirErrorSpec(dir, recursive);
  }

  /** The first visible entry of a directory whose `stat()` is refused ends its loop: the
      directory records and counts what the items before it do, and raises only what they
      raise; the items after it are never looked at. */
  lemma {:induction false} DeniedChildStops(dir: Node, k: nat, path: seq<string>, recursive: bool, showTokens: bool)
    requires dir.Dir? && dir.readable && k < |Visible(dir.children)|
    requires Visible(dir.children)[k].Denied? && forall j :: 0 <= j < k ==> !Visible(dir.children)[j].Denied?
    ensures DirEntries(dir, path, recursive, showTokens) == SeqEntries(dir, k, path, recursive, showTokens)
    ensures forall m :: DirCount(dir, m, recursive, showTokens) == SeqCount(dir, m, k, recursive, showTokens)
    ensures DirError(dir, recursive) == SeqError(dir, k, recursive)
  {
    assert Reach(dir) == k;
  }

  // ---------------------------------------------------------------------
  // Properties of the listing
  // ---------------------------------------------------------------------

  /** The estimates recorded in a run of entries, added up. */
  function TokenSum(es: seq<FileEntry>): nat
  {
    if es == [] then 0
    else (match es[0].tokenEstimate case Some(n) => n case None => 0) + TokenSum(es[1..])
  }

  lemma {:induction false} TokenSumAppend(a: seq<FileEntry>, b: seq<FileEntry>)
    ensures TokenSum(a + b) == TokenSum(a) + TokenSum(b)
  {
    if a == [] {
      assert a + b == b;
    } else {
      assert (a + b)[1..] == a[1..] + b;
      TokenSumAppend(a[1..], b);
    }
  }

  /** What holds of every entry recorded below `path`: it lies strictly below `path`, its last
      component is its name, no component below `path` is ignored, directories carry size 0
      and no estimate, files carry an estimate exactly when tokens are shown, and without
      recursion only direct children are recorded. */
  predicate GoodEntry(e: FileEntry, path: seq<string>, recursive: bool, showTokens: bool)
  {
    && |path| < |e.path| && e.path[..|path|] == path && e.path[|e.path| - 1] == e.name
    && (forall k | |path| <= k < |e.path| :: e.path[k] !in Ignore)
    && (e.isDir ==> e.sizeBytes == 0 && e.tokenEstimate.None?)
    && (!e.isDir ==> (e.tokenEstimate.Some? <==> showTokens))
    && (!recursive ==> |e.path| == |path| + 1)
  }

  /** An entry recorded below a child directory `name` is also recorded below its parent. */
  lemma GoodEntryLift(e: FileEntry, path: seq<string>, name: string, recursive: bool, showTokens: bool)
    requires GoodEntry(e, path + [name], recursive, showTokens) && name !in Ignore && recursive
    ensures GoodEntry(e, path, recursive, showTokens)
  {
    assert e.path[..|path|] == e.path[..|path| + 1][..|path|];
    assert e.path[|path|] == name;
  }

  lemma {:induction false} DirFacts(dir: Node, path: seq<string>, recursive: bool, showTokens: bool)
    requires dir.Dir?
    decreases dir, 1
    ensures var es := DirEntries(dir, path, recursive, showTokens);
      && |es| == DirCount(dir, Files, recursive, showTokens) + DirCount(dir, Dirs, recursive, showTokens)
      && TokenSum(es) == DirCount(dir, Tokens, recursive, showTokens)
      && forall e <- es :: GoodEntry(e, path, recursive, showTokens)
  {
    if dir.readable {
      SeqFacts(dir, Reach(dir), path, recursive, showTokens);
    }
  }

  lemma {:induction false} SeqFacts(dir: Node, n: nat, path: seq<string>, recursive: bool, showTokens: bool)
    requires dir.Dir? && n <= |Visible(dir.children)|
    decreases dir, 0, n
    ensures var es := SeqEntries(dir, n, path, recursive, showTokens);
      && |es| == SeqCount(dir, Files, n, recursive, showTokens) + SeqCount(dir, Dirs, n, recursive, showTokens)
      && TokenSum(es) == SeqCount(dir, Tokens, n, recursive, showTokens)
      && forall e <- es :: GoodEntry(e, path, recursive, showTokens)
  {
    if n > 0 {
      var item := Visible(dir.children)[n - 1];
      VisibleSpec(dir.children);
      assert item in Visible(dir.children);
      SeqFacts(dir, n - 1, path, recursive, showTokens);
      NodeFacts(item, path, recursive, showTokens);
      TokenSumAppend(SeqEntries(dir, n - 1, path, recursive, showTokens), NodeEntries(item, path, recursive, showTokens));
    }
  }

  lemma {:induction false} NodeFacts(item: Node, path: seq<string>, recursive: bool, showTokens: bool)
    requires item.name !in Ignore
    decreases item, 2
    ensures var es := NodeEntries(item, path, recursive, showTokens);
      && |es| == NodeCount(item, Files, recursive, showTokens) + NodeCount(item, Dirs, recursive, showTokens)
      && TokenSum(es) == NodeCount(item, Tokens, recursive, showTokens)
      && forall e <- es :: GoodEntry(e, path, recursive, showTokens)
  {
    if !(item.File? || item.Dir?) {
      return;
    }
    var here := path + [item.name];
    var entry := EntryOf(item, here, showTokens);
    var sub := if item.Dir? && recursive then DirEntries(item, here, recursive, showTokens) else [];
    if item.Dir? && recursive {
      DirFacts(item, here, recursive, showTokens);
      forall e <- sub ensures GoodEntry(e, path, recursive, showTokens) {
        GoodEntryLift(e, path, item.name, recursive, showTokens);
      }
    }
    assert here[..|path|] == path;
    assert GoodEntry(entry, path, recursive, showTokens);
    TokenSumAppend(sub, [entry]);
  }

  /** `len(entries) == total_files + total_dirs`, the token total is the sum of the recorded
      estimates, and every entry is below the root, free of ignored names, and shaped as
      `GoodEntry` says. */
  lemma ListingFacts(rootPath: string, root: Node, recursive: bool, showTokens: bool)
    requires root.Dir?
    ensures var l := ListingOf(rootPath, root, recursive, showTokens);
      && |l.entries| == l.totalFiles + l.totalDirs
      && (l.totalTokens.Some? <==> showTokens)
      && (showTokens ==> l.totalTokens.value == TokenSum(l.entries))
      && forall e <- l.entries :: GoodEntry(e, [], recursive, showTokens) && e.name !in Ignore
  {
    DirFacts(root, [], recursive, showTokens);
    var l := ListingOf(rootPath, root, recursive, showTokens);
    forall e <- l.entries ensures e.name !in Ignore {
      assert GoodEntry(e, [], recursive, showTokens);
      assert e.path[|e.path| - 1] == e.name;
    }
  }

  /** With recursion a directory's entry comes after everything recorded below it. */
  lemma SubtreeBeforeDir(item: Node, path: seq<string>, showTokens: bool)
    requires item.Dir? && item.name !in Ignore
    ensures var es := NodeEntries(item, path, true, showTokens);
      var here := path + [item.name];
      && es[|es| - 1] == FileEntry(item.name, here, true, 0, None)
      && forall k | 0 <= k < |es| - 1 :: |here| < |es[k].path| && es[k].path[..|here|] == here
  {
    var here := path + [item.name];
    DirFacts(item, here, true, showTokens);
    var es := NodeEntries(item, path, true, showTokens);
    var sub := DirEntries(item, here, true, showTokens);
    assert es == sub + [EntryOf(item, here, showTokens)];
    forall k | 0 <= k < |es| - 1 ensures |here| < |es[k].path| && es[k].path[..|here|] == here {
      assert es[k] == sub[k];
      assert GoodEntry(sub[k], here, true, showTokens);
    }
  }

  /** Filtering a run with no ignored name keeps it whole. */
  lemma {:induction false} DropNothing(xs: seq<Node>)
    requires forall c <- xs :: c.name !in Ignore
    ensures DropIgnored(xs) == xs
  {
    if xs != [] {
      DropNothing(xs[1..]);
      assert xs == [xs[0]] + xs[1..];
    }
  }

  /** The layout of the test fixture: two files and a directory holding one more file, with
      names in ascending order and none ignored. Listing it counts 2 files and 1 directory,
      or 3 files and 1 directory with recursion. */
  lemma FixtureCounts(f1: Node, f2: Node, f3: Node, subName: string, rootName: string, showTokens: bool)
    requires f1.File? && f2.File? && f3.File?
    requires LexLe(f1.name, f2.name) && LexLe(f2.name, subName)
    requires f1.name !in Ignore && f2.name !in Ignore && f3.name !in Ignore && subName !in Ignore
    ensures var sub := Dir(subName, true, [f3]);
      var root := Dir(rootName, true, [f1, f2, sub]);
      && DirCount(root, Files, false, showTokens) == 2 && DirCount(root, Dirs, false, showTokens) == 1
      && DirCount(root, Files, true, showTokens) == 3 && DirCount(root, Dirs, true, showTokens) == 1
  {
    var sub := Dir(subName, true, [f3]);
    forall m, r | true
      ensures DirCount(sub, m, r, showTokens) == ItemCount(f3, m, showTokens)
    {
      FixtureSubCount(f3, subName, m, r, showTokens);
    }
    forall m, r | true
      ensures DirCount(Dir(rootName, true, [f1, f2, sub]), m, r, showTokens)
        == ItemCount(f1, m, showTokens) + ItemCount(f2, m, showTokens)
           + (if r then DirCount(sub, m, r, showTokens) else 0) + ItemCount(sub, m, showTokens)
    {
      FixtureRootCount(f1, f2, sub, rootName, m, r, showTokens);
    }
  }

  lemma FixtureSubCount(f3: Node, subName: string, m: Measure, r: bool, showTokens: bool)
    requires f3.File? && f3.name !in Ignore
    ensures DirCount(Dir(subName, true, [f3]), m, r, showTokens) == ItemCount(f3, m, showTokens)
  {
    var sub := Dir(subName, true, [f3]);
    SortSorted([f3]);
    DropNothing([f3]);
    assert Visible(sub.children) == [f3];
    assert Reach(sub) == 1;
    assert SeqCount(sub, m, 0, r, showTokens) == 0;
    assert NodeCount(f3, m, r, showTokens) == ItemCount(f3, m, showTokens);
  }

  lemma FixtureRootCount(f1: Node, f2: Node, sub: Node, rootName: string, m: Measure, r: bool, showTokens: bool)
    requires f1.File? && f2.File? && sub.Dir?
    requires LexLe(f1.name, f2.name) && LexLe(f2.name, sub.name)
    requires f1.name !in Ignore && f2.name !in Ignore && sub.name !in Ignore
    ensures DirCount(Dir(rootName, true, [f1, f2, sub]), m, r, showTokens)
      == ItemCount(f1, m, showTokens) + ItemCount(f2, m, showTokens)
         + (if r then DirCount(sub, m, r, showTokens) else 0) + ItemCount(sub, m, showTokens)
  {
    var root := Dir(rootName, true, [f1, f2, sub]);
    FixtureRootVisible(f1, f2, sub, rootName);
    assert SeqCount(root, m, 0, r, showTokens) == 0;
    assert NodeCount(f1, m, r, showTokens) == ItemCount(f1, m, showTokens);
    assert NodeCount(f2, m, r, showTokens) == ItemCount(f2, m, showTokens);
    assert SeqCount(root, m, 1, r, showTokens) == ItemCount(f1, m, showTokens);
    assert SeqCount(root, m, 2, r, showTokens) == ItemCount(f1, m, showTokens) + ItemCount(f2, m, showTokens);
    assert SeqCount(root, m, 3, r, showTokens) == SeqCount(root, m, 2, r, showTokens) + NodeCount(sub, m, r, showTokens);
  }

  lemma FixtureRootVisible(f1: Node, f2: Node, sub: Node, rootName: string)
    requires f1.File? && f2.File? && sub.Dir?
    requires LexLe(f1.name, f2.name) && LexLe(f2.name, sub.name)
    requires f1.name !in Ignore && f2.name !in Ignore && sub.name !in Ignore
    ensures Visible([f1, f2, sub]) == [f1, f2, sub]
    ensures Reach(Dir(rootName, true, [f1, f2, sub])) == 3
  {
    LexLeTrans(f1.name, f2.name, sub.name);
    SortSorted([f1, f2, sub]);
    DropNothing([f1, f2, sub]);
  }

  /** `list_directory`: a root that does not exist (missing, or a dangling link) raises
      FileNotFoundError before any walking; `resolve()` raises RuntimeError for a looping
      root and `exists()` PermissionError for a root whose `stat()` is refused; a root that
      is a file makes listing it raise NotADirectoryError; and an error that escapes the
      walk is raised by the call. */
  method ListDirectory(rootPath: string, root: Option<Node>, recursive: bool, showTokens: bool)
    returns (r: Result<DirectoryListing>)
    ensures root.None? || (root.Some? && root.value.Dangling?) ==> r == Err("FileNotFoundError")
    ensures root.Some? && root.value.Looping? ==> r == Err("RuntimeError")
    ensures root.Some? && root.value.Denied? ==> r == Err("PermissionError")
    ensures root.Some? && root.value.File? ==> r == Err("NotADirectoryError")
    ensures root.Some? && root.value.Dir? && DirError(root.value, recursive).Some? ==>
      r == Err(DirError(root.value, recursive).value)
    ensures root.Some? && root.value.Dir? && DirError(root.value, recursive).None? ==>
      r == Ok(ListingOf(rootPath, root.value, recursive, showTokens))
  {
    if root.None? || root.value.Dangling? {
      return Err("FileNotFoundError");
    }
    if root.value.Looping? {
      return Err("RuntimeError");
    }
    if root.value.Denied? {
      return Err("PermissionError");
    }
    if root.value.File? {
      return Err("NotADirectoryError");
    }
    var walker := new Walker(recursive, showTokens);
    assert walker.Total(Files) == 0 && walker.Total(Dirs) == 0 && walker.Total(Tokens) == 0;
    var err := walker.Walk(root.value, []);
    if err.Some? {
      return Err(err.value);
    }
    assert walker.Total(Files) == walker.totalFiles && walker.Total(Dirs) == walker.totalDirs;
    assert walker.Total(Tokens) == walker.totalTokens;
    assert walker.recursive == recursive && walker.showTokens == showTokens;
    assert walker.entries == DirEntries(root.value, [], recursive, showTokens);
    assert walker.totalFiles == DirCount(root.value, Files, recursive, showTokens);
    var tokens := if showTokens then Some(walker.totalTokens) else None;
    return Ok(DirectoryListing(rootPath, walker.entries, walker.totalFiles, walker.totalDirs, tokens));
  }
}

=== FILE: numbers.dfy ===
/**
  Python's numeric conversions as the summary parsers use them: `int(str)`,
  `float(str)`, `str(int)` and `int(float)` (truncation toward zero), as CPython 3.12
  performs them. Decimal values are kept exact: a finite float literal is
  `digits × 10^exponent`, and one beyond the range of doubles is infinite.
 */
module PyNumbers {
  import opened Wrappers
  import opened Text

  predicate IsDigit(c: char)
  {
    '0' <= c <= '9'
  }

  predicate AllDigits(s: string)
  {
    forall i :: 0 <= i < |s| ==> IsDigit(s[i])
  }

  function DigitValue(c: char): nat
    requires IsDigit(c)
  {
    c as int - '0' as int
  }

  function DigitChar(d: nat): (c: char)
    requires d < 10
    ensures IsDigit(c) && DigitValue(c) == d
  {
    ('0' as int + d) as char
  }

  function Pow10(k: nat): (p: nat)
    ensures p >= 1
  {
    if k == 0 then 1 else 10 * Pow10(k - 1)
  }

  /** The value of a decimal digit string, most significant digit first. */
  function DigitsValue(s: string): nat
    requires AllDigits(s)
  {
    if s == [] then 0 else 10 * DigitsValue(s[..|s| - 1]) + DigitValue(s[|s| - 1])
  }

  lemma {:induction false} DigitsValueBound(s: string)
    requires AllDigits(s)
    ensures DigitsValue(s) < Pow10(|s|)
  {
    if s != [] {
      DigitsValueBound(s[..|s| - 1]);
    }
  }

  lemma AllDigitsAppend(a: string, b: string)
    requires AllDigits(a) && AllDigits(b)
    ensures AllDigits(a + b)
  {
    forall i | 0 <= i < |a + b| ensures IsDigit((a + b)[i]) {
      if i < |a| { assert (a + b)[i] == a[i]; } else { assert (a + b)[i] == b[i - |a|]; }
    }
  }

  lemma {:induction false} DigitsAppend(a: string, b: string)
    requires AllDigits(a) && AllDigits(b)
    ensures AllDigits(a + b)
    ensures DigitsValue(a + b) == DigitsValue(a) * Pow10(|b|) + DigitsValue(b)
  {
    AllDigitsAppend(a, b);
    if b == [] {
      assert a + b == a;
    } else {
      var b' := b[..|b| - 1];
      var last := DigitValue(b[|b| - 1]);
      assert (a + b)[..|a + b| - 1] == a + b';
      assert (a + b)[|a + b| - 1] == b[|b| - 1];
      DigitsAppend(a, b');
      assert DigitsValue(a + b) == 10 * DigitsValue(a + b') + last;
      assert DigitsValue(b) == 10 * DigitsValue(b') + last;
      assert Pow10(|b|) == 10 * Pow10(|b'|);
      ShiftDigit(DigitsValue(a), Pow10(|b'|), DigitsValue(b'), last);
    }
  }

  /** Appending a digit multiplies by ten and adds it. */
  lemma ShiftDigit(x: int, p: int, y: int, d: int)
    ensures 10 * (x * p + y) + d == x * (10 * p) + (10 * y + d)
  {
    assert 10 * (x * p) == x * (10 * p);
  }

  /** Python `str(n)` for a natural number: shortest decimal form. */
  function NatToString(n: nat): (s: string)
    ensures |s| >= 1 && AllDigits(s)
    ensures n > 0 ==> s[0] != '0'
  {
    if n < 10 then [DigitChar(n)] else NatToString(n / 10) + [DigitChar(n % 10)]
  }

  lemma {:induction false} NatToStringValue(n: nat)
    ensures DigitsValue(NatToString(n)) == n
  {
    if n >= 10 {
      NatToStringValue(n / 10);
      var s := NatToString(n);
      assert s[..|s| - 1] == NatToString(n / 10);
    }
  }

  /** Python `str(i)` for any integer. */
  function IntToString(i: int): (s: string)
    ensures |s| >= 1
  {
    if i < 0 then "-" + NatToString(-i) else NatToString(i)
  }

  // ---------------------------------------------------------------------
  // The text of a numeral, as `int(str)` and `float(str)` prepare it
  // ---------------------------------------------------------------------

  /** The code point of the digit zero of every script, beyond ASCII, whose ten
      consecutive characters are the decimal digits 0 to 9 in Unicode 15.0, the
      character database of Python 3.12. */
  predicate IsScriptZero(k: int)
  {
    k in {0x660, 0x6F0, 0x7C0, 0x966, 0x9E6, 0xA66, 0xAE6, 0xB66, 0xBE6, 0xC66, 0xCE6,
    0xD66, 0xDE6, 0xE50, 0xED0, 0xF20, 0x1040, 0x1090, 0x17E0, 0x1810, 0x1946,
    0x19D0, 0x1A80, 0x1A90, 0x1B50, 0x1BB0, 0x1C40, 0x1C50, 0xA620, 0xA8D0, 0xA900,
    0xA9D0, 0xA9F0, 0xAA50, 0xABF0, 0xFF10, 0x104A0, 0x10D30, 0x11066, 0x110F0,
    0x11136, 0x111D0, 0x112F0, 0x11450, 0x114D0, 0x11650, 0x116C0, 0x11730, 0x118E0,
    0x11950, 0x11C50, 0x11D50, 0x11DA0, 0x11F50, 0x16A60, 0x16AC0, 0x16B50, 0x1D7CE,
    0x1D7D8, 0x1D7E2, 0x1D7EC, 0x1D7F6, 0x1E140, 0x1E2F0, 0x1E4F0, 0x1E950, 0x1FBF0}
  }

  /** The decimal value of the code point `k` when it is a digit of one of those scripts. */
  function ScriptDigit(k: int): (r: Option<nat>)
    ensures r.Some? ==> r.value < 10
  {
    if k < 0x660 then None
    else if IsScriptZero(k) then Some(0)
    else if IsScriptZero(k - 1) then Some(1)
    else if IsScriptZero(k - 2) then Some(2)
    else if IsScriptZero(k - 3) then Some(3)
    else if IsScriptZero(k - 4) then Some(4)
    else if IsScriptZero(k - 5) then Some(5)
    else if IsScriptZero(k - 6) then Some(6)
    else if IsScriptZero(k - 7) then Some(7)
    else if IsScriptZero(k - 8) then Some(8)
    else if IsScriptZero(k - 9) then Some(9)
    else None
  }

  /** No whitespace character is a digit. */
  lemma SpaceIsNoDigit(c: char)
    requires IsSpace(c)
    ensures ScriptDigit(c as int).None?
  {
  }

  /** What one character becomes before a numeral is read: ASCII stays, other
      whitespace becomes a space, a decimal digit of any script becomes the ASCII digit
      of the same value, and anything else makes the conversion raise ValueError. */
  function NormalChar(c: char): Option<char>
  {
    if c as int < 127 then Some(c)
    else if IsSpace(c) then Some(' ')
    else match ScriptDigit(c as int)
      case Some(d) => Some(DigitChar(d))
      case None => None
  }

  /** `NormalChar` on every character; None when one of them has no ASCII form. */
  function Normalise(s: string): (r: Option<string>)
    ensures r.Some? <==> forall i :: 0 <= i < |s| ==> NormalChar(s[i]).Some?
    ensures r.Some? ==> |r.value| == |s| && forall i :: 0 <= i < |s| ==> r.value[i] == NormalChar(s[i]).value
  {
    if s == [] then Some([])
    else
      match NormalChar(s[0])
      case None => None
      case Some(c) =>
        match Normalise(s[1..])
        case None => None
        case Some(t) => Some([c] + t)
  }

  /** The whitespace C's `isspace` skips around a numeral: space, tab, line feed,
      vertical tab, form feed and carriage return. */
  predicate CSpace(c: char)
  {
    c == ' ' || '\t' <= c <= '\r'
  }

  function SkipSpace(s: string): (r: string)
    ensures IsSuffix(r, s)
    ensures r == [] || !CSpace(r[0])
    ensures forall i :: 0 <= i < |s| - |r| ==> CSpace(s[i])
  {
    if |s| > 0 && CSpace(s[0]) then
      var r := SkipSpace(s[1..]);
      assert s[1..][|s| - 1 - |r|..] == s[|s| - |r|..];
      assert forall i :: 1 <= i < |s| - |r| ==> s[1..][i - 1] == s[i];
      r
    else s
  }

  function DropSpace(s: string): (r: string)
    ensures IsPrefix(r, s)
    ensures r == [] || !CSpace(r[|r| - 1])
    ensures forall i :: |r| <= i < |s| ==> CSpace(s[i])
  {
    if |s| > 0 && CSpace(s[|s| - 1]) then
      var r := DropSpace(s[..|s| - 1]);
      assert s[..|s| - 1][..|r|] == s[..|r|];
      assert forall i :: |r| <= i < |s| - 1 ==> s[..|s| - 1][i] == s[i];
      r
    else s
  }

  /** Every underscore stands between two ASCII digits. */
  predicate UnderscoresOk(s: string)
  {
    forall i :: 0 <= i < |s| && s[i] == '_' ==> 0 < i < |s| - 1 && IsDigit(s[i - 1]) && IsDigit(s[i + 1])
  }

  /** The text a numeral is read from: normalised, its underscores checked and
      removed, and the C whitespace around it skipped; None is a ValueError. */
  function Numeral(s: string): Option<string>
  {
    match Normalise(s)
    case None => None
    case Some(a) => Prepared(a)
  }

  /** The underscore check and removal, then the C whitespace skipped. */
  function Prepared(a: string): Option<string>
  {
    if UnderscoresOk(a) then Some(DropSpace(SkipSpace(RemoveChar(a, '_')))) else None
  }

  /** A text that preparation leaves as it is: ASCII, no C whitespace, no underscore. */
  predicate PlainNumeral(s: string)
  {
    forall i :: 0 <= i < |s| ==> s[i] as int < 127 && !CSpace(s[i]) && s[i] != '_'
  }

  lemma PlainNumeralKept(s: string)
    requires PlainNumeral(s)
    ensures Numeral(s) == Some(s)
  {
    NormaliseAscii(s);
    assert '_' !in s;
    RemoveCharAbsent(s, '_');
    CStripAbsent(s);
  }

  /** ASCII text is its own normal form. */
  lemma NormaliseAscii(s: string)
    requires forall i :: 0 <= i < |s| ==> s[i] as int < 127
    ensures Normalise(s) == Some(s)
  {
    assert forall i :: 0 <= i < |s| ==> NormalChar(s[i]) == Some(s[i]);
    var a := Normalise(s).value;
    forall i | 0 <= i < |s|
      ensures a[i] == s[i]
    {
      assert NormalChar(s[i]) == Some(s[i]);
    }
    assert a == s;
  }

  lemma CStripAbsent(s: string)
    requires forall i :: 0 <= i < |s| ==> !CSpace(s[i])
    ensures DropSpace(SkipSpace(s)) == s
  {
  }

  /** Skipping C whitespace keeps every other character. */
  lemma CStripKeeps(s: string, c: char)
    requires c in s && !CSpace(c)
    ensures c in DropSpace(SkipSpace(s))
  {
    var j :| 0 <= j < |s| && s[j] == c;
    var t := SkipSpace(s);
    assert t[j - (|s| - |t|)] == c;
    assert DropSpace(t)[j - (|s| - |t|)] == c;
  }

  /** An ASCII character that is neither C whitespace nor an underscore survives preparation. */
  lemma NumeralKeeps(s: string, c: char)
    requires c in s && c as int < 127 && !CSpace(c) && c != '_'
    requires Numeral(s).Some?
    ensures c in Numeral(s).value
  {
    var a := Normalise(s).value;
    var i :| 0 <= i < |s| && s[i] == c;
    assert NormalChar(s[i]) == Some(c);
    assert a[i] == c;
    RemoveCharKeeps(a, c, '_');
    CStripKeeps(RemoveChar(a, '_'), c);
  }

  lemma {:induction false} RemoveCharKeeps(s: string, c: char, gone: char)
    requires c in s && c != gone
    ensures c in RemoveChar(s, gone)
  {
    if s[0] != c {
      RemoveCharKeeps(s[1..], c, gone);
    }
  }

  // ---------------------------------------------------------------------
  // int(str)
  // ---------------------------------------------------------------------

  /** The default limit on the digits `int(str)` converts (`sys.get_int_max_str_digits()`). */
  const MaxStrDigits: nat := 4300

  /** The text after an optional sign. */
  function Unsigned(t: string): (d: string)
    ensures IsSuffix(d, t)
  {
    if |t| > 0 && (t[0] == '-' || t[0] == '+') then t[1..] else t
  }

  /** An optional sign followed by one or more ASCII digits. */
  function ParseSignedDigits(t: string): Option<int>
  {
    var d := Unsigned(t);
    if |d| > 0 && AllDigits(d) then Some(if |t| > 0 && t[0] == '-' then 0 - DigitsValue(d) else DigitsValue(d))
    else None
  }

  /** Python `int(s)`; `None` stands for the ValueError it raises, which includes a
      numeral of more than `MaxStrDigits` digits. */
  function ParseInt(s: string): Option<int>
  {
    match Numeral(s)
    case None => None
    case Some(t) => if |Unsigned(t)| <= MaxStrDigits then ParseSignedDigits(t) else None
  }

  /** A text that preparation leaves as it is is read by the sign and digit rule alone. */
  lemma ParseIntPlain(s: string)
    requires PlainNumeral(s)
    ensures ParseInt(s) == if |Unsigned(s)| <= MaxStrDigits then ParseSignedDigits(s) else None
  {
    PlainNumeralKept(s);
  }

  /** What `str` writes is plain, and its digits follow the sign. */
  lemma IntStringPlain(i: int)
    ensures PlainNumeral(IntToString(i))
    ensures Unsigned(IntToString(i)) == NatToString(if i < 0 then -i else i)
  {
    var d := NatToString(if i < 0 then -i else i);
    assert forall k :: 0 <= k < |d| ==> IsDigit(d[k]);
    if i < 0 {
      var s := "-" + d;
      assert s[1..] == d;
      assert forall k :: 1 <= k < |s| ==> s[k] == d[k - 1];
    }
  }

  /** `int` reads back every integer `str` writes (`str` itself refuses more than
      `MaxStrDigits` digits). */
  lemma ParseIntOfString(i: int)
    requires |NatToString(if i < 0 then -i else i)| <= MaxStrDigits
    ensures ParseInt(IntToString(i)) == Some(i)
  {
    var a := if i < 0 then -i else i;
    var s, d := IntToString(i), NatToString(a);
    IntStringPlain(i);
    ParseIntPlain(s);
    NatToStringValue(a);
    assert Unsigned(s) == d && |d| > 0 && AllDigits(d) && DigitsValue(d) == a;
    assert (|s| > 0 && s[0] == '-') == (i < 0) by {
      if i >= 0 {
        assert s == d && IsDigit(d[0]);
      }
    }
    assert ParseSignedDigits(s) == Some(i);
  }

  /** A natural number written in ASCII digits reads as itself when it has at most
      `MaxStrDigits` digits, and raises otherwise. */
  lemma ParseIntOfNat(n: nat)
    ensures ParseInt(NatToString(n)) == if |NatToString(n)| <= MaxStrDigits then Some(n) else None
  {
    IntStringPlain(n);
    ParseIntPlain(NatToString(n));
    NatToStringValue(n);
  }

  /** A character that can be part of what `int` accepts: a decimal digit of any script,
      an underscore, a sign, or whitespace that preparation turns into a space. */
  predicate IntChar(c: char)
  {
    IsDigit(c) || c == '_' || c == '-' || c == '+' || CSpace(c)
    || (c as int >= 127 && (IsSpace(c) || ScriptDigit(c as int).Some?))
  }

  /** Any other character makes `int(s)` raise, wherever it stands. */
  lemma ParseIntRejects(s: string, c: char)
    requires c in s && !IntChar(c)
    ensures ParseInt(s) == None
  {
    if Numeral(s).Some? {
      var i :| 0 <= i < |s| && s[i] == c;
      assert NormalChar(c).Some?;
      NumeralKeeps(s, c);
      var t := Numeral(s).value;
      var j :| 0 <= j < |t| && t[j] == c;
      var d := Unsigned(t);
      if d != t {
        assert j > 0 && d[j - 1] == c;
      }
    }
  }

  /** An underscore between two ASCII digits is ignored, by `int` and by `float`. */
  lemma UnderscoreIgnored(a: string, b: string)
    requires |a| > 0 && IsDigit(a[|a| - 1]) && |b| > 0 && IsDigit(b[0])
    ensures Numeral(a + "_" + b) == Numeral(a + b)
    ensures ParseInt(a + "_" + b) == ParseInt(a + b)
  {
    if Normalise(a + b).Some? {
      UnderscoreNormalised(a, b);
    } else {
      UnderscoreUnnormalised(a, b);
    }
  }

  lemma UnderscoreNormalised(a: string, b: string)
    requires |a| > 0 && IsDigit(a[|a| - 1]) && |b| > 0 && IsDigit(b[0])
    requires Normalise(a + b).Some?
    ensures Numeral(a + "_" + b) == Numeral(a + b)
  {
    UnderscoreKeepsNormal(a, b);
    var x1, x2 := Normalise(a + "_" + b).value, Normalise(a + b).value;
    NormalGap(a, b, x1, x2);
    var y, z := x2[..|a|], x2[|a|..];
    assert y + z == x2;
    PreparedGap(y, z);
  }

  lemma UnderscoreKeepsNormal(a: string, b: string)
    requires Normalise(a + b).Some?
    ensures Normalise(a + "_" + b).Some?
  {
    var s1, s2 := a + "_" + b, a + b;
    forall i | 0 <= i < |s1| ensures NormalChar(s1[i]).Some? {
      if i < |a| { assert s1[i] == s2[i]; }
      else if i > |a| { assert s1[i] == s2[i - 1]; }
    }
  }

  lemma UnderscoreUnnormalised(a: string, b: string)
    requires Normalise(a + b).None?
    ensures Normalise(a + "_" + b).None?
  {
    var s1, s2 := a + "_" + b, a + b;
    var i :| 0 <= i < |s2| && NormalChar(s2[i]).None?;
    if i < |a| { assert s1[i] == s2[i]; } else { assert s1[i + 1] == s2[i]; }
  }


  /** Preparing `x_y` gives what preparing `xy` gives. */
  lemma PreparedGap(x: string, y: string)
    requires |x| > 0 && IsDigit(x[|x| - 1]) && |y| > 0 && IsDigit(y[0])
    ensures Prepared(x + "_" + y) == Prepared(x + y)
  {
    UnderscoresGap(x, y);
    var rx, ry := RemoveChar(x, '_'), RemoveChar(y, '_');
    RemoveCharAppend(x + "_", y, '_');
    RemoveCharAppend(x, "_", '_');
    RemoveCharAppend(x, y, '_');
    assert RemoveChar("_", '_') == RemoveChar("", '_') == [];
    assert RemoveChar(x + "_", '_') == rx + [] == rx;
    assert RemoveChar(x + "_" + y, '_') == rx + ry == RemoveChar(x + y, '_');
  }

  /** The prepared text of `a_b` is that of `ab` with the underscore in place. */
  lemma NormalGap(a: string, b: string, x1: string, x2: string)
    requires |a| > 0 && IsDigit(a[|a| - 1]) && |b| > 0 && IsDigit(b[0])
    requires Normalise(a + "_" + b) == Some(x1) && Normalise(a + b) == Some(x2)
    ensures x1 == x2[..|a|] + "_" + x2[|a|..]
    ensures |x2| == |a| + |b| && IsDigit(x2[|a| - 1]) && IsDigit(x2[|a|])
  {
    var s1, s2 := a + "_" + b, a + b;
    assert s2[|a| - 1] == a[|a| - 1] && s2[|a|] == b[0];
    forall i | 0 <= i < |x1| ensures x1[i] == (x2[..|a|] + "_" + x2[|a|..])[i] {
      if i < |a| { assert s1[i] == s2[i]; }
      else if i > |a| { assert s1[i] == s2[i - 1]; }
    }
  }

  /** Underscores are valid in `x_y` exactly when they are valid in `xy`, for `x`
      ending and `y` starting with a digit. */
  lemma UnderscoresGap(x: string, y: string)
    requires |x| > 0 && IsDigit(x[|x| - 1]) && |y| > 0 && IsDigit(y[0])
    ensures UnderscoresOk(x + "_" + y) <==> UnderscoresOk(x + y)
  {
    var s1, s2, n := x + "_" + y, x + y, |x|;
    assert forall i :: 0 <= i < n ==> s1[i] == s2[i] == x[i];
    assert forall i :: n < i < |s1| ==> s1[i] == s2[i - 1] == y[i - n - 1];
    assert s1[n] == '_' && s2[n] == y[0];
    if UnderscoresOk(s2) {
      forall i | 0 <= i < |s1| && s1[i] == '_'
        ensures 0 < i < |s1| - 1 && IsDigit(s1[i - 1]) && IsDigit(s1[i + 1])
      {
        if i < n {
          assert s2[i] == '_';
        } else if i > n {
          assert s2[i - 1] == '_';
        }
      }
    }
    if UnderscoresOk(s1) {
      forall i | 0 <= i < |s2| && s2[i] == '_'
        ensures 0 < i < |s2| - 1 && IsDigit(s2[i - 1]) && IsDigit(s2[i + 1])
      {
        if i < n - 1 {
          assert s1[i] == '_' && s1[i - 1] == s2[i - 1] && s1[i + 1] == s2[i + 1];
        } else if i == n + 1 {
          assert s1[i + 1] == '_' && s1[i] == s2[i - 1] && s1[i + 2] == s2[i + 1];
        } else {
          assert s1[i + 1] == '_' && s1[i] == s2[i - 1] && s1[i + 2] == s2[i + 1];
        }
      }
    }
  }

  /** `1_000` is read as the numeral `1000`. */
  lemma ThousandWithUnderscore()
    ensures Numeral("1_000") == Some("1000")
  {
    UnderscoreIgnored("1", "000");
    ThousandPieces();
    PlainThousand("1000");
  }

  lemma ThousandPieces()
    ensures "1" + "_" + "000" == "1_000" && "1" + "000" == "1000"
  {
  }

  lemma PlainThousand(s: string)
    requires s == "1000"
    ensures Numeral(s) == Some("1000")
  {
    assert forall i :: 0 <= i < |s| ==> s[i] == '0' || s[i] == '1';
    PlainNumeralKept(s);
  }

  /** Arabic-Indic digits one, two are read as the numeral `12`. */
  lemma ArabicIndicTwelve()
    ensures Numeral("\U{0661}\U{0662}") == Some("12")
  {
    var s := "\U{0661}\U{0662}";
    ArabicIndicNormal(s);
    PlainNumeralKept("12");
    NormaliseAscii("12");
  }

  lemma ArabicIndicNormal(s: string)
    requires s == "\U{0661}\U{0662}"
    ensures Normalise(s) == Some("12")
  {
    assert NormalChar(s[0]) == Some('1') && NormalChar(s[1]) == Some('2');
    var a := Normalise(s).value;
    assert a[0] == '1' && a[1] == '2';
    assert a == "12";
  }

  /** Texts whose characters normalise alike are read alike. */
  lemma SameNormal(s: string, t: string)
    requires |s| == |t| && forall i :: 0 <= i < |s| ==> NormalChar(s[i]) == NormalChar(t[i])
    ensures Normalise(s) == Normalise(t)
  {
    if Normalise(s).Some? {
      var a, b := Normalise(s).value, Normalise(t).value;
      forall i | 0 <= i < |s| ensures a[i] == b[i] {
        assert NormalChar(s[i]) == NormalChar(t[i]);
      }
      assert a == b;
    }
  }

  /** A decimal digit of any script counts as the ASCII digit of the same value, for
      `int` and for `float`. */
  lemma ScriptDigitsAgree(s: string, i: nat, d: nat)
    requires i < |s| && s[i] as int >= 127 && ScriptDigit(s[i] as int) == Some(d)
    ensures ParseInt(s) == ParseInt(s[i := DigitChar(d)])
    ensures Numeral(s) == Numeral(s[i := DigitChar(d)])
  {
    var t := s[i := DigitChar(d)];
    if IsSpace(s[i]) {
      SpaceIsNoDigit(s[i]);
    }
    assert NormalChar(s[i]) == NormalChar(t[i]);
    SameNormal(s, t);
  }

  // ---------------------------------------------------------------------
  // float(str)
  // ---------------------------------------------------------------------

  /** A Python float, with finite values kept exactly as `digits × 10^exponent`. */
  datatype PyFloat = Finite(digits: int, exponent: int) | Infinity(negative: bool) | NaN

  /** 2^1024 - 2^970, the midpoint between the largest finite double and 2^1024: the
      least magnitude that rounds to infinity (round half to even sends the midpoint up). */
  const InfinityThreshold: nat :=
    179769313486231580793728971405303415079934132710037826936173778980444968292764750946649017977587207096330286416692887910946555547851940402630657488671505820681908902000708383676273854845817711531764475730270069855571366959622842914819860834936475292719074168444365510704342711559699508093042880177904174497792

  /** `|d| × 10^e` rounds to an infinite double. */
  predicate Overflows(d: int, e: int)
  {
    ScaledAtLeast(if d < 0 then -d else d, e, InfinityThreshold)
  }

  /** `m × 10^e >= l`, in integers. */
  predicate ScaledAtLeast(m: nat, e: int, l: nat)
  {
    if e >= 0 then m * Pow10(e) >= l else m >= l * Pow10(-e)
  }

  /** A larger exponent keeps a value out of range. */
  lemma OverflowsMonotone(d: int, e: int, k: nat)
    requires Overflows(d, e)
    ensures Overflows(d, e + k)
  {
    ScaledAtLeastMonotone(if d < 0 then -d else d, e, k, InfinityThreshold);
  }

  lemma ScaledAtLeastMonotone(m: nat, e: int, k: nat, l: nat)
    requires ScaledAtLeast(m, e, l)
    ensures ScaledAtLeast(m, e + k, l)
  {
    if e >= 0 {
      Pow10Add(e, k);
      MulGrows(m * Pow10(e), Pow10(k));
      MulAssoc(m, Pow10(e), Pow10(k));
    } else if e + k >= 0 {
      MulGrows(l, Pow10(-e));
      MulGrows(m, Pow10(e + k));
    } else {
      Pow10Add(-(e + k), k);
      MulGrows(l * Pow10(-(e + k)), Pow10(k));
      MulAssoc(l, Pow10(-(e + k)), Pow10(k));
    }
  }

  lemma MulGrows(x: nat, p: nat)
    requires p >= 1
    ensures x * p >= x
  {
  }

  lemma MulAssoc(a: int, b: int, c: int)
    ensures a * (b * c) == a * b * c
  {
  }

  /** The index of the first exponent marker `e`/`E`, or `|t|` when there is none. */
  function ExponentIndex(t: string): (i: nat)
    ensures i <= |t|
    ensures forall j :: 0 <= j < i ==> t[j] != 'e' && t[j] != 'E'
    ensures i < |t| ==> t[i] == 'e' || t[i] == 'E'
  {
    if t == [] then 0
    else if t[0] == 'e' || t[0] == 'E' then 0
    else 1 + ExponentIndex(t[1..])
  }

  /** `digits[.digits]` or `.digits`, with at least one digit: (value, digits after the point). */
  function ParseMantissa(m: string): Option<(nat, nat)>
  {
    if '.' in m then
      var p := IndexOf(m, '.');
      var w := m[..p];
      var f := m[p + 1..];
      if AllDigits(w) && AllDigits(f) && |w| + |f| > 0 then
        DigitsAppend(w, f);
        Some((DigitsValue(w + f), |f|))
      else None
    else if |m| > 0 && AllDigits(m) then Some((DigitsValue(m), 0))
    else None
  }

  /** An unsigned decimal literal with optional exponent; a value beyond the range of
      doubles is infinite. */
  function ParseUnsignedDecimal(t: string): Option<PyFloat>
  {
    var i := ExponentIndex(t);
    var mant := ParseMantissa(t[..i]);
    var exp := if i < |t| then ParseSignedDigits(t[i + 1..]) else Some(0);
    if mant.Some? && exp.Some? then
      var d, e := mant.value.0, exp.value - mant.value.1;
      Some(if Overflows(d, e) then Infinity(false) else Finite(d, e))
    else None
  }

  function Negate(v: PyFloat): PyFloat
  {
    match v
    case Finite(d, e) => Finite(-d, e)
    case Infinity(n) => Infinity(!n)
    case NaN => NaN
  }

  /** An unsigned literal: `inf`, `infinity` or `nan` in any letter case, or a decimal. */
  function ParseUnsignedFloat(t: string): Option<PyFloat>
  {
    var l := Lower(t);
    if l == "inf" || l == "infinity" then Some(Infinity(false))
    else if l == "nan" then Some(NaN)
    else ParseUnsignedDecimal(t)
  }

  /** A prepared numeral with an optional sign. */
  function ParseSignedFloat(t: string): Option<PyFloat>
  {
    if |t| > 0 && (t[0] == '-' || t[0] == '+') then
      var v := ParseUnsignedFloat(t[1..]);
      if v.Some? && t[0] == '-' then Some(Negate(v.value)) else v
    else ParseUnsignedFloat(t)
  }

  /** Python `float(s)`; `None` stands for the ValueError it raises. */
  function ParseFloat(s: string): Option<PyFloat>
  {
    match Numeral(s)
    case None => None
    case Some(t) => ParseSignedFloat(t)
  }

  /** The underscore rule holds for `float` too: `1_5.2_5` reads as `15.25`. */
  lemma FloatUnderscoreIgnored(a: string, b: string)
    requires |a| > 0 && IsDigit(a[|a| - 1]) && |b| > 0 && IsDigit(b[0])
    ensures ParseFloat(a + "_" + b) == ParseFloat(a + b)
  {
    UnderscoreIgnored(a, b);
  }

  /** A literal starting with a digit is neither `inf`, `infinity` nor `nan`. */
  lemma NotSpecial(t: string)
    requires |t| > 0 && IsDigit(t[0])
    ensures ParseUnsignedFloat(t) == ParseUnsignedDecimal(t)
  {
    var l := Lower(t);
    assert l[0] == t[0];
    assert l != "inf" && l != "infinity" && l != "nan";
  }

  /** Without an exponent marker the decimal is its mantissa alone. */
  lemma NoExponent(t: string)
    requires 'e' !in t && 'E' !in t
    ensures ExponentIndex(t) == |t| && t[..ExponentIndex(t)] == t
  {
  }

  lemma PlainDigitStart(s: string)
    requires PlainNumeral(s) && |s| > 0 && IsDigit(s[0])
    ensures ParseFloat(s) == ParseUnsignedDecimal(s)
  {
    PlainNumeralKept(s);
    NotSpecial(s);
  }

  lemma MantissaWithPoint(w: string, f: string)
    requires AllDigits(w) && AllDigits(f) && |w| + |f| > 0
    ensures AllDigits(w + f)
    ensures ParseMantissa(w + "." + f) == Some((DigitsValue(w + f), |f|))
  {
    AllDigitsAppend(w, f);
    var m := w + "." + f;
    assert m[|w|] == '.';
    assert '.' !in w by {
      forall k | 0 <= k < |w| ensures w[k] != '.' { }
    }
    assert m[..|w|] == w;
    assert IndexOf(m, '.') == |w|;
    assert m[|w| + 1..] == f;
  }

  lemma DecimalChars(w: string, f: string)
    requires AllDigits(w) && AllDigits(f)
    ensures PlainNumeral(w + "." + f)
    ensures 'e' !in w + "." + f && 'E' !in w + "." + f
  {
    var s := w + "." + f;
    forall k | 0 <= k < |s| ensures s[k] == '.' || IsDigit(s[k]) {
      if k < |w| { assert s[k] == w[k]; } else if k > |w| { assert s[k] == f[k - |w| - 1]; }
    }
  }

  /** `w.f` with digit strings `w` (non-empty) and `f` reads as the exact decimal, or
      as infinity when that decimal is beyond the range of doubles. */
  lemma ParseFloatDecimal(w: string, f: string)
    requires |w| > 0 && AllDigits(w) && AllDigits(f)
    ensures AllDigits(w + f)
    ensures ParseFloat(w + "." + f) ==
      Some(if Overflows(DigitsValue(w + f), 0 - |f|) then Infinity(false) else Finite(DigitsValue(w + f), 0 - |f|))
  {
    var s := w + "." + f;
    DecimalChars(w, f);
    assert s[0] == w[0];
    PlainDigitStart(s);
    NoExponent(s);
    MantissaWithPoint(w, f);
  }

  /** `n` written in decimal reads back as the float `n`, or infinity beyond the range. */
  lemma ParseFloatOfNat(n: nat)
    ensures ParseFloat(NatToString(n)) == Some(if Overflows(n, 0) then Infinity(false) else Finite(n, 0))
  {
    var s := NatToString(n);
    NatToStringValue(n);
    assert PlainNumeral(s);
    PlainDigitStart(s);
    NoExponent(s);
    assert '.' !in s;
  }

  // ---------------------------------------------------------------------
  // int(float * scale)
  // ---------------------------------------------------------------------

  /** Integer division truncating toward zero, as `int(x / b)` does in Python. */
  function TruncDiv(a: int, b: nat): (q: int)
    requires b > 0
    ensures a >= 0 ==> q >= 0 && q * b <= a < (q + 1) * b
    ensures a < 0 ==> q <= 0 && a <= q * b && (q - 1) * b < a
  {
    if a >= 0 then
      DivBounds(a, b);
      a / b
    else
      var m := (-a) / b;
      DivBounds(-a, b);
      NegateProducts(m, b);
      -m
  }

  lemma DivBounds(n: nat, b: nat)
    requires b > 0
    ensures n / b >= 0 && (n / b) * b <= n < (n / b + 1) * b
  {
  }

  lemma NegateProducts(m: int, b: int)
    ensures (-m) * b == -(m * b) && (-m - 1) * b == -((m + 1) * b)
  {
  }

  /** The outcome of `int(v * 10^k)` for a parsed float. */
  datatype IntConversion = Converted(value: int) | ConversionValueError | ConversionOverflow

  /** `int(v * 10^k)`: exact truncation for finite products; NaN raises ValueError,
      and an infinity or a product beyond the range of doubles raises OverflowError. */
  function ScaleToInt(v: PyFloat, k: nat): (r: IntConversion)
    ensures v.NaN? <==> r.ConversionValueError?
    ensures r.ConversionOverflow? <==> v.Infinity? || (v.Finite? && Overflows(v.digits, v.exponent + k))
  {
    match v
    case NaN => ConversionValueError
    case Infinity(_) => ConversionOverflow
    case Finite(d, e) =>
      if Overflows(d, e + k) then ConversionOverflow
      else if e + k >= 0 then Converted(d * Pow10(e + k))
      else Converted(TruncDiv(d, Pow10(-(e + k))))
  }

  // ---------------------------------------------------------------------
  // Arithmetic facts about division
  // ---------------------------------------------------------------------

  lemma DivUnique(n: int, d: int, q: int, r: int)
    requires d > 0 && n == q * d + r && 0 <= r < d
    ensures n / d == q
  {
    var q', r' := n / d, n % d;
    assert (q' - q) * d == r - r';
    MulAwayFromZero(q' - q, d);
  }

  lemma MulAwayFromZero(x: int, d: int)
    requires d > 0
    ensures x == 0 || x * d >= d || x * d <= -d
  {
    if x >= 1 {
      assert x * d == (x - 1) * d + d;
    } else if x <= -1 {
      assert x * d == (x + 1) * d - d;
    }
  }

  lemma MulRegroup(q2: int, b: int, r2: int, a: int, r: int)
    ensures (q2 * b + r2) * a + r == q2 * (a * b) + (r2 * a + r)
  {
  }

  lemma RemainderBound(r2: int, b: int, a: int, r: int)
    requires 0 <= r2 < b && 0 <= r < a
    ensures 0 <= r2 * a + r < a * b
  {
    assert r2 * a <= (b - 1) * a;
  }

  lemma DivDiv(n: int, a: int, b: int)
    requires n >= 0 && a > 0 && b > 0
    ensures n / a / b == n / (a * b)
  {
    var q, r := n / a, n % a;
    var q2, r2 := q / b, q % b;
    MulRegroup(q2, b, r2, a, r);
    RemainderBound(r2, b, a, r);
    DivUnique(n, a * b, q2, r2 * a + r);
  }

  lemma DivCancel(n: nat, b: nat, c: nat)
    requires b > 0 && c > 0
    ensures n * c / (b * c) == n / b
  {
    var q, r := n / b, n % b;
    assert n * c == q * (b * c) + r * c by {
      assert n == q * b + r;
    }
    assert r * c < b * c by {
      assert r * c <= (b - 1) * c;
    }
    DivUnique(n * c, b * c, q, r * c);
  }

  lemma {:induction false} Pow10Add(a: nat, b: nat)
    ensures Pow10(a + b) == Pow10(a) * Pow10(b)
  {
    if a > 0 {
      Pow10Add(a - 1, b);
    }
  }

  /** Scaling a non-negative decimal with `f` fractional digits by `10^k` and
      truncating gives the floor of the exact product, unless that product is beyond
      the range of doubles. */
  lemma ScaleFloor(d: nat, f: nat, k: nat)
    ensures ScaleToInt(Finite(d, 0 - f), k) ==
      if Overflows(d, k - f) then ConversionOverflow else Converted(d * Pow10(k) / Pow10(f))
  {
    if f <= k {
      ScaleUp(d, f, k);
    } else {
      ScaleDown(d, f, k);
    }
  }

  /** Scaling the value `float` gives for `d * 10^-f` by `10^k`: an infinite value
      only arises when the scaled one would overflow as well. */
  lemma ScaleDecimal(d: nat, f: nat, k: nat)
    ensures ScaleToInt(if Overflows(d, 0 - f) then Infinity(false) else Finite(d, 0 - f), k) ==
      if Overflows(d, k - f) then ConversionOverflow else Converted(d * Pow10(k) / Pow10(f))
  {
    if Overflows(d, 0 - f) {
      OverflowsMonotone(d, 0 - f, k);
      assert 0 - f + k == k - f;
    } else {
      ScaleFloor(d, f, k);
    }
  }

  lemma ScaleUp(d: nat, f: nat, k: nat)
    requires f <= k
    ensures d * Pow10(k - f) == d * Pow10(k) / Pow10(f)
  {
    var a, b := Pow10(k - f), Pow10(f);
    Pow10Add(k - f, f);
    ExactMultiple(d, a, b);
  }

  lemma ScaleDown(d: nat, f: nat, k: nat)
    requires k < f
    ensures d / Pow10(f - k) == d * Pow10(k) / Pow10(f)
  {
    var a, b := Pow10(f - k), Pow10(k);
    Pow10Add(f - k, k);
    DivCancel(d, a, b);
  }

  lemma ExactMultiple(d: nat, a: nat, b: nat)
    requires b > 0
    ensures d * (a * b) / b == d * a
  {
    assert d * (a * b) == (d * a) * b;
    DivUnique(d * (a * b), b, d * a, 0);
  }

  // ---------------------------------------------------------------------
  // float(int)
  // ---------------------------------------------------------------------

  function Pow2(k: nat): (p: nat)
    ensures p >= 1
  {
    if k == 0 then 1 else 2 * Pow2(k - 1)
  }

  /** 2^53: integers below it in magnitude are doubles exactly. */
  const Two53: nat := 0x20_0000_0000_0000

  /** How many low bits of `a` a double cannot hold: halvings until it drops below 2^53. */
  function Excess(a: nat): nat
  {
    if a < Two53 then 0 else 1 + Excess(a / 2)
  }

  /** `a` rounded to 53 significant bits, ties to the even neighbour. */
  function RoundMantissa(a: nat): nat
  {
    var p := Pow2(Excess(a));
    var q, rem := a / p, a % p;
    (if 2 * rem > p || (2 * rem == p && q % 2 == 1) then q + 1 else q) * p
  }

  /** `float(n)`: the integer value of the nearest double, or None when the conversion
      raises OverflowError. */
  function IntToFloat(n: int): Option<int>
  {
    if Overflows(n, 0) then None
    else if n < 0 then Some(-(RoundMantissa(-n) as int))
    else Some(RoundMantissa(n))
  }

  /** The significand left after the excess bits are dropped has exactly 53 bits. */
  lemma {:induction false} ExcessBounds(a: nat)
    ensures a / Pow2(Excess(a)) < Two53
    ensures a >= Two53 ==> a / Pow2(Excess(a)) >= Two53 / 2
  {
    if a >= Two53 {
      var e := Excess(a / 2);
      ExcessBounds(a / 2);
      DivDiv(a, 2, Pow2(e));
    }
  }

  /** Rounding keeps a multiple of the last kept bit's weight, with at most 53 significant
      bits, within half of that weight of `a`; at exactly half it picks the even multiple. */
  lemma RoundMantissaNearest(a: nat)
    ensures var p, r := Pow2(Excess(a)), RoundMantissa(a);
      && r % p == 0 && r / p <= Two53
      && 2 * (r - a) <= p && 2 * (a - r) <= p
      && (2 * (r - a) == p || 2 * (a - r) == p ==> (r / p) % 2 == 0)
  {
    var p := Pow2(Excess(a));
    ExcessBounds(a);
    RoundToMultiple(a, p);
  }

  /** Rounding `a` to a multiple of `p`, half to even, as `RoundMantissa` does. */
  lemma RoundToMultiple(a: nat, p: nat)
    requires p >= 1
    ensures var q, rem := a / p, a % p;
      var q' := if 2 * rem > p || (2 * rem == p && q % 2 == 1) then q + 1 else q;
      var r := q' * p;
      && r % p == 0 && r / p == q' && q' <= q + 1
      && 2 * (r - a) <= p && 2 * (a - r) <= p
      && (2 * (r - a) == p || 2 * (a - r) == p ==> q' % 2 == 0)
  {
    var q, rem := a / p, a % p;
    var up := 2 * rem > p || (2 * rem == p && q % 2 == 1);
    var q' := if up then q + 1 else q;
    var r := q' * p;
    var qp := q * p;
    assert a == qp + rem;
    MulSucc(q, p);
    assert r == if up then qp + p else qp;
    DivUnique(r, p, q', 0);
  }

  lemma MulSucc(q: nat, p: nat)
    ensures (q + 1) * p == q * p + p
  {
  }

  /** Integers below 2^53 in magnitude convert exactly. */
  lemma IntToFloatExact(n: int)
    requires -(Two53 as int) < n < Two53
    ensures IntToFloat(n) == Some(n)
  {
    var a := if n < 0 then -n else n;
    assert Excess(a) == 0;
    assert !Overflows(n, 0) by {
      assert a * Pow10(0) < InfinityThreshold;
    }
  }

  /** The least integer that does not convert exactly: 2^53 + 1 lies halfway between 2^53
      and 2^53 + 2 and goes to the even one. */
  lemma IntToFloatTie()
    ensures IntToFloat(Two53 + 1) == Some(Two53 as int)
  {
    var a := Two53 + 1;
    assert Excess(a / 2) == 0;
    assert Excess(a) == 1;
    assert a / 2 == Two53 / 2 && a % 2 == 1;
    assert !Overflows(a, 0) by {
      assert a * Pow10(0) < InfinityThreshold;
    }
  }
}

=== FILE: prompts.dfy ===
/**
  `azathoth.core.prompts`: the parts of the prompt texts that are derived from
  their arguments. The fixed instruction text around them is a parameter.
 */
module Prompts {
  import opened Wrappers
  import opened Text

  // ---------------------------------------------------------------------
  // `get_scout_prompt`
  // ---------------------------------------------------------------------

  /** The scout prompt: the target directory is quoted inside the fixed text, which
      `before` and `after` stand for. */
  function ScoutPrompt(before: string, targetDirectory: string, after: string): (p: string)
    ensures Contains(p, "'" + targetDirectory + "'")
  {
    ContainsMiddle(before, "'" + targetDirectory + "'", after);
    before + ("'" + targetDirectory + "'") + after
  }

  // ---------------------------------------------------------------------
  // `get_commit_prompt`
  // ---------------------------------------------------------------------

  const FocusLead: string := "\n\n**User's Focus for this commit is:** "
  const FocusTail: string := ". Tailor the commit message accordingly."
  const FocusIntro: string := FocusLead + "'"
  const FocusOutro: string := "'" + FocusTail

  /** The focus section: empty without a focus (None or the empty string), otherwise a
      paragraph that quotes it. */
  function FocusSection(focus: Option<string>): (s: string)
    ensures s == "" <==> focus.None? || focus.value == ""
    ensures focus.Some? && focus.value != "" ==> IsPrefix(FocusIntro, s) && Contains(s, "'" + focus.value + "'")
  {
    if focus.Some? && focus.value != "" then
      var s := FocusIntro + focus.value + FocusOutro;
      assert s[..|FocusIntro|] == FocusIntro;
      assert s == FocusLead + ("'" + focus.value + "'") + FocusTail;
      ContainsMiddle(FocusLead, "'" + focus.value + "'", FocusTail);
      s
    else ""
  }

  /** The commit prompt: the fixed instructions, then the focus section and a newline. */
  function CommitPrompt(instructions: string, focus: Option<string>): (p: string)
    ensures IsPrefix(instructions, p)
  {
    var p := instructions + FocusSection(focus) + "\n";
    assert p[..|instructions|] == instructions;
    p
  }

  /** Without a focus, the prompt is the same whether it is None or empty. */
  lemma NoFocus(instructions: string)
    ensures CommitPrompt(instructions, None) == CommitPrompt(instructions, Some("")) == instructions + "\n"
  {
  }

  // ---------------------------------------------------------------------
  // `get_release_prompt`
  // ---------------------------------------------------------------------

  /** The repository name as the source derives it: the text after the last `/` with
      every `.git` occurrence removed, wherever it occurs. */
  function ReleaseRepoNameAsWritten(repoUrl: string): (name: string)
    ensures '/' !in name
  {
    var last := Last(Split(repoUrl, '/'));
    RemoveAllSubset(last, ".git");
    RemoveAll(last, ".git")
  }

  lemma {:induction false} RemoveAllSubset(s: string, pat: string)
    requires |pat| > 0
    ensures forall c <- RemoveAll(s, pat) :: c in s
    decreases |s|
  {
    if |s| >= |pat| {
      if s[..|pat|] == pat {
        RemoveAllSubset(s[|pat|..], pat);
        assert forall c <- s[|pat|..] :: c in s;
      } else {
        RemoveAllSubset(s[1..], pat);
        assert forall c <- s[1..] :: c in s;
      }
    }
  }

  /** The repository name as intended: the text after the last `/`, less one `.git`
      suffix. */
  function ReleaseRepoName(repoUrl: string): (name: string)
    ensures '/' !in name
  {
    var parts := Split(repoUrl, '/');
    var last := Last(parts);
    assert last in parts;
    if IsSuffix(".git", last) then
      var name := last[..|last| - 4];
      assert forall c <- name :: c in last;
      name
    else last
  }

  /** The plain URL of a repository gives its name. */
  lemma ReleaseRepoNameOfUrl(pieces: seq<string>, name: string)
    requires forall p <- pieces :: '/' !in p
    requires '/' !in name && !IsSuffix(".git", name)
    ensures ReleaseRepoName(Join(pieces + [name], "/")) == name
  {
    LastPiece(pieces, name);
  }

  /** So does its clone URL, ending in `.git`. */
  lemma ReleaseRepoNameOfCloneUrl(pieces: seq<string>, name: string)
    requires forall p <- pieces :: '/' !in p
    requires '/' !in name
    ensures ReleaseRepoName(Join(pieces + [name + ".git"], "/")) == name
  {
    var g := name + ".git";
    GitSuffixNoSlash(name);
    LastPiece(pieces, g);
    assert g[|g| - 4..] == ".git" && g[..|g| - 4] == name;
  }

  lemma GitSuffixNoSlash(name: string)
    requires '/' !in name
    ensures '/' !in name + ".git"
  {
    var g := name + ".git";
    forall i | 0 <= i < |g|
      ensures g[i] != '/'
    {
      if i < |name| {
        assert g[i] == name[i] && name[i] in name;
      } else {
        assert g[i] == ".git"[i - |name|];
      }
    }
  }

  lemma LastPiece(pieces: seq<string>, x: string)
    requires forall p <- pieces :: '/' !in p
    requires '/' !in x
    ensures Last(Split(Join(pieces + [x], "/"), '/')) == x
  {
    var xs := pieces + [x];
    assert forall p <- xs :: '/' !in p;
    JoinSplit(xs, '/');
  }

  /** Where the last piece holds no `.git` at all, the two derivations agree. */
  lemma ReleaseRepoNamesAgree(repoUrl: string)
    requires !Contains(Last(Split(repoUrl, '/')), ".git")
    ensures ReleaseRepoNameAsWritten(repoUrl) == ReleaseRepoName(repoUrl)
  {
    var last := Last(Split(repoUrl, '/'));
    RemoveAllAbsent(last, ".git");
    SuffixOccurs(last, ".git");
  }

  lemma SuffixOccurs(s: string, t: string)
    ensures IsSuffix(t, s) ==> OccursAt(s, t, |s| - |t|)
  {
  }

  /** A GitHub Pages repository shows the difference: as written, `user.github.io`
      loses the `.git` inside `.github` and becomes `userhub.io`. */
  lemma PagesRepoName(user: string)
    requires '/' !in user && '.' !in user
    ensures ReleaseRepoNameAsWritten(user + ".github.io") == user + "hub.io"
    ensures ReleaseRepoName(user + ".github.io") == user + ".github.io"
  {
    var url := user + ".github.io";
    assert '/' !in url;
    SplitNone(url, '/');
    PagesRemoval(user);
    var pages := ".github.io";
    assert url[|url| - 4..] == pages[|pages| - 4..];
  }

  lemma PagesRemoval(user: string)
    requires '.' !in user
    ensures RemoveAll(user + ".github.io", ".git") == user + "hub.io"
  {
    RemoveAllNoStart(user, ".github.io", ".git");
    var pages := ".github.io";
    assert pages[..4] == ".git" && pages[4..] == "hub.io";
    NotContainsMissingChar("hub.io", ".git", 1);
    RemoveAllAbsent("hub.io", ".git");
  }

  /** Text that cannot start an occurrence is kept as it is. */
  lemma {:induction false} RemoveAllNoStart(a: string, b: string, pat: string)
    requires |pat| > 0 && pat[0] !in a
    ensures RemoveAll(a + b, pat) == a + RemoveAll(b, pat)
    decreases |a|
  {
    if a == [] {
      assert a + b == b;
    } else {
      var s := a + b;
      assert s[1..] == a[1..] + b;
      RemoveAllNoStart(a[1..], b, pat);
      assert [a[0]] + a[1..] == a;
      if |s| >= |pat| {
        assert s[..|pat|][0] == a[0] != pat[0];
        assert RemoveAll(s, pat) == [s[0]] + RemoveAll(s[1..], pat);
      } else {
        assert RemoveAll(b, pat) == b;
      }
    }
  }

  /** The link to the changes since the previous version. */
  function ChangelogLink(repoUrl: string, oldVersion: string, newVersion: string): (link: string)
    ensures IsPrefix(repoUrl + "/compare/", link)
    ensures IsSuffix("..." + newVersion, link)
    ensures |link| == |repoUrl + "/compare/"| + |oldVersion| + |"..." + newVersion|
    ensures link[|repoUrl + "/compare/"|..|link| - |"..." + newVersion|] == oldVersion
  {
    var link := repoUrl + "/compare/" + oldVersion + "..." + newVersion;
    assert link[..|repoUrl + "/compare/"|] == repoUrl + "/compare/";
    assert link[|link| - |"..." + newVersion|..] == "..." + newVersion;
    assert link[|repoUrl + "/compare/"|..|link| - |"..." + newVersion|] == oldVersion;
    link
  }
}

=== FILE: py_scout.dfy ===
/**
  The Python MCP scout server's `adapt` tool: the core development philosophy,
  followed by the directive for one language when it can be loaded. Files come
  through the prompt loader, which answers a missing file with an error text
  rather than an exception; `adapt` recognises a miss by the substring `Error:`.
 */
module PyScout {
  import opened Wrappers
  import opened Text
  import Directives

  /** The prompt vault: the text of each file it holds. */
  type Vault = string -> Option<string>

  const Sentinel: string := "Error:"
  const CoreFile: string := "core-philosophy.md"
  const CoreMissing: string := "Error: The essential 'core-philosophy.md' directive is missing. Cannot adapt."

  /** `PromptLoader.load`: the file's text, or a message that starts with `Error:` and
      quotes the missing file's name. */
  function Load(vault: Vault, promptsPath: string, filename: string): (text: string)
    ensures vault(filename).Some? ==> text == vault(filename).value
    ensures vault(filename).None? ==> IsPrefix(Sentinel, text) && Contains(text, "'" + filename + "'")
  {
    match vault(filename)
    case Some(t) => t
    case None =>
      var before := "Error: Master prompt template ";
      var after := " not found in '" + promptsPath + "'. Please ensure the file exists.";
      var text := before + ("'" + filename + "'") + after;
      ContainsMiddle(before, "'" + filename + "'", after);
      assert text[..|Sentinel|] == Sentinel;
      text
  }

  /** The file holding a language's directive; the language is lower-cased. */
  function LanguageFile(language: string): (file: string)
    ensures IsPrefix("directive-", file) && IsSuffix(".md", file)
  {
    var file := "directive-" + Lower(language) + ".md";
    assert file[..10] == "directive-";
    assert file[|file| - 3..] == ".md";
    file
  }

  /** The note that replaces a missing language directive, up to and including the
      separator that precedes the core text. */
  function MissingNote(file: string): string
  {
    "Note: Language-specific directive " + ("'" + file + "'")
      + " not found. Proceeding with the core development philosophy only." + Directives.Separator
  }

  /** What `adapt` returns for `language`, given what the loader answers. */
  function AdaptOf(vault: Vault, promptsPath: string, language: string): string
  {
    var core := Load(vault, promptsPath, CoreFile);
    if Contains(core, Sentinel) then CoreMissing
    else
      var file := LanguageFile(language);
      var text := Load(vault, promptsPath, file);
      if !Contains(text, Sentinel) then Join([core, text], Directives.Separator)
      else MissingNote(file) + core
  }

  /** `adapt`: the list of directives starts with the core text and gains the language
      text when that loaded. */
  method Adapt(vault: Vault, promptsPath: string, language: string) returns (r: string)
    ensures r == AdaptOf(vault, promptsPath, language)
  {
    var directives: seq<string> := [];
    var core := Load(vault, promptsPath, CoreFile);
    if Contains(core, Sentinel) {
      return CoreMissing;
    }
    directives := directives + [core];
    var file := LanguageFile(language);
    var text := Load(vault, promptsPath, file);
    if !Contains(text, Sentinel) {
      directives := directives + [text];
      r := Join(directives, Directives.Separator);
    } else {
      r := MissingNote(file) + core;
    }
  }

  /** A list of two directives is joined into the first, the separator and the second. */
  lemma JoinPair(a: string, b: string)
    ensures Join([a, b], Directives.Separator) == a + Directives.Separator + b
  {
    assert [a, b][1..] == [b];
  }

  lemma SentinelPrefix(text: string)
    requires IsPrefix(Sentinel, text)
    ensures Contains(text, Sentinel)
  {
    assert OccursAt(text, Sentinel, 0);
  }

  /** Without the core file there is nothing to adapt: the fixed error comes back. */
  lemma MissingCore(vault: Vault, promptsPath: string, language: string)
    requires vault(CoreFile).None?
    ensures AdaptOf(vault, promptsPath, language) == CoreMissing
  {
    SentinelPrefix(Load(vault, promptsPath, CoreFile));
  }

  /** With both files present and clean, the result is the core text, the separator and
      the language text. */
  lemma BothLoaded(vault: Vault, promptsPath: string, language: string)
    requires vault(CoreFile).Some? && !Contains(vault(CoreFile).value, Sentinel)
    requires vault(LanguageFile(language)).Some? && !Contains(vault(LanguageFile(language)).value, Sentinel)
    ensures AdaptOf(vault, promptsPath, language)
      == vault(CoreFile).value + Directives.Separator + vault(LanguageFile(language)).value
  {
    JoinPair(vault(CoreFile).value, vault(LanguageFile(language)).value);
  }

  /** Without the language file, the note names the file looked for and the core text
      ends the result. */
  lemma MissingLanguage(vault: Vault, promptsPath: string, language: string)
    requires vault(CoreFile).Some? && !Contains(vault(CoreFile).value, Sentinel)
    requires vault(LanguageFile(language)).None?
    ensures var r := AdaptOf(vault, promptsPath, language);
      && r == MissingNote(LanguageFile(language)) + vault(CoreFile).value
      && IsSuffix(vault(CoreFile).value, r)
      && Contains(r, "'" + LanguageFile(language) + "'")
  {
    var file := LanguageFile(language);
    SentinelPrefix(Load(vault, promptsPath, file));
    NoteNamesFile(file, vault(CoreFile).value);
  }

  lemma NoteNamesFile(file: string, core: string)
    ensures var r := MissingNote(file) + core;
      IsSuffix(core, r) && Contains(r, "'" + file + "'")
  {
    var r := MissingNote(file) + core;
    assert r[|r| - |core|..] == core;
    var before := "Note: Language-specific directive ";
    var rest := " not found. Proceeding with the core development philosophy only.";
    var after := rest + Directives.Separator + core;
    assert r == before + ("'" + file + "'") + after;
    ContainsMiddle(before, "'" + file + "'", after);
  }

  /** The language is looked up lower-cased, so its spelling does not matter. */
  lemma AdaptIgnoresCase(vault: Vault, promptsPath: string, language: string)
    ensures AdaptOf(vault, promptsPath, language) == AdaptOf(vault, promptsPath, Lower(language))
  {
    LowerIsLower(language);
    assert LanguageFile(language) == LanguageFile(Lower(language));
  }

  /** As written, a present core text that mentions `Error:` is taken for a missing
      one. */
  lemma CoreTextWithSentinel(vault: Vault, promptsPath: string, language: string)
    requires vault(CoreFile).Some? && Contains(vault(CoreFile).value, Sentinel)
    ensures AdaptOf(vault, promptsPath, language) == CoreMissing
  {
  }

  /** As written, a present language directive that mentions `Error:` (`ValueError:`,
      say) is dropped exactly as if the file were missing. */
  lemma LanguageTextWithSentinel(vault: Vault, promptsPath: string, language: string)
    requires vault(CoreFile).Some? && !Contains(vault(CoreFile).value, Sentinel)
    requires vault(LanguageFile(language)).Some? && Contains(vault(LanguageFile(language)).value, Sentinel)
    ensures AdaptOf(vault, promptsPath, language)
      == AdaptOf(Without(vault, LanguageFile(language)), promptsPath, language)
  {
    var file := LanguageFile(language);
    var w := Without(vault, file);
    assert w(CoreFile) == vault(CoreFile) by {
      assert CoreFile != file by {
        assert file[..10] == "directive-";
        assert file[0] == 'd' != CoreFile[0];
      }
    }
    SentinelPrefix(Load(w, promptsPath, file));
  }

  /** The vault with one file taken out. */
  function Without(vault: Vault, file: string): (w: Vault)
    ensures w(file).None?
    ensures forall f :: f != file ==> w(f) == vault(f)
  {
    f => if f == file then None else vault(f)
  }

  // ---------------------------------------------------------------------
  // The loader's answer as an option, without the sentinel test
  // ---------------------------------------------------------------------

  /** `adapt` deciding presence from the vault itself rather than from the text. */
  function AdaptChecked(vault: Vault, language: string): (r: string)
    ensures vault(CoreFile).None? ==> r == CoreMissing
    ensures vault(CoreFile).Some? && vault(LanguageFile(language)).Some?
      ==> r == vault(CoreFile).value + Directives.Separator + vault(LanguageFile(language)).value
    ensures vault(CoreFile).Some? && vault(LanguageFile(language)).None?
      ==> r == MissingNote(LanguageFile(language)) + vault(CoreFile).value
  {
    match vault(CoreFile)
    case None => CoreMissing
    case Some(core) =>
      var file := LanguageFile(language);
      match vault(file)
      case Some(text) =>
        JoinPair(core, text);
        Join([core, text], Directives.Separator)
      case None => MissingNote(file) + core
  }

  /** The two agree whenever no text that is present mentions `Error:`. */
  lemma AdaptAgrees(vault: Vault, promptsPath: string, language: string)
    requires vault(CoreFile).Some? ==> !Contains(vault(CoreFile).value, Sentinel)
    requires vault(LanguageFile(language)).Some? ==> !Contains(vault(LanguageFile(language)).value, Sentinel)
    ensures AdaptOf(vault, promptsPath, language) == AdaptChecked(vault, language)
  {
    if vault(CoreFile).None? {
      MissingCore(vault, promptsPath, language);
    } else if vault(LanguageFile(language)).None? {
      MissingLanguage(vault, promptsPath, language);
    }
  }
}

=== FILE: report.dfy ===
/**
  The digest report: the three sections gitingest returns, the banner text that
  is written to `{name}.txt`, and its size in UTF-8 bytes.
 */
module Report {
  import opened Text

  /** What gitingest returns for one target: summary, directory tree and file contents. */
  datatype Digest = Digest(summary: string, tree: string, content: string)

  /** The outcome of asking gitingest for a digest; its failure message is opaque. */
  datatype Fetch = Fetched(digest: Digest) | FetchFailed(error: string)

  /** A report file: its name and the text written to it. */
  datatype SavedReport = SavedReport(fileName: string, text: string)

  /** The `"=" * 20` rule under each section title. */
  const Rule: string := Repeat('=', 20)

  /** The section titles, each with its rule and the line breaks around it. */
  const SummaryHead: string := "SUMMARY\n" + Rule + "\n"
  const TreeHead: string := "\n\nTREE\n" + Rule + "\n"
  const ContentHead: string := "\n\nCONTENT\n" + Rule + "\n"

  /** The report text: three titled sections, separated by blank lines. */
  function ReportText(summary: string, tree: string, content: string): (r: string)
    ensures IsPrefix(SummaryHead + summary, r)
  {
    var head := SummaryHead + summary;
    var r := head + TreeHead + tree + ContentHead + content;
    assert r[..|head|] == head;
    r
  }

  /** `_save_report`: the file `{name}.txt` holding the report text. */
  function SaveReport(name: string, summary: string, tree: string, content: string): (s: SavedReport)
    ensures s.fileName == name + ".txt"
    ensures s.text == ReportText(summary, tree, content)
  {
    SavedReport(name + ".txt", ReportText(summary, tree, content))
  }

  /** The titles are ASCII: 29, 28 and 31 bytes. */
  lemma HeadLengths()
    ensures Utf8Length(SummaryHead) == 29
    ensures Utf8Length(TreeHead) == 28
    ensures Utf8Length(ContentHead) == 31
  {
    Utf8Ascii(SummaryHead);
    Utf8Ascii(TreeHead);
    Utf8Ascii(ContentHead);
  }

  /** The report's UTF-8 length is the titles' 88 bytes plus those of the sections. */
  lemma ReportLength(summary: string, tree: string, content: string)
    ensures Utf8Length(ReportText(summary, tree, content))
         == 88 + Utf8Length(summary) + Utf8Length(tree) + Utf8Length(content)
  {
    HeadLengths();
    var a := SummaryHead + summary;
    var b := a + TreeHead;
    var c := b + tree;
    var d := c + ContentHead;
    Utf8Append(SummaryHead, summary);
    Utf8Append(a, TreeHead);
    Utf8Append(b, tree);
    Utf8Append(c, ContentHead);
    Utf8Append(d, content);
  }

  /** `calculate_report_size_bytes`: the UTF-8 length of the report text. */
  function ReportSizeBytes(summary: string, tree: string, content: string): (n: nat)
    ensures n == 88 + Utf8Length(summary) + Utf8Length(tree) + Utf8Length(content)
  {
    var text := ReportText(summary, tree, content);
    EncodeLength(text);
    ReportLength(summary, tree, content);
    |Utf8Encode(text)|
  }

  /** The size reported is the number of bytes the saved file holds, whatever its name. */
  lemma SizeMatchesSavedFile(name: string, summary: string, tree: string, content: string)
    ensures ReportSizeBytes(summary, tree, content)
         == |Utf8Encode(SaveReport(name, summary, tree, content).text)|
  {
    EncodeLength(ReportText(summary, tree, content));
  }
}

=== FILE: scout.dfy ===
/**
  `azathoth.core.scout`: the report on a code base: its primary language, taken
  from the first manifest file present, the master context for that language,
  and the first entry-point file present. Whether a file exists under the root
  is asked of the filesystem, so it is an input.
 */
module Scout {
  import opened Wrappers
  import opened Directives
  import opened Ingest

  /** Whether a path relative to the root exists. */
  type Probe = string -> bool

  datatype ScoutReport = ScoutReport(
    directory: string,
    result: IngestionResult,
    primaryLanguage: string,
    directivesLoaded: seq<string>,
    masterContext: string,
    entryPoint: Option<string>)

  /** Manifest files and the language each one signals, in the order they are tried. */
  const Manifests: seq<(string, string)> := [
    ("pyproject.toml", "python"),
    ("package.json", "typescript"),
    ("Cargo.toml", "rust"),
    ("go.mod", "go"),
    ("build.gradle", "kotlin"),
    ("pom.xml", "java")]

  const EntryPoints: seq<string> := [
    "main.py", "app.py", "src/main.rs", "src/index.ts", "index.js", "src/app.ts", "main.go"]

  /** The position of the first name that exists; `|names|` when none does. */
  function FirstPresent(names: seq<string>, present: Probe): (k: nat)
    ensures k <= |names|
    ensures forall j :: 0 <= j < k ==> !present(names[j])
    ensures k < |names| ==> present(names[k])
  {
    if names == [] then 0
    else if present(names[0]) then 0
    else 1 + FirstPresent(names[1..], present)
  }

  function ManifestNames(): (names: seq<string>)
    ensures |names| == |Manifests|
    ensures forall i :: 0 <= i < |names| ==> names[i] == Manifests[i].0
  {
    seq(|Manifests|, i requires 0 <= i < |Manifests| => Manifests[i].0)
  }

  /** The language of the first manifest present, `"unknown"` without one. */
  function LanguageOf(present: Probe): string
  {
    var k := FirstPresent(ManifestNames(), present);
    if k < |Manifests| then Manifests[k].1 else "unknown"
  }

  function EntryPointOf(present: Probe): Option<string>
  {
    var k := FirstPresent(EntryPoints, present);
    if k < |EntryPoints| then Some(EntryPoints[k]) else None
  }

  /** The manifest loop: the first hit sets the language and ends the search. */
  method PrimaryLanguage(present: Probe) returns (language: string)
    ensures language == LanguageOf(present)
  {
    language := "unknown";
    var i := 0;
    while i < |Manifests|
      invariant 0 <= i <= |Manifests|
      invariant forall j :: 0 <= j < i ==> !present(Manifests[j].0)
    {
      if present(Manifests[i].0) {
        language := Manifests[i].1;
        break;
      }
      i := i + 1;
    }
    FirstPresentAt(ManifestNames(), present, i);
  }

  /** The entry-point loop, with the same shape. */
  method FindEntryPoint(present: Probe) returns (found: Option<string>)
    ensures found == EntryPointOf(present)
  {
    found := None;
    var i := 0;
    while i < |EntryPoints|
      invariant 0 <= i <= |EntryPoints|
      invariant forall j :: 0 <= j < i ==> !present(EntryPoints[j])
    {
      if present(EntryPoints[i]) {
        found := Some(EntryPoints[i]);
        break;
      }
      i := i + 1;
    }
    FirstPresentAt(EntryPoints, present, i);
  }

  /** A position before which nothing exists, and which exists itself (or is the end),
      is the one `FirstPresent` finds. */
  lemma {:induction false} FirstPresentAt(names: seq<string>, present: Probe, i: nat)
    requires i <= |names|
    requires forall j :: 0 <= j < i ==> !present(names[j])
    requires i < |names| ==> present(names[i])
    ensures FirstPresent(names, present) == i
  {
    if i > 0 {
      FirstPresentAt(names[1..], present, i - 1);
    }
  }

  /** The language is `"unknown"` exactly when no manifest exists, and otherwise belongs
      to a present manifest with no present manifest before it. */
  lemma LanguageSpec(present: Probe)
    ensures LanguageOf(present) == "unknown" <==> forall i :: 0 <= i < |Manifests| ==> !present(Manifests[i].0)
    ensures LanguageOf(present) != "unknown" ==>
      exists k :: 0 <= k < |Manifests| && present(Manifests[k].0) && LanguageOf(present) == Manifests[k].1
        && forall j :: 0 <= j < k ==> !present(Manifests[j].0)
  {
    var names := ManifestNames();
    var k := FirstPresent(names, present);
    if k < |Manifests| {
      assert Manifests[k].1 != "unknown";
    }
  }

  /** There is an entry point exactly when a candidate exists, and it is the first one
      in the listed order. */
  lemma EntryPointSpec(present: Probe)
    ensures EntryPointOf(present).None? <==> forall i :: 0 <= i < |EntryPoints| ==> !present(EntryPoints[i])
    ensures EntryPointOf(present).Some? ==>
      exists k :: 0 <= k < |EntryPoints| && EntryPointOf(present).value == EntryPoints[k] && present(EntryPoints[k])
        && forall j :: 0 <= j < k ==> !present(EntryPoints[j])
  {
  }

  /** The parameters of `azathoth.core.ingest.ingest`, which takes no other keyword. */
  const IngestParameters: set<string> := {"target", "include_patterns", "exclude_patterns"}

  /** The keywords `scout` passes to `ingest`. */
  const ScoutIngestKeywords: seq<string> := ["list_only"]

  /** Binding keyword arguments to `ingest`: Python raises a TypeError for any keyword
      that names no parameter, before the coroutine is even created. */
  function BindIngestKeywords(keywords: seq<string>): (r: Result<()>)
    ensures r.Ok? <==> forall i :: 0 <= i < |keywords| ==> keywords[i] in IngestParameters
    ensures r.Err? ==> r.error == "TypeError"
  {
    if keywords == [] then Ok(())
    else if keywords[0] !in IngestParameters then Err("TypeError")
    else BindIngestKeywords(keywords[1..])
  }

  /** `scout` as written: its first step calls `ingest(str(root), list_only=True)`, and
      `ingest` has no `list_only` parameter, so every call raises before any report
      is built. */
  method ScoutAsWritten(root: string, result: IngestionResult, present: Probe, user: Store, builtin: Store)
    returns (r: Result<ScoutReport>)
    ensures r == Err("TypeError")
  {
    var bound := BindIngestKeywords(ScoutIngestKeywords);
    if bound.Err? {
      return Err(bound.error);
    }
    var report := Scout(root, result, present, user, builtin);
    return Ok(report);
  }

  /** `scout` as evidently intended, with the listing of the root as an input: the
      root is the resolved target directory and `result` what the ingestion of it
      returned; `user` and `builtin` are the two directive directories. */
  method Scout(root: string, result: IngestionResult, present: Probe, user: Store, builtin: Store)
    returns (r: ScoutReport)
    ensures r.directory == root && r.result == result
    ensures r.primaryLanguage == LanguageOf(present)
    ensures r.directivesLoaded == ["core", r.primaryLanguage]
    ensures r.masterContext == MasterContextOf([r.primaryLanguage], user, builtin)
    ensures r.entryPoint == EntryPointOf(present)
  {
    var language := PrimaryLanguage(present);
    var masterContext := MasterContext([language], user, builtin);
    var foundEntry := FindEntryPoint(present);
    r := ScoutReport(root, result, language, ["core", language], masterContext, foundEntry);
  }
}

=== FILE: scout_rs.dfy ===
/**
  The Rust scout server's `adapt` tool: the core development philosophy, then
  for each requested language the separator and that language's guidance, or a
  note that there is none. The guides and `from_string` come from the same
  macro invocation as the macro-generated directives server; only the Python
  arm differs, concatenating its two assets with nothing between them.
 */
module ScoutRs {
  import opened Text
  import opened Wrappers
  import opened Guides
  import GuideMacro
  import Directives

  /** The guidance of a variant in this server. */
  function Guidance(g: LanguageGuide, assets: GuideMacro.PythonAssets): string
  {
    if g == Python then assets.md + assets.py else Placeholder(g)
  }

  /** The note that stands in for the guidance of a language no arm selects. */
  function Note(language: string): (note: string)
    ensures Contains(note, "'" + language + "'")
  {
    var head := "Note: No specific guidance available for language: ";
    ContainsMiddle(head, "'" + language + "'", ".");
    head + ("'" + language + "'") + "."
  }

  /** What follows the separator for one requested language. */
  function Part(language: string, assets: GuideMacro.PythonAssets): string
  {
    match GuideMacro.FromString(language)
    case Some(g) => Guidance(g, assets)
    case None => Note(language)
  }

  /** `Part` with the assets fixed, as the loop applies it to each language. */
  function PartOf(assets: GuideMacro.PythonAssets): string -> string
  {
    language => Part(language, assets)
  }

  /** The core text, then one part per language after a separator, in the order
      requested. */
  function Assemble(core: string, languages: seq<string>, part: string -> string): string
  {
    if languages == [] then core
    else
      var n := |languages| - 1;
      Assemble(core, languages[..n], part) + Directives.Separator + part(languages[n])
  }

  /** The result of `adapt`. */
  function AdaptOf(core: string, languages: seq<string>, assets: GuideMacro.PythonAssets): string
  {
    Assemble(core, languages, PartOf(assets))
  }

  /** `adapt`, with the core philosophy asset passed in. */
  method Adapt(core: string, languages: seq<string>, assets: GuideMacro.PythonAssets) returns (result: string)
    ensures result == AdaptOf(core, languages, assets)
  {
    result := core;
    for i := 0 to |languages|
      invariant result == Assemble(core, languages[..i], PartOf(assets))
    {
      result := result + Directives.Separator;
      result := result + Part(languages[i], assets);
      assert languages[..i + 1][..i] == languages[..i];
    }
    assert languages[..|languages|] == languages;
  }

  /** The result is the core text and the parts joined by the separator. */
  lemma {:induction false} AssembleJoin(core: string, languages: seq<string>, part: string -> string)
    ensures Assemble(core, languages, part) == Join([core] + Map(languages, part), Directives.Separator)
  {
    if languages == [] {
      assert [core] + Map(languages, part) == [core];
    } else {
      var n := |languages| - 1;
      AssembleJoin(core, languages[..n], part);
      var init := Map(languages[..n], part);
      assert Map(languages, part) == init + [part(languages[n])];
      assert [core] + Map(languages, part) == ([core] + init) + [part(languages[n])];
      JoinSnoc([core] + init, part(languages[n]), Directives.Separator);
    }
  }

  /** The core philosophy always comes first, whatever is asked for. */
  lemma CoreFirst(core: string, languages: seq<string>, assets: GuideMacro.PythonAssets)
    ensures IsPrefix(core, AdaptOf(core, languages, assets))
  {
    AssembleJoin(core, languages, PartOf(assets));
    JoinPrefix([core] + Map(languages, PartOf(assets)), Directives.Separator);
  }

  /** Every requested language contributes its part, after a separator; none is
      dropped. */
  lemma {:induction false} AssembleHasEveryPart(core: string, languages: seq<string>, k: nat, part: string -> string)
    requires k < |languages|
    ensures Contains(Assemble(core, languages, part), Directives.Separator + part(languages[k]))
  {
    var n := |languages| - 1;
    var before := Assemble(core, languages[..n], part);
    var last := Directives.Separator + part(languages[n]);
    assert Assemble(core, languages, part) == before + last;
    if k == n {
      assert OccursAt(before + last, last, |before|);
    } else {
      assert languages[..n][k] == languages[k];
      AssembleHasEveryPart(core, languages[..n], k, part);
      ContainsAppend(before, last, Directives.Separator + part(languages[k]));
    }
  }

  /** A language no arm selects still appears, quoted in its note. */
  lemma UnknownLanguageNoted(core: string, languages: seq<string>, k: nat, assets: GuideMacro.PythonAssets)
    requires k < |languages| && GuideMacro.FromString(languages[k]).None?
    ensures Contains(AdaptOf(core, languages, assets), Directives.Separator + Note(languages[k]))
  {
    AssembleHasEveryPart(core, languages, k, PartOf(assets));
  }

  /** Asking for `python` gets the note. */
  lemma PythonByName(core: string, assets: GuideMacro.PythonAssets)
    ensures AdaptOf(core, ["python"], assets) == core + Directives.Separator + Note("python")
  {
    GuideMacro.PythonNameRefused();
    assert Part("python", assets) == Note("python");
    assert ["python"][..0] == [];
    assert Assemble(core, ["python"], PartOf(assets))
      == Assemble(core, [], PartOf(assets)) + Directives.Separator + PartOf(assets)("python");
  }

  /** Asking for `py` gets both Python assets, run together. */
  lemma PythonByAlias(core: string, assets: GuideMacro.PythonAssets)
    ensures AdaptOf(core, ["py"], assets) == core + Directives.Separator + (assets.md + assets.py)
  {
    GuideMacro.PythonAliasAccepted();
    assert Part("py", assets) == assets.md + assets.py;
    assert ["py"][..0] == [];
    assert Assemble(core, ["py"], PartOf(assets))
      == Assemble(core, [], PartOf(assets)) + Directives.Separator + PartOf(assets)("py");
  }
}

=== FILE: summary_metrics.dfy ===
/**
  The line-oriented reader of gitingest's summary: `parse_summary_for_metrics`
  (ingest/core.py, the Legacy dialect) and `_parse_summary_metrics`
  (core/ingest.py, the Current dialect). Both look for "Files analyzed:" and
  "Estimated tokens:" lines and keep the last value they can read.
 */
module SummaryMetrics {
  import opened Wrappers
  import opened Text
  import opened PyNumbers

  /** Legacy matches `k` and `M` as written; Current lower-cases first and matches `k` and `m`. */
  datatype Dialect = Legacy | Current

  datatype Metrics = Metrics(fileCount: int, tokenCount: int)

  /** What reading one value does to a counter: set it, leave it (a caught
      ValueError), or let an uncaught OverflowError escape the parser. */
  datatype Update = SetTo(value: int) | Keep | Overflow

  const FilesLabel: string := "Files analyzed" + ":"
  const TokensLabel: string := "Estimated tokens" + ":"

  /** The text after the first colon, up to the next one (`line.split(":")[1]`). */
  function Field(line: string): string
  {
    var parts := Split(line, ':');
    if |parts| >= 2 then parts[1] else ""
  }

  /** `int(float(text) * 10^k)`, with the two Python errors told apart. */
  function ScaledValue(text: string, k: nat): (u: Update)
    ensures ParseFloat(text).None? ==> u == Keep
  {
    match ParseFloat(text)
    case None => Keep
    case Some(v) =>
      match ScaleToInt(v, k)
      case Converted(n) => SetTo(n)
      case ConversionValueError => Keep
      case ConversionOverflow => Overflow
  }

  /** How the token field of an "Estimated tokens:" line updates the count. */
  function TokenUpdate(dialect: Dialect, field: string): Update
  {
    ReadToken(dialect, TokenText(dialect, field))
  }

  /** The token field stripped, and lower-cased by the Current dialect. */
  function TokenText(dialect: Dialect, field: string): string
  {
    var raw := Strip(field);
    if dialect == Current then Lower(raw) else raw
  }

  /** The suffix dispatch on the normalised token text. */
  function ReadToken(dialect: Dialect, t: string): Update
  {
    var mega := if dialect == Current then 'm' else 'M';
    if 'k' in t then ScaledValue(RemoveChar(t, 'k'), 3)
    else if mega in t then ScaledValue(RemoveChar(t, mega), 6)
    else match ParseInt(t)
      case Some(n) => SetTo(n)
      case None => Keep
  }

  function Apply(u: Update, current: int): int
  {
    if u.SetTo? then u.value else current
  }

  /** One iteration of the loop over lines; `Err` is the escaping OverflowError. */
  function LineStep(dialect: Dialect, m: Metrics, line: string): (r: Result<Metrics>)
    ensures r.Ok? ==> r.value.fileCount == m.fileCount || r.value.tokenCount == m.tokenCount
  {
    if Contains(line, FilesLabel) then
      match ParseInt(Strip(Field(line)))
      case Some(n) => Ok(m.(fileCount := n))
      case None => Ok(m)
    else if Contains(line, TokensLabel) then
      var u := TokenUpdate(dialect, Field(line));
      if u.Overflow? then Err("OverflowError") else Ok(m.(tokenCount := Apply(u, m.tokenCount)))
    else Ok(m)
  }

  /** The parser as a left fold over the lines, starting from (0, 0). */
  function ParseLines(dialect: Dialect, lines: seq<string>): Result<Metrics>
  {
    if lines == [] then Ok(Metrics(0, 0))
    else
      match ParseLines(dialect, lines[..|lines| - 1])
      case Err(e) => Err(e)
      case Ok(m) => LineStep(dialect, m, Last(lines))
  }

  /** The source loop over `summary.split("\n")`. */
  method ParseSummary(dialect: Dialect, summary: string) returns (r: Result<Metrics>)
    ensures r == ParseLines(dialect, Split(summary, '\n'))
  {
    var lines := Split(summary, '\n');
    var fileCount, tokenCount := 0, 0;
    var i := 0;
    while i < |lines|
      invariant 0 <= i <= |lines|
      invariant ParseLines(dialect, lines[..i]) == Ok(Metrics(fileCount, tokenCount))
    {
      var line := lines[i];
      ghost var m := Metrics(fileCount, tokenCount);
      ParseLinesSnoc(dialect, lines, i, m);
      if Contains(line, FilesLabel) {
        var v := ParseInt(Strip(Field(line)));
        if v.Some? {
          fileCount := v.value;
        }
        assert LineStep(dialect, m, line) == Ok(Metrics(fileCount, tokenCount));
      } else if Contains(line, TokensLabel) {
        var u := TokenUpdate(dialect, Field(line));
        if u.Overflow? {
          ParseLinesErrSticky(dialect, lines, i + 1);
          assert lines[..|lines|] == lines;
          return Err("OverflowError");
        }
        if u.SetTo? {
          tokenCount := u.value;
        }
        assert LineStep(dialect, m, line) == Ok(Metrics(fileCount, tokenCount));
      }
      i := i + 1;
    }
    assert lines[..|lines|] == lines;
    return Ok(Metrics(fileCount, tokenCount));
  }

  /** One more line extends the fold by one step. */
  lemma ParseLinesSnoc(dialect: Dialect, lines: seq<string>, i: nat, m: Metrics)
    requires i < |lines| && ParseLines(dialect, lines[..i]) == Ok(m)
    ensures ParseLines(dialect, lines[..i + 1]) == LineStep(dialect, m, lines[i])
  {
    assert lines[..i + 1][..i] == lines[..i];
  }

  /** Once the escaping error happens, later lines are not read. */
  lemma {:induction false} ParseLinesErrSticky(dialect: Dialect, lines: seq<string>, i: nat)
    requires i <= |lines| && ParseLines(dialect, lines[..i]).Err?
    ensures ParseLines(dialect, lines) == Err("OverflowError")
    decreases |lines| - i
  {
    if i == |lines| {
      assert lines[..i] == lines;
      OnlyOverflowErrs(dialect, lines);
    } else {
      assert lines[..i + 1][..i] == lines[..i];
      ParseLinesErrSticky(dialect, lines, i + 1);
    }
  }

  lemma {:induction false} OnlyOverflowErrs(dialect: Dialect, lines: seq<string>)
    ensures ParseLines(dialect, lines).Err? ==> ParseLines(dialect, lines) == Err("OverflowError")
  {
    if lines != [] {
      OnlyOverflowErrs(dialect, lines[..|lines| - 1]);
    }
  }

  // ---------------------------------------------------------------------
  // The parser with every conversion error caught
  // ---------------------------------------------------------------------

  /** One line, with the escaping OverflowError treated like the caught errors:
      the counter keeps its value. */
  function LineStepCaught(dialect: Dialect, m: Metrics, line: string): Metrics
  {
    match LineStep(dialect, m, line)
    case Ok(m') => m'
    case Err(_) => m
  }

  /** The parser as its error handling evidently intends: it never raises. */
  function ParseLinesCaught(dialect: Dialect, lines: seq<string>): Metrics
  {
    if lines == [] then Metrics(0, 0)
    else LineStepCaught(dialect, ParseLinesCaught(dialect, lines[..|lines| - 1]), Last(lines))
  }

  /** The corrected parser agrees with the source wherever the source does not raise. */
  lemma {:induction false} CaughtAgrees(dialect: Dialect, lines: seq<string>)
    ensures ParseLines(dialect, lines).Ok? ==> ParseLines(dialect, lines).value == ParseLinesCaught(dialect, lines)
  {
    if lines != [] {
      CaughtAgrees(dialect, lines[..|lines| - 1]);
    }
  }

  /** The line sets the file count: it carries the label and its field reads as an int. */
  predicate ReadsFileCount(line: string)
  {
    Contains(line, FilesLabel) && ParseInt(Strip(Field(line))).Some?
  }

  /** The line sets the token count: it carries only the token label and its field converts. */
  predicate ReadsTokenCount(dialect: Dialect, line: string)
  {
    !Contains(line, FilesLabel) && Contains(line, TokensLabel) && TokenUpdate(dialect, Field(line)).SetTo?
  }

  lemma StepEffect(dialect: Dialect, m: Metrics, line: string)
    ensures var m' := LineStepCaught(dialect, m, line);
      && (ReadsFileCount(line) ==> m'.fileCount == ParseInt(Strip(Field(line))).value)
      && (!ReadsFileCount(line) ==> m'.fileCount == m.fileCount)
      && (ReadsTokenCount(dialect, line) ==> m'.tokenCount == TokenUpdate(dialect, Field(line)).value)
      && (!ReadsTokenCount(dialect, line) ==> m'.tokenCount == m.tokenCount)
  {
  }

  /** The file count is the value of the last line that reads as one. */
  lemma {:induction false} FileCountIsLastReadable(dialect: Dialect, lines: seq<string>, j: int)
    requires 0 <= j < |lines| && ReadsFileCount(lines[j])
    requires forall k :: j < k < |lines| ==> !ReadsFileCount(lines[k])
    ensures ParseLinesCaught(dialect, lines).fileCount == ParseInt(Strip(Field(lines[j]))).value
  {
    var init := lines[..|lines| - 1];
    StepEffect(dialect, ParseLinesCaught(dialect, init), Last(lines));
    if j < |lines| - 1 {
      FileCountIsLastReadable(dialect, init, j);
    }
  }

  /** Without a readable "Files analyzed:" line the file count stays 0. */
  lemma {:induction false} FileCountDefault(dialect: Dialect, lines: seq<string>)
    requires forall k :: 0 <= k < |lines| ==> !ReadsFileCount(lines[k])
    ensures ParseLinesCaught(dialect, lines).fileCount == 0
  {
    if lines != [] {
      var init := lines[..|lines| - 1];
      StepEffect(dialect, ParseLinesCaught(dialect, init), Last(lines));
      FileCountDefault(dialect, init);
    }
  }

  /** The token count is the value of the last line that reads as one. */
  lemma {:induction false} TokenCountIsLastReadable(dialect: Dialect, lines: seq<string>, j: int)
    requires 0 <= j < |lines| && ReadsTokenCount(dialect, lines[j])
    requires forall k :: j < k < |lines| ==> !ReadsTokenCount(dialect, lines[k])
    ensures ParseLinesCaught(dialect, lines).tokenCount == TokenUpdate(dialect, Field(lines[j])).value
  {
    var init := lines[..|lines| - 1];
    StepEffect(dialect, ParseLinesCaught(dialect, init), Last(lines));
    if j < |lines| - 1 {
      TokenCountIsLastReadable(dialect, init, j);
    }
  }

  /** Without a readable "Estimated tokens:" line the token count stays 0. */
  lemma {:induction false} TokenCountDefault(dialect: Dialect, lines: seq<string>)
    requires forall k :: 0 <= k < |lines| ==> !ReadsTokenCount(dialect, lines[k])
    ensures ParseLinesCaught(dialect, lines).tokenCount == 0
  {
    if lines != [] {
      var init := lines[..|lines| - 1];
      StepEffect(dialect, ParseLinesCaught(dialect, init), Last(lines));
      TokenCountDefault(dialect, init);
    }
  }

  /** A summary with neither label parses to (0, 0), and the source does not raise on it. */
  lemma {:induction false} NoLabels(dialect: Dialect, lines: seq<string>)
    requires forall k :: 0 <= k < |lines| ==> !Contains(lines[k], FilesLabel) && !Contains(lines[k], TokensLabel)
    ensures ParseLines(dialect, lines) == Ok(Metrics(0, 0))
  {
    if lines != [] {
      NoLabels(dialect, lines[..|lines| - 1]);
    }
  }

  // ---------------------------------------------------------------------
  // Lines as gitingest writes them
  // ---------------------------------------------------------------------

  /** Digits and decimal points only. */
  predicate NumberChars(s: string)
  {
    forall i :: 0 <= i < |s| ==> IsDigit(s[i]) || s[i] == '.'
  }

  lemma DecimalNumberChars(w: string, f: string)
    requires AllDigits(w) && AllDigits(f)
    ensures NumberChars(w + "." + f)
  {
    var s := w + "." + f;
    forall i | 0 <= i < |s| ensures IsDigit(s[i]) || s[i] == '.' {
      if i < |w| { assert s[i] == w[i]; } else if i > |w| { assert s[i] == f[i - |w| - 1]; }
    }
  }

  lemma NumberCharsFacts(s: string)
    requires NumberChars(s)
    ensures forall i :: 0 <= i < |s| ==> !IsSpace(s[i])
    ensures ':' !in s && 'F' !in s && 'k' !in s && 'm' !in s && 'M' !in s
    ensures IsLower(s)
  {
  }

  /** The field of `label:rest` is `rest` when neither holds another colon. */
  lemma FieldAfterLabel(title: string, rest: string)
    requires ':' !in title && ':' !in rest
    ensures Field(title + ":" + rest) == rest
  {
    SplitAt(title, ':', rest);
    SplitNone(rest, ':');
  }

  /** A padded numeral reads as its value, up to the interpreter's digit limit. */
  lemma ParsePaddedNat(n: nat)
    ensures ParseInt(Strip(" " + NatToString(n))) == if |NatToString(n)| <= MaxStrDigits then Some(n) else None
  {
    var digits := NatToString(n);
    assert NumberChars(digits);
    NumberCharsFacts(digits);
    StripLeadingSpace(digits);
    ParseIntOfNat(n);
  }

  lemma FilesLineShape(rest: string)
    requires ':' !in rest
    ensures Contains(FilesLabel + rest, FilesLabel)
    ensures Field(FilesLabel + rest) == rest
  {
    ContainsMiddle("", FilesLabel, rest);
    assert "" + FilesLabel + rest == FilesLabel + rest;
    FieldAfterLabel("Files analyzed", rest);
  }

  /** `Files analyzed: n` sets the file count to `n`; a numeral longer than the
      digit limit is a caught ValueError and leaves it. */
  lemma FilesLine(dialect: Dialect, m: Metrics, n: nat)
    ensures LineStep(dialect, m, FilesLabel + " " + NatToString(n)) ==
      Ok(if |NatToString(n)| <= MaxStrDigits then m.(fileCount := n) else m)
  {
    var digits := NatToString(n);
    assert NumberChars(digits);
    NumberCharsFacts(digits);
    assert FilesLabel + " " + digits == FilesLabel + (" " + digits);
    FilesLineShape(" " + digits);
    ParsePaddedNat(n);
  }

  /** A token line: the file label is absent, so the token field decides. */
  lemma TokenLine(dialect: Dialect, m: Metrics, rest: string)
    requires ':' !in rest && 'F' !in rest
    ensures LineStep(dialect, m, TokensLabel + rest) ==
      var u := TokenUpdate(dialect, rest);
      if u.Overflow? then Err("OverflowError") else Ok(m.(tokenCount := Apply(u, m.tokenCount)))
  {
    var line := TokensLabel + rest;
    assert 'F' !in TokensLabel;
    NotContainsMissingChar(line, FilesLabel, 0);
    ContainsMiddle("", TokensLabel, rest);
    assert "" + TokensLabel + rest == line;
    FieldAfterLabel("Estimated tokens", rest);
  }

  /** The letters `k`/`m` are removed from `x + [u]`, leaving the number. */
  lemma RemoveUnit(x: string, u: char)
    requires u !in x
    ensures RemoveChar(x + [u], u) == x
  {
    RemoveCharAppend(x, [u], u);
    RemoveCharAbsent(x, u);
    assert RemoveChar([u], u) == [];
  }

  /** `w.f` scaled by `10^k` and truncated is the floor of the exact product, and
      an OverflowError when that product is beyond the range of doubles. */
  lemma ScaledDecimal(w: string, f: string, k: nat)
    requires |w| > 0 && AllDigits(w) && AllDigits(f)
    ensures AllDigits(w + f)
    ensures ScaledValue(w + "." + f, k) == DecimalUpdate(DigitsValue(w + f), |f|, k)
  {
    ParseFloatDecimal(w, f);
    ScaledParsed(w + "." + f, k, DigitsValue(w + f), |f|);
  }


  /** What reading the exact decimal `d × 10^-f` scaled by `10^k` does to a counter:
      set it to the floor of the product, or raise the OverflowError when the product
      is beyond the range of doubles. */
  function DecimalUpdate(d: nat, f: nat, k: nat): Update
  {
    if Overflows(d, k - f) then Overflow else SetTo(d * Pow10(k) / Pow10(f))
  }

  /** A text that reads as the decimal `d * 10^-f` (infinite when that is beyond the
      range of doubles) scales to the floor of `d * 10^(k-f)`, or overflows. */
  lemma ScaledParsed(x: string, k: nat, d: nat, f: nat)
    requires ParseFloat(x) == Some(if Overflows(d, 0 - f) then Infinity(false) else Finite(d, 0 - f))
    ensures ScaledValue(x, k) == DecimalUpdate(d, f, k)
  {
    ScaleDecimal(d, f, k);
  }

  /** A field that strips to `x` followed by a unit letter, `x` being a number. */
  lemma StripUnit(x: string, u: char)
    requires NumberChars(x) && !IsSpace(u)
    ensures Strip(" " + (x + [u])) == x + [u]
  {
    NumberCharsFacts(x);
    var t := x + [u];
    assert forall i :: 0 <= i < |t| ==> !IsSpace(t[i]) by {
      forall i | 0 <= i < |t| ensures !IsSpace(t[i]) { if i < |x| { assert t[i] == x[i]; } }
    }
    StripLeadingSpace(t);
  }

  /** The normalised text of ` x<u>`: Current lower-cases the unit letter. */
  lemma TokenTextUnit(dialect: Dialect, x: string, u: char)
    requires NumberChars(x) && !IsSpace(u)
    ensures TokenText(dialect, " " + (x + [u])) == x + [if dialect == Current then LowerChar(u) else u]
  {
    NumberCharsFacts(x);
    StripUnit(x, u);
    if dialect == Current {
      LowerAppend(x, [u]);
      LowerOfLower(x);
    }
  }

  /** A number followed by `k` is scaled by 1000. */
  lemma ReadThousands(dialect: Dialect, x: string)
    requires 'k' !in x
    ensures ReadToken(dialect, x + "k") == ScaledValue(x, 3)
  {
    assert (x + "k")[|x|] == 'k';
    RemoveUnit(x, 'k');
  }

  /** A number followed by the dialect's mega letter is scaled by 10^6. */
  lemma ReadMillions(dialect: Dialect, x: string)
    requires NumberChars(x)
    ensures var mega := if dialect == Current then 'm' else 'M';
      ReadToken(dialect, x + [mega]) == ScaledValue(x, 6)
  {
    var mega := if dialect == Current then 'm' else 'M';
    NumberCharsFacts(x);
    assert (x + [mega])[|x|] == mega;
    assert 'k' !in x + [mega];
    RemoveUnit(x, mega);
  }

  /** `w.fk` is the decimal `w.f` times 1000, truncated (or the escaping error), in both dialects. */
  lemma TokenThousands(dialect: Dialect, w: string, f: string)
    requires |w| > 0 && AllDigits(w) && AllDigits(f)
    ensures AllDigits(w + f)
    ensures TokenUpdate(dialect, " " + (w + "." + f + "k")) == DecimalUpdate(DigitsValue(w + f), |f|, 3)
  {
    DecimalNumberChars(w, f);
    ThousandsField(dialect, w + "." + f);
    ScaledDecimal(w, f, 3);
  }

  /** A number followed by `k` is read as that number scaled by 1000. */
  lemma ThousandsField(dialect: Dialect, x: string)
    requires NumberChars(x)
    ensures TokenUpdate(dialect, " " + (x + "k")) == ScaledValue(x, 3)
  {
    NumberCharsFacts(x);
    TokenTextUnit(dialect, x, 'k');
    assert TokenText(dialect, " " + (x + "k")) == x + "k";
    ReadThousands(dialect, x);
  }

  /** `w.f` followed by a mega letter the dialect recognises is the decimal times 10^6,
      truncated (or the escaping error). */
  lemma TokenMillions(dialect: Dialect, w: string, f: string, unit: char)
    requires |w| > 0 && AllDigits(w) && AllDigits(f)
    requires unit == 'M' || (dialect == Current && unit == 'm')
    ensures AllDigits(w + f)
    ensures TokenUpdate(dialect, " " + (w + "." + f + [unit])) == DecimalUpdate(DigitsValue(w + f), |f|, 6)
  {
    DecimalNumberChars(w, f);
    MillionsField(dialect, w + "." + f, unit);
    ScaledDecimal(w, f, 6);
  }

  /** A number followed by a mega letter the dialect recognises is read as that number
      scaled by 10^6. */
  lemma MillionsField(dialect: Dialect, x: string, unit: char)
    requires NumberChars(x)
    requires unit == 'M' || (dialect == Current && unit == 'm')
    ensures TokenUpdate(dialect, " " + (x + [unit])) == ScaledValue(x, 6)
  {
    var mega := if dialect == Current then 'm' else 'M';
    TokenTextUnit(dialect, x, unit);
    assert TokenText(dialect, " " + (x + [unit])) == x + [mega];
    ReadMillions(dialect, x);
  }

  /** A plain integer is taken as it is, in both dialects, up to the digit limit. */
  lemma TokenPlain(dialect: Dialect, n: nat)
    ensures TokenUpdate(dialect, " " + NatToString(n)) ==
      if |NatToString(n)| <= MaxStrDigits then SetTo(n) else Keep
  {
    var t := NatToString(n);
    assert NumberChars(t);
    NumberCharsFacts(t);
    PlainText(dialect, t);
    ReadNumber(dialect, t);
    ParseIntOfNat(n);
  }

  /** Without a unit letter the token text is read by `int`. */
  lemma ReadNumber(dialect: Dialect, t: string)
    requires NumberChars(t)
    ensures ReadToken(dialect, t) == if ParseInt(t).Some? then SetTo(ParseInt(t).value) else Keep
  {
    NumberCharsFacts(t);
  }


  /** The Legacy dialect does not recognise a lower-case `m`: the count is left as it was. */
  lemma LegacyIgnoresLowerM(w: string, f: string)
    requires |w| > 0 && AllDigits(w) && AllDigits(f)
    ensures TokenUpdate(Legacy, " " + (w + "." + f + "m")) == Keep
  {
    var x := w + "." + f;
    DecimalNumberChars(w, f);
    TokenTextUnit(Legacy, x, 'm');
    LegacyLowerM(x);
  }

  /** Legacy hands `xm` to `int`, which rejects the letter. */
  lemma LegacyLowerM(x: string)
    requires NumberChars(x)
    ensures ReadToken(Legacy, x + "m") == Keep
  {
    NumberCharsFacts(x);
    assert (x + "m")[|x|] == 'm';
    assert 'k' !in x + "m" && 'M' !in x + "m";
    ParseIntRejects(x + "m", 'm');
  }


  /** Current reads a field the same way as its lower-case form: `1.2M` and `1.2m` agree. */
  lemma CurrentIgnoresCase(field: string)
    ensures TokenUpdate(Current, field) == TokenUpdate(Current, Lower(field))
  {
    StripLowerCommute(field);
    LowerIsLower(Strip(field));
    assert TokenText(Current, field) == TokenText(Current, Lower(field));
  }

  /** A token line whose value overflows makes the whole parse raise. */
  lemma OverflowLineRaises(dialect: Dialect, rest: string)
    requires ':' !in rest && 'F' !in rest && TokenUpdate(dialect, rest).Overflow?
    ensures ParseLines(dialect, [TokensLabel + rest]) == Err("OverflowError")
  {
    TokenLine(dialect, Metrics(0, 0), rest);
    assert [TokensLabel + rest][..0] == [];
  }

  /** An infinite value followed by `k` escapes the parser (as-written behaviour). */
  lemma InfinityEscapes(dialect: Dialect)
    ensures ParseLines(dialect, [TokensLabel + (" " + ("inf" + "k"))]) == Err("OverflowError")
  {
    InfinityLineRaises(dialect, "inf");
  }

  lemma InfinityLineRaises(dialect: Dialect, inf: string)
    requires inf == "inf"
    ensures ParseLines(dialect, [TokensLabel + (" " + (inf + "k"))]) == Err("OverflowError")
  {
    InfinityField(dialect, inf);
    OverflowLineRaises(dialect, " " + (inf + "k"));
  }

  /** The field ` infk` holds no separator and overflows. */
  lemma InfinityField(dialect: Dialect, inf: string)
    requires inf == "inf"
    ensures ':' !in " " + (inf + "k") && 'F' !in " " + (inf + "k")
    ensures TokenUpdate(dialect, " " + (inf + "k")) == Overflow
  {
    InfinityOverflows(dialect, inf);
    InfNoSeparators(inf);
  }

  lemma InfNoSeparators(inf: string)
    requires inf == "inf"
    ensures ':' !in " " + (inf + "k") && 'F' !in " " + (inf + "k")
  {
  }

  /** A field that is a space and a lower-case word is read as that word. */
  lemma PlainText(dialect: Dialect, x: string)
    requires forall i :: 0 <= i < |x| ==> !IsSpace(x[i])
    requires IsLower(x)
    ensures TokenText(dialect, " " + x) == x
  {
    StripLeadingSpace(x);
    LowerOfLower(x);
  }

  lemma InfText(dialect: Dialect, inf: string)
    requires inf == "inf"
    ensures TokenText(dialect, " " + (inf + "k")) == inf + "k"
  {
    PlainText(dialect, inf + "k");
  }

  lemma InfValue(inf: string)
    requires inf == "inf"
    ensures ParseFloat(inf) == Some(Infinity(false)) && 'k' !in inf
  {
    assert PlainNumeral(inf);
    PlainNumeralKept(inf);
    LowerOfLower(inf);
  }

  /** A `k` value that reads as an infinite float overflows. */
  lemma InfiniteThousands(dialect: Dialect, field: string, x: string)
    requires TokenText(dialect, field) == x + "k" && 'k' !in x
    requires ParseFloat(x).Some? && ParseFloat(x).value.Infinity?
    ensures TokenUpdate(dialect, field) == Overflow
  {
    ReadThousands(dialect, x);
  }

  lemma InfinityOverflows(dialect: Dialect, inf: string)
    requires inf == "inf"
    ensures TokenUpdate(dialect, " " + (inf + "k")) == Overflow
  {
    InfText(dialect, inf);
    InfValue(inf);
    InfiniteThousands(dialect, " " + (inf + "k"), inf);
  }

  /** A finite `w.fk` whose value in thousands is beyond the range of doubles escapes
      the parser too: `2e306k` is not the only way to reach the uncaught error. */
  lemma FiniteOverflowEscapes(dialect: Dialect, w: string, f: string)
    requires |w| > 0 && AllDigits(w) && AllDigits(f)
    requires AllDigits(w + f) && Overflows(DigitsValue(w + f), 3 - |f|)
    ensures ParseLines(dialect, [TokensLabel + (" " + (w + "." + f + "k"))]) == Err("OverflowError")
  {
    var x := w + "." + f;
    DecimalNumberChars(w, f);
    NumberCharsFacts(x);
    TokenThousands(dialect, w, f);
    assert ':' !in " " + (x + "k") && 'F' !in " " + (x + "k");
    OverflowLineRaises(dialect, " " + (x + "k"));
  }

  /** With every error caught, the same line leaves the token count at 0. */
  lemma InfinityCaught(dialect: Dialect)
    ensures ParseLinesCaught(dialect, [TokensLabel + (" " + ("inf" + "k"))]) == Metrics(0, 0)
  {
    InfinityEscapes(dialect);
    assert [TokensLabel + (" " + ("inf" + "k"))][..0] == [];
  }

  /** The corrected parser also keeps the count when a finite value's scaled
      product is beyond the range of doubles. */
  lemma FiniteOverflowCaught(dialect: Dialect, w: string, f: string)
    requires |w| > 0 && AllDigits(w) && AllDigits(f)
    requires AllDigits(w + f) && Overflows(DigitsValue(w + f), 3 - |f|)
    ensures ParseLinesCaught(dialect, [TokensLabel + (" " + (w + "." + f + "k"))]) == Metrics(0, 0)
  {
    FiniteOverflowEscapes(dialect, w, f);
    assert [TokensLabel + (" " + (w + "." + f + "k"))][..0] == [];
  }
}

=== FILE: text.dfy ===
/**
  String helpers with the meaning of the Python and Rust string operations the
  system relies on: `split`, `join`, `rstrip`, `strip`, `lower`, `replace`,
  `in`, and the UTF-8 encoding used to size reports.
  Characters are Unicode scalar values; lower-casing is ASCII-only.
 */
module Text {

  /** `p` is a prefix of `s` (Python `s.startswith(p)`). */
  predicate IsPrefix(p: string, s: string)
  {
    |p| <= |s| && s[..|p|] == p
  }

  /** `p` is a suffix of `s` (Python `s.endswith(p)`). */
  predicate IsSuffix(p: string, s: string)
  {
    |p| <= |s| && s[|s| - |p|..] == p
  }

  /** `sub` occurs in `s` starting at index `i`. */
  predicate OccursAt(s: string, sub: string, i: int)
  {
    0 <= i && i + |sub| <= |s| && s[i..i + |sub|] == sub
  }

  /** Python's substring test `sub in s`. */
  predicate Contains(s: string, sub: string)
  {
    exists i {:trigger OccursAt(s, sub, i)} :: 0 <= i <= |s| && OccursAt(s, sub, i)
  }

  lemma ContainsMiddle(a: string, sub: string, b: string)
    ensures Contains(a + sub + b, sub)
  {
    assert OccursAt(a + sub + b, sub, |a|);
  }

  lemma ContainsAppend(a: string, b: string, sub: string)
    requires Contains(a, sub)
    ensures Contains(a + b, sub) && Contains(b + a, sub)
  {
    var i :| 0 <= i <= |a| && OccursAt(a, sub, i);
    assert (a + b)[i..i + |sub|] == a[i..i + |sub|];
    assert OccursAt(a + b, sub, i);
    assert (b + a)[|b| + i..|b| + i + |sub|] == a[i..i + |sub|];
    assert OccursAt(b + a, sub, |b| + i);
  }

  /** A string lacking one of the characters of `sub` cannot contain `sub`. */
  lemma NotContainsMissingChar(s: string, sub: string, k: int)
    requires 0 <= k < |sub| && sub[k] !in s
    ensures !Contains(s, sub)
  {
    forall i | 0 <= i <= |s|
      ensures !OccursAt(s, sub, i)
    {
      if i + |sub| <= |s| {
        assert s[i..i + |sub|][k] == s[i + k] && s[i + k] in s;
      }
    }
  }

  lemma ContainsChar(s: string, c: char)
    ensures Contains(s, [c]) <==> c in s
  {
    if c in s {
      var i :| 0 <= i < |s| && s[i] == c;
      assert OccursAt(s, [c], i);
    }
    if Contains(s, [c]) {
      var i :| 0 <= i <= |s| && OccursAt(s, [c], i);
      assert s[i] == c;
    }
  }

  /** Regrouping an append, stated once so that proofs about accumulated sequences need
      not rediscover it element by element. */
  lemma AppendAssoc<T>(a: seq<T>, b: seq<T>, c: seq<T>)
    ensures (a + b) + c == a + (b + c)
  {
  }

  /** The last element of a non-empty sequence (Python `xs[-1]`). */
  function Last<T>(xs: seq<T>): T
    requires |xs| > 0
  {
    xs[|xs| - 1]
  }

  /** The first index of `x` in `xs` (Python `list.index`). */
  function IndexOf<T(==)>(xs: seq<T>, x: T): (i: nat)
    requires x in xs
    ensures i < |xs| && xs[i] == x && x !in xs[..i]
  {
    if xs[0] == x then 0
    else
      var j := IndexOf(xs[1..], x);
      assert xs[1..][..j] == xs[1..j + 1];
      1 + j
  }

  /** An occurrence with none before it is the one `IndexOf` finds. */
  lemma {:induction false} IndexOfFirst<T>(xs: seq<T>, x: T, j: nat)
    requires j < |xs| && xs[j] == x && x !in xs[..j]
    ensures x in xs && IndexOf(xs, x) == j
  {
    if j > 0 {
      assert xs[0] in xs[..j];
      assert xs[1..][..j - 1] == xs[1..j];
      assert forall y <- xs[1..j] :: y in xs[..j];
      IndexOfFirst(xs[1..], x, j - 1);
    }
  }

  /** Python `s.split(sep)` for a one-character separator: never empty. */
  function Split(s: string, sep: char): (parts: seq<string>)
    ensures |parts| >= 1
    ensures forall p <- parts :: sep !in p
  {
    if s == [] then [""]
    else
      var rest := Split(s[1..], sep);
      if s[0] == sep then [""] + rest
      else [[s[0]] + rest[0]] + rest[1..]
  }

  /** Python `sep.join(parts)`. */
  function Join(parts: seq<string>, sep: string): string
  {
    if |parts| == 0 then ""
    else if |parts| == 1 then parts[0]
    else parts[0] + sep + Join(parts[1..], sep)
  }

  /** `f` applied to each element, in order. */
  function Map<A, B>(xs: seq<A>, f: A -> B): (ys: seq<B>)
    ensures |ys| == |xs|
    ensures forall i :: 0 <= i < |xs| ==> ys[i] == f(xs[i])
  {
    seq(|xs|, i requires 0 <= i < |xs| => f(xs[i]))
  }

  /** The concatenation of all the strings in `parts`, in order. */
  function Concat(parts: seq<string>): string
  {
    if parts == [] then "" else parts[0] + Concat(parts[1..])
  }

  lemma {:induction false} SplitNone(a: string, sep: char)
    requires sep !in a
    ensures Split(a, sep) == [a]
  {
    if a != [] {
      SplitNone(a[1..], sep);
      assert [a[0]] + a[1..] == a;
    }
  }

  lemma {:induction false} SplitAt(a: string, sep: char, b: string)
    requires sep !in a
    ensures Split(a + [sep] + b, sep) == [a] + Split(b, sep)
  {
    var s := a + [sep] + b;
    if a == [] {
      assert s[0] == sep && s[1..] == b;
    } else {
      assert s[0] == a[0] && s[1..] == a[1..] + [sep] + b;
      SplitAt(a[1..], sep, b);
      assert [a[0]] + a[1..] == a;
    }
  }

  /** Splitting a join recovers the pieces when no piece holds the separator. */
  lemma {:induction false} JoinSplit(xs: seq<string>, sep: char)
    requires |xs| >= 1
    requires forall x <- xs :: sep !in x
    ensures Split(Join(xs, [sep]), sep) == xs
  {
    if |xs| == 1 {
      SplitNone(xs[0], sep);
    } else {
      JoinSplit(xs[1..], sep);
      SplitAt(xs[0], sep, Join(xs[1..], [sep]));
      assert [xs[0]] + xs[1..] == xs;
    }
  }

  /** Joining the pieces of a split gives back the string. */
  lemma {:induction false} SplitJoin(s: string, sep: char)
    ensures Join(Split(s, sep), [sep]) == s
  {
    if s != [] {
      var rest := Split(s[1..], sep);
      SplitJoin(s[1..], sep);
      assert [s[0]] + s[1..] == s;
      if s[0] != sep && |rest| > 1 {
        assert ([[s[0]] + rest[0]] + rest[1..])[1..] == rest[1..];
      }
    }
  }

  /** There is one more piece than there are separators. */
  lemma {:induction false} SplitLength(s: string, sep: char)
    ensures |Split(s, sep)| == multiset(s)[sep] + 1
  {
    if s != [] {
      SplitLength(s[1..], sep);
      assert s == [s[0]] + s[1..];
      assert multiset(s) == multiset([s[0]]) + multiset(s[1..]);
    }
  }

  /** `l` is the text of `s` after its last `sep` (all of `s` when there is none). */
  predicate AfterLast(l: string, s: string, sep: char)
  {
    IsSuffix(l, s) && (|l| == |s| || s[|s| - |l| - 1] == sep)
  }

  lemma AfterLastCons(c: char, t: string, l: string, sep: char)
    requires AfterLast(l, t, sep)
    requires |l| < |t| || c == sep
    ensures AfterLast(l, [c] + t, sep)
  {
    var s := [c] + t;
    assert s[|s| - |l|..] == t[|t| - |l|..];
    if |l| < |t| {
      assert s[|s| - |l| - 1] == t[|t| - |l| - 1];
    }
  }

  /** The last piece of a split is the text after the last separator. */
  lemma {:induction false} SplitLast(s: string, sep: char)
    ensures AfterLast(Last(Split(s, sep)), s, sep)
    decreases |s|, 0
  {
    if s != [] {
      var rest := Split(s[1..], sep);
      SplitLast(s[1..], sep);
      assert [s[0]] + s[1..] == s;
      if s[0] == sep {
        assert Last(Split(s, sep)) == Last(rest);
        AfterLastCons(s[0], s[1..], Last(rest), sep);
      } else if |rest| == 1 {
        SplitJoin(s[1..], sep);
        assert Last(Split(s, sep)) == [s[0]] + rest[0] == s;
      } else {
        assert Last(Split(s, sep)) == Last(rest);
        SplitSeveral(s[1..], sep);
        AfterLastCons(s[0], s[1..], Last(rest), sep);
      }
    }
  }

  /** With more than one piece, the last one is shorter than the string. */
  lemma SplitSeveral(s: string, sep: char)
    requires |Split(s, sep)| > 1
    ensures |Last(Split(s, sep))| < |s|
    decreases |s|, 1
  {
    SplitLength(s, sep);
    assert sep in multiset(s);
    var l := Last(Split(s, sep));
    SplitLast(s, sep);
    assert sep in s && sep !in l;
  }

  /** A character in neither the pieces nor the separator is not in the join. */
  lemma {:induction false} JoinAvoids(xs: seq<string>, sep: string, c: char)
    requires c !in sep
    requires forall x <- xs :: c !in x
    ensures c !in Join(xs, sep)
  {
    if |xs| > 1 {
      JoinAvoids(xs[1..], sep, c);
    }
  }

  lemma {:induction false} JoinSnoc(xs: seq<string>, y: string, sep: string)
    requires |xs| >= 1
    ensures Join(xs + [y], sep) == Join(xs, sep) + sep + y
  {
    if |xs| == 1 {
      assert (xs + [y])[1..] == [y];
    } else {
      assert (xs + [y])[1..] == xs[1..] + [y];
      JoinSnoc(xs[1..], y, sep);
    }
  }

  /** A join is empty only if every piece and, between pieces, the separator is. */
  lemma {:induction false} JoinNonEmpty(xs: seq<string>, sep: string, k: int)
    requires 0 <= k < |xs| && xs[k] != ""
    ensures Join(xs, sep) != ""
  {
    if |xs| > 1 && k > 0 {
      JoinNonEmpty(xs[1..], sep, k - 1);
    }
  }

  lemma {:induction false} JoinPrefix(xs: seq<string>, sep: string)
    requires |xs| >= 1
    ensures IsPrefix(xs[0], Join(xs, sep))
  {
    if |xs| > 1 {
      assert (xs[0] + sep + Join(xs[1..], sep))[..|xs[0]|] == xs[0];
    }
  }

  lemma {:induction false} ConcatAppend(xs: seq<string>, ys: seq<string>)
    ensures Concat(xs + ys) == Concat(xs) + Concat(ys)
  {
    if xs == [] {
      assert xs + ys == ys;
    } else {
      assert (xs + ys)[0] == xs[0];
      assert (xs + ys)[1..] == xs[1..] + ys;
      ConcatAppend(xs[1..], ys);
    }
  }

  /** Python `s.rstrip(c)` for a single character. */
  function RStripChar(s: string, c: char): (r: string)
    ensures IsPrefix(r, s)
    ensures r == [] || r[|r| - 1] != c
    ensures forall i :: |r| <= i < |s| ==> s[i] == c
  {
    if |s| > 0 && s[|s| - 1] == c then
      var r := RStripChar(s[..|s| - 1], c);
      assert s[..|s| - 1][..|r|] == s[..|r|];
      assert forall i :: |r| <= i < |s| - 1 ==> s[..|s| - 1][i] == s[i];
      r
    else s
  }

  /** Python's `str.isspace` for one character. */
  predicate IsSpace(ch: char)
  {
    var k := ch as int;
    k == 0x20 || 0x09 <= k <= 0x0D || 0x1C <= k <= 0x1F || k == 0x85 || k == 0xA0
    || k == 0x1680 || 0x2000 <= k <= 0x200A || k == 0x2028 || k == 0x2029
    || k == 0x202F || k == 0x205F || k == 0x3000
  }

  function TrimStart(s: string): (r: string)
    ensures IsSuffix(r, s)
    ensures r == [] || !IsSpace(r[0])
    ensures forall i :: 0 <= i < |s| - |r| ==> IsSpace(s[i])
  {
    if |s| > 0 && IsSpace(s[0]) then
      var r := TrimStart(s[1..]);
      assert s[1..][|s| - 1 - |r|..] == s[|s| - |r|..];
      assert forall i :: 1 <= i < |s| - |r| ==> s[1..][i - 1] == s[i];
      r
    else s
  }

  function TrimEnd(s: string): (r: string)
    ensures IsPrefix(r, s)
    ensures r == [] || !IsSpace(r[|r| - 1])
    ensures forall i :: |r| <= i < |s| ==> IsSpace(s[i])
  {
    if |s| > 0 && IsSpace(s[|s| - 1]) then
      var r := TrimEnd(s[..|s| - 1]);
      assert s[..|s| - 1][..|r|] == s[..|r|];
      assert forall i :: |r| <= i < |s| - 1 ==> s[..|s| - 1][i] == s[i];
      r
    else s
  }

  /** Python `s.strip()`: leading and trailing whitespace removed. */
  function Strip(s: string): string
  {
    TrimEnd(TrimStart(s))
  }

  /** Stripping only removes whitespace: every other character survives. */
  lemma StripKeeps(s: string, c: char)
    requires c in s && !IsSpace(c)
    ensures c in Strip(s)
  {
    var i :| 0 <= i < |s| && s[i] == c;
    var t := TrimStart(s);
    assert t[i - (|s| - |t|)] == c;
    var u := TrimEnd(t);
    assert u[i - (|s| - |t|)] == c;
  }

  lemma StripSpaceFree(s: string)
    requires forall i :: 0 <= i < |s| ==> !IsSpace(s[i])
    ensures Strip(s) == s
  {
  }

  lemma StripLeadingSpace(s: string)
    requires forall i :: 0 <= i < |s| ==> !IsSpace(s[i])
    ensures Strip(" " + s) == s
  {
    assert (" " + s)[0] == ' ' && IsSpace(' ');
    assert (" " + s)[1..] == s;
    assert TrimStart(" " + s) == TrimStart(s) == s;
    StripSpaceFree(s);
  }

  function LowerChar(ch: char): char
  {
    if 'A' <= ch <= 'Z' then (ch as int + 32) as char else ch
  }

  /** Python `s.lower()` / Rust `to_lowercase()`, for ASCII letters. */
  function Lower(s: string): (r: string)
    ensures |r| == |s|
    ensures forall i :: 0 <= i < |s| ==> r[i] == LowerChar(s[i])
  {
    if s == [] then [] else [LowerChar(s[0])] + Lower(s[1..])
  }

  /** `s` holds no upper-case ASCII letter. */
  predicate IsLower(s: string)
  {
    forall i :: 0 <= i < |s| ==> !('A' <= s[i] <= 'Z')
  }

  lemma LowerIsLower(s: string)
    ensures IsLower(Lower(s)) && Lower(Lower(s)) == Lower(s)
  {
  }

  lemma LowerOfLower(s: string)
    requires IsLower(s)
    ensures Lower(s) == s
  {
  }

  lemma {:induction false} TrimLowerCommute(s: string)
    ensures TrimStart(Lower(s)) == Lower(TrimStart(s))
    ensures TrimEnd(Lower(s)) == Lower(TrimEnd(s))
  {
    if s != [] {
      assert IsSpace(Lower(s)[0]) == IsSpace(s[0]);
      assert IsSpace(Lower(s)[|s| - 1]) == IsSpace(s[|s| - 1]);
      assert Lower(s)[1..] == Lower(s[1..]);
      assert Lower(s)[..|s| - 1] == Lower(s[..|s| - 1]);
      TrimLowerCommute(s[1..]);
      TrimLowerCommute(s[..|s| - 1]);
    }
  }

  /** Whitespace is not a letter: stripping and lower-casing commute. */
  lemma StripLowerCommute(s: string)
    ensures Strip(Lower(s)) == Lower(Strip(s))
  {
    TrimLowerCommute(s);
    TrimLowerCommute(TrimStart(s));
  }

  lemma LowerAppend(a: string, b: string)
    ensures Lower(a + b) == Lower(a) + Lower(b)
  {
  }

  /** Python `s.replace(c, "")` for a one-character pattern. */
  function RemoveChar(s: string, c: char): (r: string)
    ensures c !in r
    ensures |r| <= |s|
  {
    if s == [] then []
    else if s[0] == c then RemoveChar(s[1..], c)
    else [s[0]] + RemoveChar(s[1..], c)
  }

  lemma {:induction false} RemoveCharAppend(a: string, b: string, c: char)
    ensures RemoveChar(a + b, c) == RemoveChar(a, c) + RemoveChar(b, c)
  {
    if a == [] {
      assert a + b == b;
    } else {
      assert (a + b)[0] == a[0];
      assert (a + b)[1..] == a[1..] + b;
      RemoveCharAppend(a[1..], b, c);
      if a[0] != c {
        assert [a[0]] + (RemoveChar(a[1..], c) + RemoveChar(b, c))
          == ([a[0]] + RemoveChar(a[1..], c)) + RemoveChar(b, c);
      }
    }
  }

  lemma {:induction false} RemoveCharAbsent(s: string, c: char)
    requires c !in s
    ensures RemoveChar(s, c) == s
  {
    if s != [] {
      RemoveCharAbsent(s[1..], c);
      assert [s[0]] + s[1..] == s;
    }
  }

  /** Python `s.replace(pat, "")`: every non-overlapping occurrence, scanning left to right. */
  function RemoveAll(s: string, pat: string): (r: string)
    requires |pat| > 0
    ensures |r| <= |s|
    decreases |s|
  {
    if |s| < |pat| then s
    else if s[..|pat|] == pat then RemoveAll(s[|pat|..], pat)
    else [s[0]] + RemoveAll(s[1..], pat)
  }

  lemma {:induction false} RemoveAllAbsent(s: string, pat: string)
    requires |pat| > 0 && !Contains(s, pat)
    ensures RemoveAll(s, pat) == s
    decreases |s|
  {
    if |s| >= |pat| {
      assert !OccursAt(s, pat, 0);
      if !Contains(s[1..], pat) {
        RemoveAllAbsent(s[1..], pat);
        assert [s[0]] + s[1..] == s;
      } else {
        var i :| 0 <= i <= |s[1..]| && OccursAt(s[1..], pat, i);
        assert s[i + 1..i + 1 + |pat|] == s[1..][i..i + |pat|];
        assert OccursAt(s, pat, i + 1);
        assert false;
      }
    }
  }

  /** Python `s.replace(a, b)` for one-character `a` and `b`. */
  function ReplaceChar(s: string, a: char, b: char): (r: string)
    ensures |r| == |s|
    ensures forall i :: 0 <= i < |s| ==> r[i] == (if s[i] == a then b else s[i])
  {
    if s == [] then [] else [if s[0] == a then b else s[0]] + ReplaceChar(s[1..], a, b)
  }

  lemma {:induction false} ReplaceCharAbsent(s: string, a: char, b: char)
    requires a !in s
    ensures ReplaceChar(s, a, b) == s
  {
  }

  /** Replacing the separator of a join replaces the separator and nothing else. */
  lemma {:induction false} ReplaceJoin(xs: seq<string>, a: char, b: char)
    requires forall x <- xs :: a !in x
    ensures ReplaceChar(Join(xs, [a]), a, b) == Join(xs, [b])
  {
    if |xs| == 1 {
      ReplaceCharAbsent(xs[0], a, b);
    } else if |xs| > 1 {
      ReplaceJoin(xs[1..], a, b);
      ReplaceCharAppend(xs[0] + [a], Join(xs[1..], [a]), a, b);
      ReplaceCharAppend(xs[0], [a], a, b);
      ReplaceCharAbsent(xs[0], a, b);
    }
  }

  lemma ReplaceCharAppend(s: string, t: string, a: char, b: char)
    ensures ReplaceChar(s + t, a, b) == ReplaceChar(s, a, b) + ReplaceChar(t, a, b)
  {
    var r := ReplaceChar(s + t, a, b);
    assert r == ReplaceChar(s, a, b) + ReplaceChar(t, a, b) by {
      forall i | 0 <= i < |r| ensures r[i] == (ReplaceChar(s, a, b) + ReplaceChar(t, a, b))[i] {
        if i < |s| { assert (s + t)[i] == s[i]; } else { assert (s + t)[i] == t[i - |s|]; }
      }
    }
  }

  /** Python `c * n`. */
  function Repeat(c: char, n: nat): (r: string)
    ensures |r| == n && forall i :: 0 <= i < n ==> r[i] == c
  {
    seq(n, _ => c)
  }

  // ---------------------------------------------------------------------
  // UTF-8 (RFC 3629): Python's `s.encode("utf-8")` and its length.
  // ---------------------------------------------------------------------

  /** The UTF-8 bytes of one Unicode scalar value. */
  function EncodeChar(ch: char): (bytes: seq<int>)
    ensures 1 <= |bytes| <= 4
    ensures forall b <- bytes :: 0 <= b < 256
  {
    var cp := ch as int;
    if cp < 0x80 then [cp]
    else if cp < 0x800 then [0xC0 + cp / 64, 0x80 + cp % 64]
    else if cp < 0x10000 then [0xE0 + cp / 4096, 0x80 + (cp / 64) % 64, 0x80 + cp % 64]
    else [0xF0 + cp / 262144, 0x80 + (cp / 4096) % 64, 0x80 + (cp / 64) % 64, 0x80 + cp % 64]
  }

  /** Python `s.encode("utf-8")`, as byte values. */
  function Utf8Encode(s: string): seq<int>
  {
    if s == [] then [] else EncodeChar(s[0]) + Utf8Encode(s[1..])
  }

  /** The number of UTF-8 bytes one character needs, read off its code point. */
  function Utf8Width(ch: char): nat
  {
    var cp := ch as int;
    if cp < 0x80 then 1 else if cp < 0x800 then 2 else if cp < 0x10000 then 3 else 4
  }

  /** The UTF-8 length of `s`, as a sum of per-character widths. */
  function Utf8Length(s: string): nat
  {
    if s == [] then 0 else Utf8Width(s[0]) + Utf8Length(s[1..])
  }

  /** The encoder produces exactly the number of bytes the width table predicts. */
  lemma {:induction false} EncodeLength(s: string)
    ensures |Utf8Encode(s)| == Utf8Length(s)
    ensures |s| <= Utf8Length(s) <= 4 * |s|
  {
    if s != [] {
      EncodeLength(s[1..]);
    }
  }

  lemma {:induction false} Utf8Append(a: string, b: string)
    ensures Utf8Length(a + b) == Utf8Length(a) + Utf8Length(b)
  {
    if a == [] {
      assert a + b == b;
    } else {
      assert (a + b)[0] == a[0];
      assert (a + b)[1..] == a[1..] + b;
      Utf8Append(a[1..], b);
    }
  }

  /** ASCII text takes one byte per character. */
  lemma {:induction false} Utf8Ascii(s: string)
    requires forall i :: 0 <= i < |s| ==> s[i] as int < 0x80
    ensures Utf8Length(s) == |s|
  {
    if s != [] {
      Utf8Ascii(s[1..]);
    }
  }
}

=== FILE: to_txt.dfy ===
/**
  `azathoth.core.to_txt`: concatenating the files that a list of glob patterns
  matches under a root into one text, each file as a block with an optional
  header. Globbing and reading are the filesystem's: `glob` gives, for an
  accepted pattern, the matches in the order the filesystem yields them, and a
  match whose read raises carries no text.
 */
module ToTxt {
  import opened Wrappers
  import opened Text
  import opened Utils

  /** One glob match: its path relative to the root, its last component, what
      `is_file()` answers (None when it raises PermissionError, as it does for an
      entry whose `stat()` is refused), and its text (None when reading it raises). */
  datatype Match = Match(rel: string, name: string, isFile: Option<bool>, text: Option<string>)

  datatype IngestResult = IngestResult(content: string, tokenCount: nat, fileCount: nat, files: seq<string>)

  /** The filter of the inner loop: a file whose name does not start with a dot. */
  predicate Eligible(m: Match)
  {
    m.isFile == Some(true) && !IsPrefix(".", m.name)
  }

  /** `is_file()` raises for this match; it is called outside the `try`. */
  predicate Denied(m: Match)
  {
    m.isFile.None?
  }

  /** A match that ends up in the result: eligible, and its read succeeded. */
  predicate Included(m: Match)
  {
    Eligible(m) && m.text.Some?
  }

  function Header(rel: string): string
  {
    "--- FILE: " + rel + " ---"
  }

  /** The block of one included file: the header line when asked for, the text, and
      a trailing `"\n"`, joined by newlines. */
  function Block(m: Match, includeHeader: bool): string
    requires m.text.Some?
  {
    Join((if includeHeader then [Header(m.rel)] else []) + [m.text.value, "\n"], "\n")
  }

  // ---------------------------------------------------------------------
  // The result as functions of the matches, in loop order
  // ---------------------------------------------------------------------

  /** Every match of every pattern: patterns in the given order, each pattern's
      matches in glob order. */
  function Candidates(targets: seq<string>, glob: string -> seq<Match>): seq<Match>
  {
    if targets == [] then []
    else Candidates(targets[..|targets| - 1], glob) + glob(Last(targets))
  }

  /** The included matches, in order. */
  function Kept(ms: seq<Match>): seq<Match>
  {
    if ms == [] then []
    else Kept(ms[..|ms| - 1]) + (if Included(Last(ms)) then [Last(ms)] else [])
  }

  /** Every match in `ms` was read. */
  predicate AllRead(ms: seq<Match>)
  {
    forall m <- ms :: m.text.Some?
  }

  function Blocks(ms: seq<Match>, includeHeader: bool): seq<string>
    requires AllRead(ms)
  {
    if ms == [] then []
    else Blocks(ms[..|ms| - 1], includeHeader) + [Block(Last(ms), includeHeader)]
  }

  function Rels(ms: seq<Match>): seq<string>
  {
    if ms == [] then [] else Rels(ms[..|ms| - 1]) + [Last(ms).rel]
  }

  function TokenTotal(blocks: seq<string>): nat
  {
    if blocks == [] then 0 else TokenTotal(blocks[..|blocks| - 1]) + EstimateTokens(Last(blocks))
  }

  /** What `to_txt` returns for the matches `ms`, as a function. */
  function Result(ms: seq<Match>, includeHeader: bool): IngestResult
  {
    var kept := Kept(ms);
    KeptIncluded(ms);
    var blocks := Blocks(kept, includeHeader);
    IngestResult(Join(blocks, "\n"), TokenTotal(blocks), |Rels(kept)|, Rels(kept))
  }

  // ---------------------------------------------------------------------
  // The loops
  // ---------------------------------------------------------------------

  /** `to_txt`: the outer loop over the patterns. `root.glob` and `is_file()` are
      outside the `try`, so a refused pattern or a match whose `stat()` is refused
      makes the whole call raise, whichever comes first. */
  method ToTxt(targets: seq<string>, glob: string -> seq<Match>, includeHeader: bool)
    returns (r: Wrappers.Result<IngestResult>)
    ensures FirstError(targets, glob).Some? ==> r == Err(FirstError(targets, glob).value)
    ensures FirstError(targets, glob).None? ==> r == Ok(Result(Candidates(targets, glob), includeHeader))
  {
    var fullContent: seq<string> := [];
    var processedFiles: seq<string> := [];
    var totalTokens: nat := 0;
    ghost var done: seq<Match> := [];
    var i := 0;
    while i < |targets|
      invariant 0 <= i <= |targets|
      invariant FirstError(targets[..i], glob).None?
      invariant done == Candidates(targets[..i], glob)
      invariant AllRead(Kept(done))
      invariant fullContent == Blocks(Kept(done), includeHeader)
      invariant processedFiles == Rels(Kept(done))
      invariant totalTokens == TokenTotal(fullContent)
    {
      FirstErrorSnoc(targets[..i], targets[i], glob);
      assert targets[..i + 1] == targets[..i] + [targets[i]];
      var refused := PatternError(targets[i]);
      if refused.Some? {
        FirstErrorPrefix(targets, i + 1, glob);
        return Err(refused.value);
      }
      var raised;
      raised, fullContent, processedFiles, totalTokens :=
        ProcessMatches(glob(targets[i]), includeHeader, done, fullContent, processedFiles, totalTokens);
      if raised {
        FirstErrorPrefix(targets, i + 1, glob);
        return Err("PermissionError");
      }
      assert targets[..i + 1][..i] == targets[..i];
      done := done + glob(targets[i]);
      i := i + 1;
    }
    assert targets[..|targets|] == targets;
    KeptIncluded(done);
    return Ok(IngestResult(Join(fullContent, "\n"), totalTokens, |processedFiles|, processedFiles));
  }

  /** The checks `Path.glob` makes before it yields anything: an empty pattern raises
      ValueError and an absolute one NotImplementedError. */
  function PatternError(pattern: string): Option<string>
  {
    if pattern == "" then Some("ValueError")
    else if pattern[0] == '/' then Some("NotImplementedError")
    else None
  }

  /** What one pattern raises: the refusal of the pattern itself, or else the
      PermissionError of a match whose `is_file()` raises. */
  function TargetError(pattern: string, glob: string -> seq<Match>): Option<string>
  {
    if PatternError(pattern).Some? then PatternError(pattern)
    else if exists k :: 0 <= k < |glob(pattern)| && Denied(glob(pattern)[k]) then Some("PermissionError")
    else None
  }

  /** The error of the first pattern that raises, if any. */
  function FirstError(targets: seq<string>, glob: string -> seq<Match>): Option<string>
  {
    if targets == [] then None
    else if TargetError(targets[0], glob).Some? then TargetError(targets[0], glob)
    else FirstError(targets[1..], glob)
  }

  lemma {:induction false} FirstErrorSnoc(xs: seq<string>, x: string, glob: string -> seq<Match>)
    ensures FirstError(xs + [x], glob)
         == if FirstError(xs, glob).Some? then FirstError(xs, glob) else TargetError(x, glob)
  {
    if xs != [] {
      assert (xs + [x])[1..] == xs[1..] + [x];
      FirstErrorSnoc(xs[1..], x, glob);
    }
  }

  /** Once a prefix holds a pattern that raises, so does the whole list, with the same error. */
  lemma {:induction false} FirstErrorPrefix(targets: seq<string>, n: nat, glob: string -> seq<Match>)
    requires n <= |targets| && FirstError(targets[..n], glob).Some?
    ensures FirstError(targets, glob) == FirstError(targets[..n], glob)
  {
    if n > 0 && TargetError(targets[0], glob).None? {
      assert targets[..n][1..] == targets[1..][..n - 1];
      FirstErrorPrefix(targets[1..], n - 1, glob);
    }
  }

  /** The call raises exactly when some pattern is empty or absolute or has a match whose
      `stat()` is refused, and then with the error of the first such pattern. */
  lemma {:induction false} FirstErrorSpec(targets: seq<string>, glob: string -> seq<Match>)
    ensures FirstError(targets, glob).None? <==>
      forall p <- targets :: PatternError(p).None? && forall m <- glob(p) :: !Denied(m)
    ensures FirstError(targets, glob).Some? ==>
      exists i :: 0 <= i < |targets| && FirstError(targets, glob) == TargetError(targets[i], glob)
                  && forall j :: 0 <= j < i ==> TargetError(targets[j], glob).None?
  {
    if targets != [] {
      FirstErrorSpec(targets[1..], glob);
      assert forall p :: p in targets <==> p == targets[0] || p in targets[1..];
      if TargetError(targets[0], glob).None? && FirstError(targets, glob).Some? {
        var i :| 0 <= i < |targets[1..]| && FirstError(targets[1..], glob) == TargetError(targets[1..][i], glob)
                 && forall j :: 0 <= j < i ==> TargetError(targets[1..][j], glob).None?;
        assert FirstError(targets, glob) == TargetError(targets[i + 1], glob);
        forall j | 0 <= j < i + 1 ensures TargetError(targets[j], glob).None? {
          if j > 0 {
            assert targets[j] == targets[1..][j - 1];
          }
        }
      }
    }
  }

  /** The inner loop over the matches of one pattern, continuing the blocks, the file
      list and the token total that the earlier matches `done` produced; it raises at
      the first match whose `is_file()` raises. */
  method ProcessMatches(items: seq<Match>, includeHeader: bool, ghost done: seq<Match>,
                        content0: seq<string>, files0: seq<string>, tokens0: nat)
    returns (raised: bool, fullContent: seq<string>, processedFiles: seq<string>, totalTokens: nat)
    requires AllRead(Kept(done))
    requires content0 == Blocks(Kept(done), includeHeader) && files0 == Rels(Kept(done))
    requires tokens0 == TokenTotal(content0)
    ensures raised <==> exists k :: 0 <= k < |items| && Denied(items[k])
    ensures !raised ==> AllRead(Kept(done + items))
    ensures !raised ==> fullContent == Blocks(Kept(done + items), includeHeader)
    ensures !raised ==> processedFiles == Rels(Kept(done + items))
    ensures !raised ==> totalTokens == TokenTotal(fullContent)
  {
    fullContent, processedFiles, totalTokens := content0, files0, tokens0;
    ghost var kept := Kept(done);
    assert done + items[..0] == done;
    var j := 0;
    while j < |items|
      invariant 0 <= j <= |items|
      invariant forall k :: 0 <= k < j ==> !Denied(items[k])
      invariant kept == Kept(done + items[..j]) && AllRead(kept)
      invariant fullContent == Blocks(kept, includeHeader)
      invariant processedFiles == Rels(kept)
      invariant totalTokens == TokenTotal(fullContent)
    {
      KeptStep(done, items, j);
      raised, fullContent, processedFiles, totalTokens, kept :=
        ProcessMatch(items[j], includeHeader, kept, fullContent, processedFiles, totalTokens);
      if raised {
        return;
      }
      j := j + 1;
    }
    assert items[..|items|] == items;
    raised := false;
  }

  lemma KeptStep(done: seq<Match>, items: seq<Match>, j: nat)
    requires j < |items|
    ensures Kept(done + items[..j + 1]) == Kept(done + items[..j]) + (if Included(items[j]) then [items[j]] else [])
  {
    assert done + items[..j + 1] == (done + items[..j]) + [items[j]];
    KeptSnoc(done + items[..j], items[j]);
  }

  /** One pass of the inner loop: `is_file()` raises PermissionError for a match whose
      `stat()` is refused, before anything is added; otherwise a kept match adds its
      block, its path and its estimate, and any other match changes nothing. */
  method ProcessMatch(item: Match, includeHeader: bool, ghost kept0: seq<Match>,
                      content0: seq<string>, files0: seq<string>, tokens0: nat)
    returns (raised: bool, fullContent: seq<string>, processedFiles: seq<string>, totalTokens: nat,
             ghost kept: seq<Match>)
    requires AllRead(kept0)
    requires content0 == Blocks(kept0, includeHeader) && files0 == Rels(kept0)
    requires tokens0 == TokenTotal(content0)
    ensures raised <==> Denied(item)
    ensures kept == kept0 + (if Included(item) then [item] else [])
    ensures AllRead(kept)
    ensures fullContent == Blocks(kept, includeHeader) && processedFiles == Rels(kept)
    ensures totalTokens == TokenTotal(fullContent)
  {
    fullContent, processedFiles, totalTokens, kept := content0, files0, tokens0, kept0;
    raised := item.isFile.None?;
    if item.isFile == Some(true) && !IsPrefix(".", item.name) && item.text.Some? {
      var blockText := FileBlock(item.rel, item.text.value, includeHeader);
      assert blockText == Block(item, includeHeader);
      BlocksSnoc(kept0, item, includeHeader);
      TokenTotalSnoc(content0, blockText);
      fullContent := content0 + [blockText];
      processedFiles := files0 + [item.rel];
      totalTokens := tokens0 + EstimateTokens(blockText);
      kept := kept0 + [item];
    } else {
      assert kept0 + [] == kept0;
    }
  }

  /** The block of one file, built as a list of lines and joined. */
  method FileBlock(rel: string, content: string, includeHeader: bool) returns (blockText: string)
    ensures blockText == Block(Match(rel, [], Some(true), Some(content)), includeHeader)
  {
    var fileBlock: seq<string> := [];
    if includeHeader {
      fileBlock := fileBlock + ["--- FILE: " + rel + " ---"];
    }
    fileBlock := fileBlock + [content];
    fileBlock := fileBlock + ["\n"];
    assert fileBlock == (if includeHeader then [Header(rel)] else []) + [content, "\n"];
    blockText := Join(fileBlock, "\n");
  }

  lemma KeptSnoc(ms: seq<Match>, m: Match)
    ensures Kept(ms + [m]) == Kept(ms) + (if Included(m) then [m] else [])
  {
    assert (ms + [m])[..|ms|] == ms;
  }

  lemma TokenTotalSnoc(blocks: seq<string>, b: string)
    ensures TokenTotal(blocks + [b]) == TokenTotal(blocks) + EstimateTokens(b)
  {
    assert (blocks + [b])[..|blocks|] == blocks;
  }

  lemma BlocksSnoc(ms: seq<Match>, m: Match, includeHeader: bool)
    requires AllRead(ms) && m.text.Some?
    ensures AllRead(ms + [m])
    ensures Blocks(ms + [m], includeHeader) == Blocks(ms, includeHeader) + [Block(m, includeHeader)]
    ensures Rels(ms + [m]) == Rels(ms) + [m.rel]
  {
    assert (ms + [m])[..|ms|] == ms;
  }

  // ---------------------------------------------------------------------
  // Properties
  // ---------------------------------------------------------------------

  /** A match is kept exactly when it is among the candidates and included. */
  lemma {:induction false} KeptIncluded(ms: seq<Match>)
    ensures forall m <- Kept(ms) :: m in ms && Included(m)
    ensures forall m <- ms :: Included(m) ==> m in Kept(ms)
    ensures AllRead(Kept(ms))
  {
    if ms != [] {
      var init := ms[..|ms| - 1];
      KeptIncluded(init);
      assert ms == init + [Last(ms)];
      assert forall m <- init :: m in ms;
    }
  }

  /** Only regular files whose name does not start with a dot, and whose read
      succeeded, contribute; every such match does. */
  lemma FilterExact(targets: seq<string>, glob: string -> seq<Match>, m: Match)
    ensures m in Kept(Candidates(targets, glob))
        <==> m in Candidates(targets, glob) && m.isFile == Some(true) && !IsPrefix(".", m.name) && m.text.Some?
  {
    KeptIncluded(Candidates(targets, glob));
  }

  /** A match that is not a regular file, is a dot-file, or cannot be read changes nothing:
      no block, no listed file, no tokens. */
  lemma SkippedMatch(ms: seq<Match>, m: Match, includeHeader: bool)
    requires m.isFile != Some(true) || IsPrefix(".", m.name) || m.text.None?
    ensures Result(ms + [m], includeHeader) == Result(ms, includeHeader)
  {
    KeptSnoc(ms, m);
    assert Kept(ms + [m]) == Kept(ms);
  }

  /** The block of a file is its header line (when asked for), its text, and two
      newlines: the text, then the `"\n"` element joined after it. */
  lemma BlockShape(m: Match, includeHeader: bool)
    requires m.text.Some?
    ensures includeHeader ==> Block(m, includeHeader) == Header(m.rel) + "\n" + m.text.value + "\n\n"
    ensures !includeHeader ==> Block(m, includeHeader) == m.text.value + "\n\n"
  {
    var t := m.text.value;
    assert "\n" + "\n" == "\n\n";
    assert Join([t, "\n"], "\n") == t + "\n" + "\n" by {
      assert [t, "\n"][1..] == ["\n"];
    }
    if !includeHeader {
      assert [] + [t, "\n"] == [t, "\n"];
    } else {
      var parts := [Header(m.rel), t, "\n"];
      assert parts[1..] == [t, "\n"];
      assert Join(parts, "\n") == Header(m.rel) + "\n" + Join([t, "\n"], "\n");
    }
  }

  /** The header line is in a block exactly when headers are asked for and the file's text is
      free of it. */
  lemma HeaderPresent(m: Match)
    requires m.text.Some?
    ensures IsPrefix(Header(m.rel), Block(m, true))
    ensures !Contains(m.text.value, Header(m.rel)) ==> !Contains(Block(m, false), Header(m.rel))
  {
    BlockShape(m, true);
    BlockShape(m, false);
    var t := m.text.value;
    assert Block(m, true)[..|Header(m.rel)|] == Header(m.rel);
    if !Contains(t, Header(m.rel)) {
      var h := Header(m.rel);
      var s := t + "\n\n";
      assert h[|h| - 1] == '-';
      forall i | 0 <= i <= |s|
        ensures !OccursAt(s, h, i)
      {
        if i + |h| <= |s| {
          if i + |h| <= |t| {
            assert s[i..i + |h|] == t[i..i + |h|];
            assert !OccursAt(t, h, i);
          } else {
            assert s[i..i + |h|][|h| - 1] == '\n';
          }
        }
      }
    }
  }

  /** The candidates of two pattern lists run one after the other. */
  lemma {:induction false} CandidatesAppend(xs: seq<string>, ys: seq<string>, glob: string -> seq<Match>)
    ensures Candidates(xs + ys, glob) == Candidates(xs, glob) + Candidates(ys, glob)
  {
    if ys == [] {
      assert xs + ys == xs;
    } else {
      var init := ys[..|ys| - 1];
      CandidatesAppend(xs, init, glob);
      assert (xs + ys)[..|xs + ys| - 1] == xs + init;
      assert Last(xs + ys) == Last(ys);
    }
  }

  lemma {:induction false} KeptAppend(xs: seq<Match>, ys: seq<Match>)
    ensures Kept(xs + ys) == Kept(xs) + Kept(ys)
  {
    if ys == [] {
      assert xs + ys == xs;
    } else {
      var init := ys[..|ys| - 1];
      KeptAppend(xs, init);
      assert (xs + ys)[..|xs + ys| - 1] == xs + init;
      assert Last(xs + ys) == Last(ys);
    }
  }

  lemma {:induction false} RelsAppend(xs: seq<Match>, ys: seq<Match>)
    ensures Rels(xs + ys) == Rels(xs) + Rels(ys)
  {
    if ys == [] {
      assert xs + ys == xs;
    } else {
      var init := ys[..|ys| - 1];
      RelsAppend(xs, init);
      assert (xs + ys)[..|xs + ys| - 1] == xs + init;
    }
  }

  /** Patterns are processed in the order given, and nothing is de-duplicated: the
      files listed for `xs + ys` are those for `xs` followed by those for `ys`, so a
      pattern given twice lists its files twice. */
  lemma PatternsInOrder(xs: seq<string>, ys: seq<string>, glob: string -> seq<Match>)
    ensures Result(Candidates(xs + ys, glob), true).files
         == Result(Candidates(xs, glob), true).files + Result(Candidates(ys, glob), true).files
  {
    CandidatesAppend(xs, ys, glob);
    KeptAppend(Candidates(xs, glob), Candidates(ys, glob));
    RelsAppend(Kept(Candidates(xs, glob)), Kept(Candidates(ys, glob)));
  }

  /** One block per listed file. */
  lemma {:induction false} BlockCount(ms: seq<Match>, includeHeader: bool)
    requires AllRead(ms)
    ensures |Blocks(ms, includeHeader)| == |Rels(ms)| == |ms|
  {
    if ms != [] {
      BlockCount(ms[..|ms| - 1], includeHeader);
    }
  }

  /** The token count is the sum over the blocks, which never exceeds the estimate of
      the joined text. */
  lemma {:induction false} TokensWithinWhole(blocks: seq<string>)
    ensures TokenTotal(blocks) <= EstimateTokens(Join(blocks, "\n"))
  {
    if |blocks| > 1 {
      var init := blocks[..|blocks| - 1];
      TokensWithinWhole(init);
      assert init + [Last(blocks)] == blocks;
      JoinSnoc(init, Last(blocks), "\n");
      EstimateTokensAppend(Join(init, "\n"), "\n");
      EstimateTokensAppend(Join(init, "\n") + "\n", Last(blocks));
    } else if |blocks| == 1 {
      assert blocks[..0] == [];
    }
  }

  /** The file count is the number of blocks, and the token count is within the
      estimate of the whole text. */
  lemma ResultCounts(ms: seq<Match>, includeHeader: bool)
    ensures var r := Result(ms, includeHeader);
      && r.fileCount == |r.files| == |Kept(ms)|
      && r.tokenCount <= EstimateTokens(r.content)
  {
    KeptIncluded(ms);
    BlockCount(Kept(ms), includeHeader);
    TokensWithinWhole(Blocks(Kept(ms), includeHeader));
  }
}

=== FILE: user_batch.dfy ===
/**
  `IngestionEngine.process_user` (src/azathoth/ingest/core.py): the user's
  repositories are filtered, each source repository is ingested, and the
  results are tallied and, unless separate files were asked for, gathered
  into one combined report.

  The repositories are ingested concurrently; the order in which they finish
  is an input (`completion`), any rearrangement of the source repositories.
  gitingest is the function `fetch` from clone URL to outcome, and the
  filesystem is `writeError`, the exception (if any) that saving a report file
  raises.
 */
module UserBatch {
  import opened Wrappers
  import opened Text
  import opened PyNumbers
  import opened Report

  /** The fields of a GitHub API repository record the batch reads. */
  datatype Repo = Repo(name: string, cloneUrl: string, fork: bool)

  /** A failed repository and the text of its exception. */
  datatype Failure = Failure(repoName: string, error: string)

  /** How the batch ends: the API answered with another status, no source
      repository was left, every source repository was attempted, or saving the
      combined report raised. */
  datatype BatchOutcome =
    | FetchError(status: int)
    | NoSources
    | Completed(successCount: int, failures: seq<Failure>, reports: seq<SavedReport>, advanced: nat)
    | SaveRaised(error: string)

  /** The repository is kept: not a fork, and not named after the user in any case. */
  predicate IsSource(r: Repo, username: string)
  {
    !r.fork && Lower(r.name) != Lower(username)
  }

  /** The two list filters, in the API's order. */
  function SourceRepos(repos: seq<Repo>, username: string): (sources: seq<Repo>)
    ensures forall r :: r in sources <==> r in repos && IsSource(r, username)
    ensures |sources| <= |repos|
  {
    if repos == [] then []
    else
      var rest := SourceRepos(repos[1..], username);
      assert forall r :: r in repos <==> r == repos[0] || r in repos[1..];
      if IsSource(repos[0], username) then [repos[0]] + rest else rest
  }

  /** The user's own profile repository is never ingested, whatever its capitalisation. */
  lemma SelfRepoDropped(repos: seq<Repo>, username: string, r: Repo)
    requires r in repos && Lower(r.name) == Lower(username)
    ensures r !in SourceRepos(repos, username)
  {
  }

  /** The block a successful repository adds to the combined content. */
  function RepoBlock(name: string, content: string): string
  {
    "\n\n" + Repeat('=', 30) + "\nREPO: " + name + "\n" + Repeat('=', 30) + "\n" + content
  }

  /** The summary line a successful repository adds: its content length in characters. */
  function RepoLine(name: string, content: string): string
  {
    "\n- " + name + ": " + IntToString(|content|) + " chars"
  }

  // Each of the following reads the repositories in the order they finished.

  function Failures(done: seq<Repo>, outcome: Repo -> Fetch): seq<Failure>
  {
    if done == [] then []
    else
      var r := Last(done);
      Failures(done[..|done| - 1], outcome) +
        match outcome(r)
        case FetchFailed(e) => [Failure(r.name, e)]
        case Fetched(_) => []
  }

  function Successes(done: seq<Repo>, outcome: Repo -> Fetch): seq<Repo>
  {
    if done == [] then []
    else
      var r := Last(done);
      Successes(done[..|done| - 1], outcome) + if outcome(r).Fetched? then [r] else []
  }

  function Blocks(done: seq<Repo>, outcome: Repo -> Fetch): seq<string>
  {
    if done == [] then []
    else
      var r := Last(done);
      Blocks(done[..|done| - 1], outcome) +
        match outcome(r)
        case Fetched(d) => [RepoBlock(r.name, d.content)]
        case FetchFailed(_) => []
  }

  function Lines(done: seq<Repo>, outcome: Repo -> Fetch): seq<string>
  {
    if done == [] then []
    else
      var r := Last(done);
      Lines(done[..|done| - 1], outcome) +
        match outcome(r)
        case Fetched(d) => [RepoLine(r.name, d.content)]
        case FetchFailed(_) => []
  }

  /** With separate files, each success is saved under its repository name at once. */
  function SeparateReports(done: seq<Repo>, outcome: Repo -> Fetch): seq<SavedReport>
  {
    if done == [] then []
    else
      var r := Last(done);
      SeparateReports(done[..|done| - 1], outcome) +
        match outcome(r)
        case Fetched(d) => [SaveReport(r.name, d.summary, d.tree, d.content)]
        case FetchFailed(_) => []
  }

  /** The single report named after the user, saved only when some content was gathered. */
  function CombinedReports(username: string, count: nat, done: seq<Repo>, outcome: Repo -> Fetch): seq<SavedReport>
  {
    var blocks := Blocks(done, outcome);
    if blocks == [] then []
    else
      var header := ["User: " + username, "Repos: " + IntToString(count)];
      [SaveReport(username, Join(header + Lines(done, outcome), "\n"), "", Join(blocks, "\n"))]
  }

  function Reports(username: string, count: nat, done: seq<Repo>, outcome: Repo -> Fetch, separate: bool): seq<SavedReport>
  {
    if separate then SeparateReports(done, outcome) else CombinedReports(username, count, done, outcome)
  }

  /** What finishing repository `r` amounts to. A failed ingest is a failure with its
      message. With separate files the report is saved inside the same `try`, so a save
      that raises is a failure too, with the save's message. */
  function AttemptOf(r: Repo, fetch: string -> Fetch, separate: bool, writeError: string -> Option<string>): Fetch
  {
    match fetch(r.cloneUrl)
    case FetchFailed(e) => FetchFailed(e)
    case Fetched(d) =>
      var e := writeError(SaveReport(r.name, d.summary, d.tree, d.content).fileName);
      if separate && e.Some? then FetchFailed(e.value) else Fetched(d)
  }

  /** `AttemptOf` for every repository. */
  function Attempt(fetch: string -> Fetch, separate: bool, writeError: string -> Option<string>): Repo -> Fetch
  {
    r => AttemptOf(r, fetch, separate, writeError)
  }

  /** The batch as the source runs it, one finished repository at a time. Saving the
      report file `n` raises `writeError(n)` when that is present. */
  method ProcessUser(username: string, status: int, repos: seq<Repo>, separate: bool,
                     fetch: string -> Fetch, writeError: string -> Option<string>, completion: seq<Repo>)
    returns (out: BatchOutcome)
    requires status == 200 ==> multiset(completion) == multiset(SourceRepos(repos, username))
    ensures status != 200 ==> out == FetchError(status)
    ensures status == 200 && SourceRepos(repos, username) == [] ==> out == NoSources
    ensures status == 200 && SourceRepos(repos, username) != [] ==>
      var sources := SourceRepos(repos, username);
      var outcome := Attempt(fetch, separate, writeError);
      var reports := Reports(username, |sources|, completion, outcome, separate);
      if !separate && reports != [] && writeError(username + ".txt").Some? then
        out == SaveRaised(writeError(username + ".txt").value)
      else
        out == Completed(|sources| - |Failures(completion, outcome)|, Failures(completion, outcome), reports, |sources|)
  {
    if status != 200 {
      return FetchError(status);
    }
    var sources := SourceRepos(repos, username);
    if sources == [] {
      return NoSources;
    }
    assert |completion| == |multiset(completion)| == |sources|;
    var accumulator, summaryLines, failed, saved, advanced := IngestAll(completion, separate, fetch, writeError);
    if !separate && accumulator != [] {
      var header := ["User: " + username, "Repos: " + IntToString(|sources|)];
      var report := SaveReport(username, Join(header + summaryLines, "\n"), "", Join(accumulator, "\n"));
      var e := writeError(report.fileName);
      if e.Some? {
        return SaveRaised(e.value);
      }
      saved := [report];
    }
    return Completed(|sources| - |failed|, failed, saved, advanced);
  }

  /** The gathered `ingest_single_repo` tasks, taken in the order `completion` says they
      finish; each one advances the progress bar whatever its outcome. */
  method IngestAll(completion: seq<Repo>, separate: bool, fetch: string -> Fetch, writeError: string -> Option<string>)
    returns (accumulator: seq<string>, summaryLines: seq<string>, failed: seq<Failure>, saved: seq<SavedReport>, advanced: nat)
    ensures advanced == |completion|
    ensures failed == Failures(completion, Attempt(fetch, separate, writeError))
    ensures separate ==> saved == SeparateReports(completion, Attempt(fetch, separate, writeError)) && accumulator == []
    ensures !separate ==> saved == [] && accumulator == Blocks(completion, Attempt(fetch, separate, writeError))
    ensures !separate ==> summaryLines == Lines(completion, Attempt(fetch, separate, writeError))
  {
    ghost var attempt := Attempt(fetch, separate, writeError);
    accumulator, summaryLines, failed, saved, advanced := [], [], [], [], 0;
    var i := 0;
    while i < |completion|
      invariant 0 <= i <= |completion| && advanced == i
      invariant failed == Failures(completion[..i], attempt)
      invariant separate ==> saved == SeparateReports(completion[..i], attempt) && accumulator == []
      invariant !separate ==> saved == [] && accumulator == Blocks(completion[..i], attempt)
      invariant !separate ==> summaryLines == Lines(completion[..i], attempt)
    {
      assert completion[..i + 1] == completion[..i] + [completion[i]];
      accumulator, summaryLines, failed, saved :=
        FinishRepo(completion[i], separate, fetch, writeError, completion[..i], accumulator, summaryLines, failed, saved);
      advanced := advanced + 1;
      i := i + 1;
    }
    assert completion[..i] == completion;
  }

  /** `ingest_single_repo` for one repository finishing after those in `done`: it extends
      the failures, the saved reports or the combined content and summary lines. */
  method FinishRepo(r: Repo, separate: bool, fetch: string -> Fetch, writeError: string -> Option<string>,
                    ghost done: seq<Repo>, acc0: seq<string>, lines0: seq<string>,
                    failed0: seq<Failure>, saved0: seq<SavedReport>)
    returns (acc: seq<string>, lines: seq<string>, failed: seq<Failure>, saved: seq<SavedReport>)
    requires failed0 == Failures(done, Attempt(fetch, separate, writeError))
    requires separate ==> saved0 == SeparateReports(done, Attempt(fetch, separate, writeError)) && acc0 == []
    requires !separate ==> saved0 == [] && acc0 == Blocks(done, Attempt(fetch, separate, writeError))
    requires !separate ==> lines0 == Lines(done, Attempt(fetch, separate, writeError))
    ensures failed == Failures(done + [r], Attempt(fetch, separate, writeError))
    ensures separate ==> saved == SeparateReports(done + [r], Attempt(fetch, separate, writeError)) && acc == []
    ensures !separate ==> saved == [] && acc == Blocks(done + [r], Attempt(fetch, separate, writeError))
    ensures !separate ==> lines == Lines(done + [r], Attempt(fetch, separate, writeError))
  {
    ghost var attempt := Attempt(fetch, separate, writeError);
    assert (done + [r])[..|done|] == done;
    assert Last(done + [r]) == r;
    assert attempt(r) == AttemptOf(r, fetch, separate, writeError);
    acc, lines, failed, saved := acc0, lines0, failed0, saved0;
    var outcome := fetch(r.cloneUrl);
    if outcome.Fetched? {
      var d := outcome.digest;
      if separate {
        var report := SaveReport(r.name, d.summary, d.tree, d.content);
        var e := writeError(report.fileName);
        if e.None? {
          saved := saved + [report];
        } else {
          failed := failed + [Failure(r.name, e.value)];
        }
      } else {
        acc := acc + [RepoBlock(r.name, d.content)];
        lines := lines + [RepoLine(r.name, d.content)];
      }
    } else {
      failed := failed + [Failure(r.name, outcome.error)];
    }
  }

  /** With separate files, a repository that is ingested but whose report cannot be saved
      is counted as failed, with the save's message, and no report is recorded for it. */
  lemma SaveFailureCounted(r: Repo, fetch: string -> Fetch, writeError: string -> Option<string>)
    requires fetch(r.cloneUrl).Fetched? && writeError(r.name + ".txt").Some?
    ensures Failures([r], Attempt(fetch, true, writeError)) == [Failure(r.name, writeError(r.name + ".txt").value)]
    ensures Successes([r], Attempt(fetch, true, writeError)) == []
    ensures SeparateReports([r], Attempt(fetch, true, writeError)) == []
  {
    assert [r][..0] == [];
    assert Attempt(fetch, true, writeError)(r) == AttemptOf(r, fetch, true, writeError);
  }

  // ---------------------------------------------------------------------
  // The tally
  // ---------------------------------------------------------------------

  /** Every finished repository is either a failure or a success. */
  lemma {:induction false} Tally(done: seq<Repo>, outcome: Repo -> Fetch)
    ensures |Failures(done, outcome)| + |Successes(done, outcome)| == |done|
    ensures |Blocks(done, outcome)| == |Lines(done, outcome)| == |SeparateReports(done, outcome)| == |Successes(done, outcome)|
  {
    if done != [] {
      Tally(done[..|done| - 1], outcome);
    }
  }

  /** The success count the batch prints is the number of repositories that were ingested. */
  lemma SuccessCount(username: string, repos: seq<Repo>, separate: bool, outcome: Repo -> Fetch, completion: seq<Repo>)
    requires multiset(completion) == multiset(SourceRepos(repos, username))
    ensures |SourceRepos(repos, username)| - |Failures(completion, outcome)| == |Successes(completion, outcome)|
  {
    assert |completion| == |multiset(completion)|;
    Tally(completion, outcome);
  }

  /** A combined report is written exactly when separate files were not asked for and
      some repository was ingested; it is named after the user. Separate files give
      one report per ingested repository, named after it. */
  lemma ReportsWritten(username: string, count: nat, done: seq<Repo>, outcome: Repo -> Fetch, separate: bool)
    ensures var reports := Reports(username, count, done, outcome, separate);
      && (separate ==> |reports| == |Successes(done, outcome)|)
      && (!separate ==> |reports| == (if Successes(done, outcome) == [] then 0 else 1))
      && (!separate && reports != [] ==> reports[0].fileName == username + ".txt")
  {
    Tally(done, outcome);
  }

  /** The separate reports are the ingested repositories, in the order they finished, each under its own name. */
  lemma {:induction false} SeparateNames(done: seq<Repo>, outcome: Repo -> Fetch)
    ensures |SeparateReports(done, outcome)| == |Successes(done, outcome)|
    ensures forall k :: 0 <= k < |SeparateReports(done, outcome)| ==>
      SeparateReports(done, outcome)[k].fileName == Successes(done, outcome)[k].name + ".txt"
  {
    Tally(done, outcome);
    if done != [] {
      SeparateNames(done[..|done| - 1], outcome);
    }
  }

  // ---------------------------------------------------------------------
  // Independence from the completion order
  // ---------------------------------------------------------------------

  lemma {:induction false} FailuresAppend(a: seq<Repo>, b: seq<Repo>, outcome: Repo -> Fetch)
    ensures Failures(a + b, outcome) == Failures(a, outcome) + Failures(b, outcome)
    decreases |b|
  {
    if b == [] {
      assert a + b == a;
    } else {
      var b' := b[..|b| - 1];
      assert (a + b)[..|a + b| - 1] == a + b';
      assert Last(a + b) == Last(b);
      FailuresAppend(a, b', outcome);
    }
  }

  lemma {:induction false} SuccessesAppend(a: seq<Repo>, b: seq<Repo>, outcome: Repo -> Fetch)
    ensures Successes(a + b, outcome) == Successes(a, outcome) + Successes(b, outcome)
    decreases |b|
  {
    if b == [] {
      assert a + b == a;
    } else {
      var b' := b[..|b| - 1];
      assert (a + b)[..|a + b| - 1] == a + b';
      assert Last(a + b) == Last(b);
      SuccessesAppend(a, b', outcome);
    }
  }

  /** Which repositories fail, with which messages, and which succeed does not depend on
      the order in which they finish. */
  lemma {:induction false} OrderIrrelevant(a: seq<Repo>, b: seq<Repo>, outcome: Repo -> Fetch)
    requires multiset(a) == multiset(b)
    ensures multiset(Failures(a, outcome)) == multiset(Failures(b, outcome))
    ensures multiset(Successes(a, outcome)) == multiset(Successes(b, outcome))
    decreases |a|
  {
    if a != [] {
      var x := Last(a);
      var a' := a[..|a| - 1];
      assert a == a' + [x];
      assert x in multiset(b);
      var i :| 0 <= i < |b| && b[i] == x;
      var b' := b[..i] + b[i + 1..];
      RemoveAt(b, i);
      assert multiset(a) == multiset(a') + multiset{x};
      assert multiset(a') == multiset(a) - multiset{x} == multiset(b) - multiset{x} == multiset(b');
      OrderIrrelevant(a', b', outcome);
      SplitAround(b, i, outcome);
      FailuresAppend(a', [x], outcome);
      SuccessesAppend(a', [x], outcome);
    }
  }

  lemma RemoveAt(b: seq<Repo>, i: nat)
    requires i < |b|
    ensures multiset(b) == multiset(b[..i] + b[i + 1..]) + multiset{b[i]}
  {
    assert b == b[..i] + [b[i]] + b[i + 1..];
  }

  /** Tallying around one element: the element's share is added to the rest. */
  lemma SplitAround(b: seq<Repo>, i: nat, outcome: Repo -> Fetch)
    requires i < |b|
    ensures multiset(Failures(b, outcome)) == multiset(Failures(b[..i] + b[i + 1..], outcome)) + multiset(Failures([b[i]], outcome))
    ensures multiset(Successes(b, outcome)) == multiset(Successes(b[..i] + b[i + 1..], outcome)) + multiset(Successes([b[i]], outcome))
  {
    var left, x, right := b[..i], b[i], b[i + 1..];
    Around(b, i);
    FailuresAround(left, x, right, outcome);
    SuccessesAround(left, x, right, outcome);
  }

  lemma Around<T>(b: seq<T>, i: nat)
    requires i < |b|
    ensures b == b[..i] + [b[i]] + b[i + 1..]
  {
    assert b[..i + 1] == b[..i] + [b[i]];
    assert b == b[..i + 1] + b[i + 1..];
  }

  lemma FailuresAround(left: seq<Repo>, x: Repo, right: seq<Repo>, outcome: Repo -> Fetch)
    ensures multiset(Failures(left + [x] + right, outcome)) == multiset(Failures(left + right, outcome)) + multiset(Failures([x], outcome))
  {
    FailuresAppend(left, [x], outcome);
    FailuresAppend(left + [x], right, outcome);
    FailuresAppend(left, right, outcome);
    ThreeParts(Failures(left, outcome), Failures([x], outcome), Failures(right, outcome));
  }

  lemma SuccessesAround(left: seq<Repo>, x: Repo, right: seq<Repo>, outcome: Repo -> Fetch)
    ensures multiset(Successes(left + [x] + right, outcome)) == multiset(Successes(left + right, outcome)) + multiset(Successes([x], outcome))
  {
    SuccessesAppend(left, [x], outcome);
    SuccessesAppend(left + [x], right, outcome);
    SuccessesAppend(left, right, outcome);
    ThreeParts(Successes(left, outcome), Successes([x], outcome), Successes(right, outcome));
  }

  lemma ThreeParts<T>(p: seq<T>, q: seq<T>, r: seq<T>)
    ensures multiset(p + q + r) == multiset(p + r) + multiset(q)
  {
    calc {
      multiset(p + q + r);
      multiset(p) + multiset(q) + multiset(r);
      multiset(p + r) + multiset(q);
    }
  }

  /** Hence the printed success count, and whether a combined report is written, are the
      same for every completion order. */
  lemma SameTally(username: string, repos: seq<Repo>, outcome: Repo -> Fetch, a: seq<Repo>, b: seq<Repo>)
    requires multiset(a) == multiset(SourceRepos(repos, username))
    requires multiset(b) == multiset(SourceRepos(repos, username))
    ensures |Failures(a, outcome)| == |Failures(b, outcome)|
    ensures (Successes(a, outcome) == []) == (Successes(b, outcome) == [])
  {
    OrderIrrelevant(a, b, outcome);
    assert |Failures(a, outcome)| == |multiset(Failures(a, outcome))|;
    assert |Failures(b, outcome)| == |multiset(Failures(b, outcome))|;
    assert |Successes(a, outcome)| == |multiset(Successes(a, outcome))|;
    assert |Successes(b, outcome)| == |multiset(Successes(b, outcome))|;
  }
}

=== FILE: utils.dfy ===
/**
  `azathoth.core.utils`: the token estimate's fallback and the human-readable
  size formatter, whose integer is printed through `float`.
 */
module Utils {
  import opened Wrappers
  import opened PyNumbers

  /** The `len(text) // 4` estimate used whenever no tokenizer is available. */
  function EstimateTokens(text: string): (r: nat)
    ensures 4 * r <= |text| < 4 * r + 4
  {
    |text| / 4
  }

  /** Estimates are additive up to rounding: the parts never exceed the whole. */
  lemma EstimateTokensAppend(a: string, b: string)
    ensures EstimateTokens(a) + EstimateTokens(b) <= EstimateTokens(a + b) <= EstimateTokens(a) + EstimateTokens(b) + 1
  {
  }

  /** The units `format_size` walks through before falling back to TB. */
  const Units: seq<string> := ["B", "KB", "MB", "GB"]

  function Pow1024(k: nat): (p: nat)
    ensures p >= 1
  {
    if k == 0 then 1 else 1024 * Pow1024(k - 1)
  }

  /** How many times `format_size` divides by 1024: the first `k` at which the
      value drops below 1024, or 4 when it never does among B..GB. */
  function Divisions(n: int): (k: nat)
    ensures k <= 4
    ensures forall j :: 0 <= j < k ==> n / Pow1024(j) >= 1024
    ensures k < 4 ==> n / Pow1024(k) < 1024
  {
    if n / Pow1024(0) < 1024 then 0
    else if n / Pow1024(1) < 1024 then 1
    else if n / Pow1024(2) < 1024 then 2
    else if n / Pow1024(3) < 1024 then 3
    else 4
  }

  /** The division count is the only one with its defining property. */
  lemma DivisionsUnique(n: int, k: nat)
    requires k <= 4
    requires forall j :: 0 <= j < k ==> n / Pow1024(j) >= 1024
    requires k < 4 ==> n / Pow1024(k) < 1024
    ensures k == Divisions(n)
  {
  }

  /** `f"{v:.1f} {unit}"` for an int `v`: `.1f` converts `v` to the nearest double, whose
      value is an integer printed with the fraction `.0`; a `v` too large for a double
      raises OverflowError. */
  function UnitText(v: int, unit: string): Result<string>
  {
    match IntToFloat(v)
    case None => Err("OverflowError")
    case Some(x) => Ok(IntToString(x) + ".0 " + unit)
  }

  /** `format_size(n)`: the value after the divisions, formatted with the unit reached. */
  function SizeText(n: int): Result<string>
  {
    var k := Divisions(n);
    UnitText(n / Pow1024(k), if k < 4 then Units[k] else "TB")
  }

  lemma DivPow1024(n: int, j: nat)
    requires n >= 0
    ensures n / Pow1024(j) / 1024 == n / Pow1024(j + 1)
  {
    DivDiv(n, Pow1024(j), 1024);
  }

  /** The source loop: floor-divide by 1024 until the value fits the unit. */
  method FormatSize(sizeBytes: int) returns (s: Result<string>)
    ensures s == SizeText(sizeBytes)
  {
    var n := sizeBytes;
    var i := 0;
    while i < 4
      invariant 0 <= i <= 4
      invariant i > 0 ==> sizeBytes >= 1024
      invariant n == sizeBytes / Pow1024(i)
      invariant forall j :: 0 <= j < i ==> sizeBytes / Pow1024(j) >= 1024
    {
      if n < 1024 {
        assert Divisions(sizeBytes) == i;
        return UnitText(n, Units[i]);
      }
      DivPow1024(sizeBytes, i);
      n := n / 1024;
      i := i + 1;
    }
    return UnitText(n, "TB");
  }

  /** Sizes below 1 KiB are printed in bytes: unchanged down to -2^53, and a negative size
      too large for a double raises OverflowError. */
  lemma FormatSizeSmall(n: int)
    requires n < 1024
    ensures SizeText(n) == UnitText(n, "B")
    ensures -(Two53 as int) < n ==> SizeText(n) == Ok(IntToString(n) + ".0 B")
    ensures Overflows(n, 0) ==> SizeText(n) == Err("OverflowError")
  {
    if -(Two53 as int) < n {
      IntToFloatExact(n);
      assert IntToString(n) + ".0 " + "B" == IntToString(n) + ".0 B";
    }
  }

  /** Past 1024^4 the value is printed in TB even when it is 1024 or more: exactly below
      2^53, rounded to a double above, and OverflowError beyond the doubles' range. */
  lemma FormatSizeTerabytes(n: int)
    requires n >= Pow1024(4)
    ensures SizeText(n) == UnitText(n / Pow1024(4), "TB")
    ensures n / Pow1024(4) < Two53 ==> SizeText(n) == Ok(IntToString(n / Pow1024(4)) + ".0 TB")
    ensures Overflows(n / Pow1024(4), 0) ==> SizeText(n) == Err("OverflowError")
  {
    forall j | 0 <= j < 4 ensures n / Pow1024(j) >= 1024 {
      DivAtLeast(n, j);
    }
    if n / Pow1024(4) < Two53 {
      IntToFloatExact(n / Pow1024(4));
      assert IntToString(n / Pow1024(4)) + ".0 " + "TB" == IntToString(n / Pow1024(4)) + ".0 TB";
    }
  }

  /** `(2^53 + 1) × 1024^4` bytes is printed as `9007199254740992.0 TB`: the quotient
      2^53 + 1 is no double and rounds to 2^53. */
  lemma FormatSizeRounds()
    ensures SizeText((Two53 + 1) * Pow1024(4)) == Ok(IntToString(Two53) + ".0 TB")
  {
    var p := Pow1024(4);
    var n := (Two53 + 1) * p;
    DivUnique(n, p, Two53 + 1, 0);
    FormatSizeTerabytes(n);
    IntToFloatTie();
    var t := IntToString(Two53);
    assert UnitText(Two53 + 1, "TB") == Ok(t + ".0 " + "TB");
    assert t + ".0 " + "TB" == t + ".0 TB";
  }

  /** Every size a file can have (an `off_t`, below 2^63) is printed exactly: the value
      after the divisions is an integer, then `.0`, then the unit. */
  lemma FileSizesExact(n: int)
    requires 0 <= n < 0x8000_0000_0000_0000
    ensures var k := Divisions(n);
      SizeText(n) == Ok(IntToString(n / Pow1024(k)) + ".0 " + (if k < 4 then Units[k] else "TB"))
  {
    var k := Divisions(n);
    if k == 4 {
      assert Pow1024(4) == 0x100_0000_0000;
      assert n / Pow1024(4) < 0x80_0000;
    }
    IntToFloatExact(n / Pow1024(k));
  }

  lemma DivAtLeast(n: int, j: nat)
    requires j < 4 && n >= Pow1024(4)
    ensures n / Pow1024(j) >= 1024
  {
    var p := Pow1024(j);
    assert Pow1024(j + 1) <= Pow1024(4) by {
      if j + 1 < 4 { assert Pow1024(4) == Pow1024(j + 1) * Pow1024(4 - j - 1) by { Pow1024Add(j + 1, 4 - j - 1); } }
    }
    assert 1024 * p <= n;
  }

  lemma {:induction false} Pow1024Add(a: nat, b: nat)
    ensures Pow1024(a + b) == Pow1024(a) * Pow1024(b)
  {
    if a > 0 {
      Pow1024Add(a - 1, b);
    }
  }

  /** A non-negative size printed in KB..GB shows a value in [1, 1024). */
  lemma FormatSizeInRange(n: int)
    requires n >= 0 && 0 < Divisions(n) < 4
    ensures 1 <= n / Pow1024(Divisions(n)) < 1024
  {
    var k := Divisions(n);
    DivPow1024(n, k - 1);
  }
}

=== FILE: wrappers.dfy ===
/** Failure-compatible wrappers used throughout the model. */
module Wrappers {

  /** An optional value: Python's `None`, Rust's `Option`. */
  datatype Option<+T> = None | Some(value: T)

  /** The outcome of an operation that may raise: `Err` carries the error text. */
  datatype Result<+T> = Ok(value: T) | Err(error: string)
}
